=== FILE: README.md ===
# A local music manager, modelled in Dafny

The system is a local music library. It comes in four variants. Each one serves a single web page that lists the `.mp3` files in its working directory, plays them through a Web Audio effect chain, and downloads new tracks with yt-dlp:

- `beta.py`: a Flask + Socket.IO server; its client is the one the model follows for the Socket.IO flow.
- `k8o5.py`: the Socket.IO server whose download worker streams progress events.
- `k8o5.go`: a Go HTTP server with its own page.
- `aura.py`: a Flask JSON API with its own page.

The model covers the core those programs share:

- **Library listing.** The directory scan keeps only names ending in `.mp3`. They are sorted, and each readable file becomes a base64 data URL. The Python and Go listings handle unreadable files and listing errors differently (`Library`).
- **Path handling.** This covers Go's `filepath.Base` and `filepath.Clean` as far as the delete handler uses them (`Paths`).
- **Deleting a track.** The Go handler sanitises and checks the name and answers 400, 500 or 200. Aura's backend removes whatever path it is given (`Deletion`).
- **Download requests.**
  - The Socket.IO server classifies the query as YouTube, SoundCloud or search.
  - The beta page's Enter key submits a download.
  - The Go server builds the yt-dlp command line and its HTTP answer.
  - The Go and aura download buttons react to the answer (`Sources`).
- **The download worker.** It turns an extraction result into the sequence of `download_start`, `download_progress`, `download_finished` and `download_error` events. The model proves that this sequence follows the start/progress/finish protocol and ends at the first failure (`Worker`).
- **The client's download queue.** The queue is keyed by file name. The model replays the worker's events against it (`DownloadQueue`).
- **The player.** Its state covers the track index, playing/paused, the buffer, the source node, start time and pause offset, speed and autoplay. The operations are:
  - play, toggle, next, previous, seek and speed;
  - the `onended` handler with its natural-end check;
  - reconciling the state with a refreshed library (`Player`).
- **The Go page's library filter.** A case-insensitive substring search, rendered as rows that carry the track's index (`Playlist`).
- **The Web Audio graph.** Each variant's effect chain is a set of edges between node kinds. The model proves that starting, stopping and restarting playback always leaves one linear path from the source to the destination (`SignalGraph`).

`Text` holds the string predicates the rest share: substring, suffix, ordering, insertion into a sorted list, `indexOf`, JavaScript's `trim` and ASCII lower-casing. `Wrappers` holds `Option` and `Result`.

The environment is passed in as parameters:

- the directory contents, a `Directory` of `FileState`s;
- the clock reading and the audio decoder, an `Env`;
- the base64 encoder, `encode`;
- yt-dlp's extraction result and hook calls, an `Extraction`;
- how running the external command went, a `CommandRun`;
- faults on removal, `fault`.

## Model

| member | source | states |
|---|---|---|
| Library.ScanTracks | k8o5.py:36 | the scanned names are strictly ascending, and a name is among them exactly when the directory holds it and it is a track name (no separator, ends in `.mp3`) |
| Library.ListingDeterministic | k8o5.py:34-45 | two listings of the same directory are equal: names, order and data URLs are fixed by the directory alone |
| Library.ReadAllPy | k8o5.py:38-44 | reading succeeds exactly when no listed file raises an error other than not-found; on success the map has a data URL built from the file's own bytes for exactly the readable files, and missing files are skipped; on failure the error is the one of the first failing file in list order |
| Library.ListPy | aura.py:13-24 | a listing error is passed on; otherwise the listing succeeds exactly when no track file is unreadable, a success is a listing of the directory, and a failure carries the error of the least unreadable track name |
| Library.ListGo | k8o5.go:34-63 | a glob error yields no files and an empty map; otherwise the result is a listing of the directory in which unreadable files are only left out of the data; an empty directory gives `null` files, never an empty list |
| Library.PayloadRoundTrip | k8o5.go:50-51 | the part of a data URL after its first comma is exactly the base64 text it was built from |
| Paths.TrimTrailingSeps | k8o5.go:114 | the result is a prefix of the path that does not end in a separator, and everything it drops is separators |
| Paths.LastElement | k8o5.go:114 | the result is a separator-free suffix of the path, preceded by a separator when it is not the whole path |
| Paths.Base | k8o5.go:114 | `filepath.Base` never returns the empty string, and it returns either `/` or a single path element |
| Paths.BaseDropsDirectories | k8o5.go:114 | `Base` of `dir/name` and of `name` alone is `name`, for any directory part |
| Paths.LastElementAfterSep | k8o5.go:114 | the last element of `dir/name` is `name` |
| Paths.LastElementOfElement | k8o5.go:114 | a single element is its own last element |
| Paths.Split | k8o5.go:114 | splitting at separators gives at least one part, and no part contains a separator |
| Paths.Resolve | k8o5.go:114 | lexical resolution keeps only non-empty, non-`.` elements, and on a rooted path no `..` survives |
| Paths.Clean | k8o5.go:114 | `filepath.Clean` never returns the empty string, and its result is rooted exactly when the input is |
| Paths.CleanElement | k8o5.go:114 | cleaning a non-empty single element leaves it unchanged |
| Paths.CleanBase | k8o5.go:114 | cleaning after `Base` changes nothing, so the handler's name is `Base` of the request |
| Deletion.Remove | k8o5.go:120-124 | removal succeeds exactly when the file exists and no fault occurs, and it then deletes exactly that entry; a missing file fails with not-found |
| Deletion.Sanitize | k8o5.go:114 | the sanitised name is `Base` of the requested one |
| Deletion.Answer | k8o5.go:115-127 | the answer is 400 exactly for a refused name; every answer other than 200 leaves the directory unchanged; 200 means the named file existed and is now gone, and nothing else changed |
| Deletion.DeleteGoAsWritten | k8o5.go:106-128 | the handler as written answers 400 exactly when the sanitised name contains `..` or lacks the `.mp3` suffix; only a 200 changes the directory, and then it removes exactly the sanitised name, which is a track name |
| Deletion.DeleteGo | k8o5.go:106-128 | the corrected handler answers 400 exactly when the sanitised name is not a track name; only a 200 changes the directory, and then it removes exactly that track |
| Deletion.GoDeleteDiscardsDirectories | k8o5.go:114 | a directory part in front of a track name makes no difference to either handler |
| Deletion.GoDeleteStaysInLibrary | k8o5.go:113-118 | no request makes either handler remove or alter an entry that is not a track name |
| Deletion.GoListedTrackDeletable | k8o5.go:106-128 | every track the listing can show is deleted with a 200 by the corrected handler, and the next listing no longer holds it |
| Deletion.GoAsWrittenRefusesListedTrack | k8o5.go:115 | `Wait....mp3` is a track name that the listing shows; the handler as written refuses it with 400 and the corrected one deletes it |
| Deletion.DeleteAura | aura.py:43-52 | success exactly when `os.path.exists` holds (the spelling resolves to an entry that is not a dangling link) and the removal raises nothing, and only then is exactly the entry it resolves to gone; a path that does not exist gives the not-found message under the spelling given and changes nothing; a fault gives the deletion-failed message and leaves the directory unchanged |
| Deletion.AuraDeleteThenList | aura.py:43-52 | after a successful delete the next listing is the old one without the file the name resolved to, whatever spelling named it; after any failure the listing is as it was |
| Deletion.AuraRemovesAnyPath | aura.py:43-52 | aura applies no name check: any spelling that resolves to an existing path, inside a directory or not, removes it |
| Deletion.AuraAliasesAgree | aura.py:46-48 | two spellings that resolve to the same path succeed or fail together and leave the same directory |
| Deletion.AuraDotSlashRemovesTrack | aura.py:46-48 | `./x.mp3` for a listed, readable `x.mp3` succeeds, and the next listing no longer holds `x.mp3` |
| Deletion.AuraKeepsDanglingLink | aura.py:46-50 | a listed dangling link is reported as not found and stays in the directory, since `os.path.exists` follows the link |
| Sources.Classify | k8o5.py:83-88 | the source is YouTube exactly when the query mentions `youtube.com` or `youtu.be`; it is SoundCloud exactly when it mentions `soundcloud.com` and no YouTube host; otherwise it is a search |
| Sources.YouTubeWinsOverSoundCloud | k8o5.py:85-88 | a query that mentions both hosts goes to YouTube |
| Sources.PlainTextIsSearch | k8o5.py:83-88 | a query without a dot is always a search |
| Sources.ClassifyFindsLinkAnywhere | k8o5.py:85-88 | a link anywhere inside surrounding text classifies the query as if it stood alone |
| Sources.EnterSubmit | beta.py:877-884 | Enter emits a download exactly when the box holds a non-space character; what is emitted is the box with only its leading and trailing white space cut, it neither starts nor ends with white space, and the box is then cleared; otherwise the box is left as it was |
| Text.Trim | beta.py:879 | `trim()` cuts the leading and trailing white space and nothing else: the result is the middle of the text, neither starts nor ends with white space, and is empty exactly for all-white-space text |
| Text.TrimUnique | beta.py:879 | any way of cutting white space from both ends that leaves no white space at either end gives `trim()`'s result |
| Sources.SubmitDropsSurroundingSpace | beta.py:877-884 | a query typed with white space around it is sent as the query alone, and the box is cleared |
| Sources.SearchArgumentParses | k8o5.go:73-79 | yt-dlp reads the argument back as the chosen prefix and the query unchanged, colons included |
| Sources.SearchSelectsService | k8o5.go:73-77 | the yt-dlp argument starts with `scsearch:` exactly when the client asked for `soundcloud`, and with `ytsearch:` for every other source |
| Sources.DownloadGo | k8o5.go:66-104 | a command is run exactly when yt-dlp is installed, and it ends with the search argument; the answer is 200 exactly for a zero exit status, otherwise a 500 with a non-empty body; a failed run's body carries the error and the output |
| Sources.ClickGo | k8o5.go:501-531 | an empty box sends nothing and keeps the box; otherwise it sends (box, source) and clears the box; a 2xx answer refreshes the playlist, and any other answer alerts with the body, or with "Server error" when the body is empty |
| Sources.GoButtonEndToEnd | k8o5.go:66-104 | across client and server: the page refreshes exactly when the download succeeded; otherwise it alerts with the server's message; the command searches the service of the button pressed |
| Sources.ClickAura | aura.py:402-432 | an empty box sends nothing; otherwise the query goes out with the button's source; `success` refreshes the playlist, and an error alerts with its message; the box is never cleared |
| Sources.AuraButtonEndToEnd | aura.py:65-71 | across client and server: aura refreshes exactly when the download raised nothing, and otherwise alerts with the exception's message |
| Worker.SingleIsOneEntryPlaylist | k8o5.py:141 | a single video is downloaded, with the same events, as a playlist holding only it |
| Worker.OrUnknown | k8o5.py:160 | the error key is never empty: the current id when it is set, `unknown` otherwise |
| Worker.Hook | k8o5.py:100-120 | a "downloading" report moves the id to the reported title and other statuses keep it; the hook raises exactly on a reporting call with a `None` speed under the as-written handling; otherwise it emits one progress event under the new id exactly when the report carries a total and a title |
| Worker.RunHooks | k8o5.py:100-120 | the hook calls of one download emit only progress events with non-empty keys, and they raise exactly when some call raises |
| Worker.RunEntry | k8o5.py:143-156 | each entry starts with `download_start` under its title; it ends in `download_finished` under the key the hooks left exactly when the URL exists, no hook raised and the download returned; between the two there is only progress; a missing URL fails right after the start |
| Worker.RunAll | k8o5.py:143-156 | no entries means no events |
| Worker.TraceAsWritten | k8o5.py:135-160 | a failed extraction yields a single error under `unknown` |
| Worker.Trace | k8o5.py:135-160 | a failed extraction yields a single error under `unknown` |
| Worker.WalkRunAll | k8o5.py:143-156 | the loop's events follow the protocol: a completed run ends idle, and an aborted one ends with a download still open |
| Worker.TraceWellFormed | k8o5.py:135-160 | every trace follows the start, progress, finish protocol and may end in one error; nothing but the last event is an error |
| Worker.TraceFollowsProtocol | k8o5.py:135-160 | every trace is accepted by the protocol automaton |
| Worker.DoneIsFinal | k8o5.py:158-160 | no event can follow an error |
| Worker.CountsAppend | k8o5.py:143-156 | starts, finishes and errors of a concatenation are the sums of those of its parts |
| Worker.CountsOfEntry | k8o5.py:143-156 | one entry starts once under its title, finishes once exactly when it succeeded, and raises no error event itself |
| Worker.CountsOfCompletedFirst | k8o5.py:143-156 | a successful first entry adds its start and one finish in front of what the rest of the playlist does |
| Worker.AllSucceed | k8o5.py:143-156 | when every entry succeeds, the run starts each entry once, in order, under its title and finishes all of them |
| Worker.FirstFailureEnds | k8o5.py:143-160 | the first failing entry ends the run: entries up to and including it are started, only the ones before it finish, and later entries are never started |
| Worker.TraceCounts | k8o5.py:135-160 | a successful trace has one start per entry, in order, one finish per entry and no error; a failing trace has exactly one error, as its last event, with a non-empty key |
| Worker.StableEntryKey | k8o5.py:100-108 | an entry whose reports keep its title is known by its start key to the end, and every event it emits carries that key |
| Worker.FailureIsFirstFailing | k8o5.py:143-160 | the loop ends with the first failing entry's exception, and `download_id` as that entry left it |
| Worker.RunAllCons | k8o5.py:143-156 | a completed first entry's events come first, and the loop carries on from the key it left behind |
| Worker.TraceFailureKey | k8o5.py:158-160 | the error event that ends a failed run carries the first failing entry's exception under the key that entry was last known by; for an entry whose reports keep its title, that is the key its start used |
| Worker.StableRunKeys | k8o5.py:143-156 | in a run over entries that keep their titles, every event is filed under one of their start keys |
| Worker.StableTitleKeepsKey | k8o5.py:106-108 | when every report names the entry's own title, the key never changes and all progress is under that title |
| Worker.HookRekeys | k8o5.py:143-156 | when the reported title differs from the entry's title, the start event and the finish event carry different keys |
| Worker.ExtractionFailureIsUnknown | k8o5.py:158-160 | an extraction failure is reported under `unknown` |
| Worker.NullSpeedAbortsAsWritten | k8o5.py:113-118 | as written, a progress report without a speed aborts a download that would otherwise finish |
| Worker.ReportsNeverAbort | k8o5.py:110-119 | with a missing speed read as zero, an entry fails exactly when its URL is missing or the download itself raises |
| DownloadQueue.Find | beta.py:619 | the lookup finds the item with the given key, or reports -1 exactly when there is none |
| DownloadQueue.OnStart | beta.py:614-616 | a new key gets a "Preparing" item at the end; a key already queued changes nothing; keys stay distinct |
| DownloadQueue.OnProgress | beta.py:618-626 | only the item with that key changes, to in-progress; keys, order and length are kept; an unknown key changes nothing |
| DownloadQueue.RemoveKey | beta.py:628-634 | exactly the item with that key leaves the queue, and the remaining items keep their order; an unknown key changes nothing |
| DownloadQueue.OnFinished | beta.py:628-634 | the finished key leaves the queue with the other items in order, the playlist is refreshed, and no alert is shown |
| DownloadQueue.OnError | beta.py:636-642 | the failed key leaves the queue with the other items in order, and an alert names the key and the message; there is no refresh |
| DownloadQueue.Apply | beta.py:614-642 | an event refreshes the playlist exactly when it is a finish, and alerts exactly when it is an error; the queue stays valid |
| DownloadQueue.Replay | beta.py:614-642 | replaying a trace keeps the queue valid, and it refreshes at most once per event |
| DownloadQueue.StartIdempotent | beta.py:648 | a repeated start adds nothing |
| DownloadQueue.StartThenFinishRestores | beta.py:614-634 | start then finish of a new key leaves the queue as it was |
| DownloadQueue.ReplayAppend | beta.py:614-642 | replaying two traces one after the other is replaying their concatenation |
| DownloadQueue.ReplayEntry | beta.py:614-634 | for an entry whose reports keep its title, one completed download leaves the queue as it was and refreshes the library once |
| DownloadQueue.ReplayCompletedRun | beta.py:614-634 | a completed playlist run leaves the queue as it was and refreshes once per entry |
| DownloadQueue.ReplayFailedEntry | beta.py:614-642 | a failed download whose reports keep its title, followed by its error, shows its item and takes it down again without a refresh |
| DownloadQueue.ReplayFailedRun | beta.py:614-642 | a playlist whose entry `k` fails first leaves the queue as it was, after one refresh per completed entry; the error takes the failing item down |
| DownloadQueue.ReplayUpToFailure | beta.py:614-642 | the loop's events up to its first failure, then the error under the failing entry's key, leave the queue as it was after one refresh per completed entry |
| DownloadQueue.ReplayEntryThen | beta.py:614-642 | a completed download followed by any events hands the rest an unchanged queue and adds one refresh |
| DownloadQueue.ReplayAfterReturn | beta.py:614-642 | events that bring the queue back to where it was let the rest of a trace run as if they had not happened, adding their refreshes |
| DownloadQueue.Lookup | beta.py:567 | `getElementById` finds the queue container itself exactly when the key is `queue` |
| DownloadQueue.IdOfQueue | beta.py:567 | the item id `download-` + name equals the container's id exactly for the name `queue` |
| DownloadQueue.OnStartAsWritten | beta.py:644-662 | as written, a key whose id is already taken, the container's included, adds nothing |
| DownloadQueue.OnFinishedAsWritten | beta.py:628-634 | as written, finishing `queue` removes the whole container; any other key is removed as in the keyed queue |
| DownloadQueue.OnProgressAsWritten | beta.py:618-626 | as written, progress for `queue` marks the first item in progress, or changes nothing on an empty queue where the handler throws; any other key is handled as in the keyed queue |
| DownloadQueue.OnErrorAsWritten | beta.py:636-642 | as written, an error alerts with the key and message; for `queue` it removes the whole container, and any other key is removed as in the keyed queue |
| DownloadQueue.ApplyAsWritten | beta.py:614-642 | as written, an event refreshes exactly when it is a finish and alerts exactly when it is an error, and the queue stays valid |
| DownloadQueue.ReplayAsWritten | beta.py:614-642 | replaying a trace as written keeps the queue valid, with at most one refresh per event |
| DownloadQueue.AsWrittenAgrees | beta.py:567 | for every key but `queue` each handler as written does what the keyed one does |
| DownloadQueue.ReplayAsWrittenAgrees | beta.py:614-642 | a trace that never uses the key `queue` is handled as written exactly as by the keyed queue |
| DownloadQueue.CompletedRunAsWritten | beta.py:614-642 | as written, a completed run with no title `queue` leaves the queue as it was and refreshes once per entry |
| DownloadQueue.QueueTitleCollides | beta.py:567 | a track titled `queue` is never shown, its progress is drawn on another item, and its finish or failure deletes the queue with every other item and every later start; the corrected queue handles it like any other title |
| Player.InitialValid | beta.py:733-799 | the page starts in a valid state |
| Player.JsRem | beta.py:951-961 | JavaScript's `%` truncates toward zero: the result differs from the dividend by a multiple of the divisor, has the dividend's sign, its magnitude is below the divisor, and small values come back unchanged |
| Player.StepsStayInList | beta.py:951-961 | next and previous from any valid index land in the list; from no track, next plays the first and previous plays the second-to-last, or the only track |
| Player.PrevUndoesNext | beta.py:951-961 | previous undoes next and next undoes previous, and both wrap around the ends |
| Player.StopSong | beta.py:782-799 | stopping leaves nothing playing and no source; the end of a track resets the offset to 0; a manual stop while playing remembers the elapsed time; nothing else changes |
| Player.StartPlayback | beta.py:760-780 | without a buffer nothing happens; otherwise a source at the current speed plays from the offset, its rate taking effect now, and the start time is set so that the elapsed time equals the offset |
| Player.StartKeepsRate | beta.py:774-776 | a source just started sits at its offset, and the page's clock origin describes it |
| Player.PlaySong | beta.py:733-758 | an index outside the list is ignored; otherwise the first such call sets up the audio context and puts the speed back to 1, the index moves, and the track plays exactly when its data exists and decodes, from the given offset at the slider's speed; otherwise the old buffer is kept and playback stays stopped |
| Player.FirstPlayResetsSpeed | beta.py:729-735 | a speed chosen before anything has played is dropped by the first play, whose `initAudio` ends in `resetEffects` and `updateSpeed(1)`: the track plays at normal speed |
| Player.LaterPlaysKeepSpeed | beta.py:735-764 | once the audio context exists, playing a track keeps the slider's speed and the new source plays at it |
| Player.Toggle | beta.py:941-949 | with no track, the first one plays; while playing, it pauses; while paused with a buffer, it resumes from the pause offset; otherwise it does nothing |
| Player.Next | beta.py:951-955 | on a non-empty list the index becomes the next one, wrapping around; an empty list is ignored |
| Player.Prev | beta.py:957-961 | on a non-empty list the index becomes the previous one, wrapping around; an empty list is ignored |
| Player.PrevAfterNext | beta.py:951-961 | previous after next returns to the same track |
| Player.Clamp01 | beta.py:849-858 | the fraction is clamped to [0, 1]: kept inside it, 0 below it, 1 above it |
| Player.SeekTime | beta.py:849-858 | the seek time is that fraction of the duration inside [0, 1], the start of the track for a click left of the bar and the end for one right of it, and always within the track |
| Player.Seek | beta.py:849-858 | seeking needs a buffer, and on beta it needs playback; a seek that plays restarts the same track at a time within it |
| Player.SetSpeed | beta.py:1003-1006 | the slider sets the speed and the rate of a playing source, which carries on from the track position it has reached at the new rate; nothing else changes |
| Player.PauseThenResume | beta.py:941-949 | pausing and then resuming plays the same track at the same speed from the pause offset |
| Player.PauseOffsetAtNormalSpeed | beta.py:782-799 | at speed 1, kept since the start, the pause offset is the track position |
| Player.OnEndedAsWritten | beta.py:767-772 | `onended` without a source does nothing; without the elapsed-time check (the Go page) it always advances |
| Player.OnEnded | beta.py:767-772 | as the as-written handler, but the check compares the track position the source has reached, across speed changes, with the duration |
| Player.EndCheckMeansNaturalEnd | beta.py:767-772 | the corrected check holds exactly when the clock has reached the track's natural end, less 0.1 s, where the natural end counts from the last speed change |
| Player.NaturalEndIsRecognised | beta.py:767-772 | at the natural end, speed changes included, the corrected handler always acts: with autoplay it moves to the next track, otherwise it stops with the offset reset |
| Player.ChecksAgreeFromStart | beta.py:767-772 | with no speed change since the start, the two checks agree when playback started at offset 0, and the one as written sees the end at speeds of 1 or more |
| Player.SlowResumeMissesEnd | beta.py:767-772 | a track resumed at half speed after 10 s ends unnoticed by the check as written; the corrected check advances |
| Player.SpeedChangeMissesEnd | beta.py:1003-1006 | a track slowed from double to half speed 25 s in ends at clock 125 unnoticed by the check as written; the corrected check advances |
| Player.SpeedChangeMovesEnd | beta.py:1003-1006 | the natural end is where the position reaches the buffer's duration, and after a rate change it lies the remaining track, at the new rate, past the change |
| Player.ManualStopNeverAdvances | beta.py:786 | after a stop the source's `onended` never advances, since the source is gone |
| Player.CurrentName | beta.py:801-824 | the current name is in the list and non-empty, and in a valid state it exists exactly when a track is selected |
| Player.Reconcile | beta.py:801-824 | after a refresh the list and data are the new ones; the current track keeps playing at its new index when it is still there, and otherwise playback stops and nothing is selected |
| Player.ReconcileGo | k8o5.go:282-308 | the Go page reads `null` files as an empty list and otherwise reconciles like the others |
| Player.RefreshKeepsTrack | beta.py:801-824 | the selected track survives a refresh exactly when its name is still listed, and otherwise the selection is cleared |
| Player.RefreshIdempotent | beta.py:801-824 | refreshing twice with the same listing is refreshing once |
| Playlist.Filtered | k8o5.go:564-565 | the filter never lengthens the list |
| Playlist.FilteredMembers | k8o5.go:564-565 | a name is kept exactly when it is in the library and its lower-case form contains the lower-case search text |
| Playlist.MatchingRows | k8o5.go:576-585 | one row per matching name, in library order; each row's index points at a library entry of that name; for distinct names the indices ascend |
| Playlist.Render | k8o5.go:562-586 | "no songs" exactly for an empty library; "no matches" exactly when a non-empty library has no match; otherwise the matching rows, with correct indices |
| Playlist.EmptyFilterShowsAll | k8o5.go:564-565 | an empty search box shows the whole library |
| Playlist.FilterIgnoresCase | k8o5.go:564-565 | the case of the search text makes no difference |
| SignalGraph.Chain | beta.py:718-726 | every effect chain runs from the gain node to the analyser |
| SignalGraph.ConnectChain | beta.py:718-726 | connecting a chain adds exactly its consecutive links to the graph |
| SignalGraph.FirstStartPlays | beta.py:692-780 | the first start after set-up gives the playing graph |
| SignalGraph.RestartPlays | beta.py:760-799 | `stopSong`'s disconnect leaves the source with no successors and the rest of the graph unchanged; a restart gives the playing graph again, and no edges pile up |
| SignalGraph.LinearChain | beta.py:718-726 | in a chain of distinct nodes each node leads to exactly the next one, and the last leads nowhere |
| SignalGraph.ChainShape | beta.py:718-726 | with the outputs attached, each chain node still leads to exactly the next one |
| SignalGraph.OutputShape | beta.py:724-726 | the analyser feeds the dry and wet gains, the wet gain feeds the reverb, and both the dry gain and the reverb reach the destination, which leads nowhere |
| SignalGraph.SignalPath | beta.py:692-780 | while playing, every variant has one linear path from the source through its chain to the analyser, then through dry and wet paths to the destination |

## Left out

- Network, sockets, threads and the order in which asynchronous handlers interleave. Each handler is one pure step, and event traces are replayed in order.
- Progress percentages, MB/s text, DOM markup, CSS and the visualiser. The model keeps which item is shown and in which state, not how it is drawn.
- JSON decoding errors (the Go handlers' 400 on a malformed body) and `None` queries in the Python handlers. The model starts after a well-formed request has been decoded.
- yt-dlp's and ffmpeg's internals, including the ffmpeg check and install. Extraction, hook calls and command outcomes are inputs.
- Base64 encoding. It is the `encode` parameter; only its place in the data URL is modelled.
- Unicode lower-casing. `toLowerCase` is modelled on ASCII letters only.
- Floating point. Times, rates and durations are reals.
- Web Audio node parameters (gains, frequencies of the shelving filters, compressor settings, reverb impulse). Nodes are reduced to kinds; the EQ bands keep their frequencies.
- The effect sliders other than speed, which only change node parameters.
- The `k8o5.py` page, which is not part of this model beyond its server. Its Socket.IO handlers are those of `beta.py`, which the model follows.
- The Go listing's 500 on a glob error. `filepath.Glob("*.mp3")` only fails on a malformed pattern, so `ListGo` returns no files instead of a 500.
- Worker.RunAll: its contract only fixes the empty case. The counts and the protocol it follows are stated by WalkRunAll, AllSucceed and FirstFailureEnds.
- Worker.TraceAsWritten: its contract only fixes a failed extraction; TraceWellFormed and TraceCounts hold for both handlings of a `None` speed, so they state the rest of it too.
- Worker.Trace: the same holds for its contract; TraceWellFormed, TraceCounts and ReportsNeverAbort state the rest.
- Playlist.MatchingRows: ascending indices are promised only for a library without repeated names, because `indexOf` returns the first position of a repeated name. A directory listing never repeats one.
- Player.StopSong: a manual stop stores the clock time since the virtual start as the pause offset, and the resume plays from it as a track position. At rates other than 1 a pause and resume therefore moves the position; the model keeps that behaviour, and PauseOffsetAtNormalSpeed states the rate-1 case where the two agree.
- Player.OnEndedAsWritten: its contract covers the missing source and the unchecked Go page; what the beta/aura check accepts is shown by ChecksAgreeFromStart and SlowResumeMissesEnd.
- Player.OnEnded: the elapsed-time condition itself is stated by EndCheckMeansNaturalEnd and NaturalEndIsRecognised, not in the function's own contract.
- Entries of a playlist do not fail on their own: the whole loop sits in one `try`, so the first failure ends the run and later entries are never started (Worker.FirstFailureEnds).
- The start event carries `entry.get('title', 'Downloading...')`; later events carry whatever title the progress reports give, which can differ from it (Worker.HookRekeys).
- Deletion.DeleteAura: how a spelling of a path resolves to a file (the working directory, `.` and `..`, links to directories) is the operating system's, so it is the `resolve` parameter; the model states what holds for every resolver.
- The `UnusedSource` node in aura's `initAudio`: the model keeps its edge to the gain node, which never carries sound.

## Findings

| source | as written | input that shows it | evidently intended | confidence | as-written member | corrected member |
|---|---|---|---|---|---|---|
| beta.py:767-772 | `onended` accepts the end only when `currentTime - startTime` reaches `duration / playbackRate - 0.1`. `startTime` is `currentTime - offset`, so the offset counts as clock seconds, while the audio still to play lasts `(duration - offset) / playbackRate`; and `updateSpeed` (beta.py:1003-1006) changes the rate without moving `startTime`. aura.py:301-305 has the same check. | duration 100 s, resumed from offset 10 s at rate 0.5: the audio runs out at clock 180, where the check sees 190 s elapsed against the 199.9 s it needs, so the handler does nothing and the page stays on a silent track; likewise a track played from 0 at rate 2 and slowed to 0.5 at clock 25 runs out at clock 125 | accept the end once the remaining part of the track has played at the rates in force, which needs `updateSpeed` to record the clock time and position of each change | high, not executed | Player.OnEndedAsWritten (shown by Player.SlowResumeMissesEnd and Player.SpeedChangeMissesEnd) | Player.OnEnded (proved by Player.EndCheckMeansNaturalEnd and Player.NaturalEndIsRecognised) |
| k8o5.go:115 | the delete handler refuses any cleaned name containing `..` | `Wait....mp3`, which the listing shows, is refused with 400 | since `Base` already removed every directory part, refuse only names that are not `.mp3` track names | high, not executed | Deletion.DeleteGoAsWritten (shown by Deletion.GoAsWrittenRefusesListedTrack) | Deletion.DeleteGo (proved by Deletion.GoListedTrackDeletable and Deletion.GoDeleteStaysInLibrary) |
| k8o5.py:113-118 | the progress hook divides `d.get('speed', 0)` by 1024, which raises when yt-dlp reports `speed` as `None` | a "downloading" report with a total and `speed: None` aborts the whole download with an error event | treat a missing speed as 0 and keep downloading | medium, not executed | Worker.TraceAsWritten (shown by Worker.NullSpeedAbortsAsWritten) | Worker.Trace (proved by Worker.ReportsNeverAbort) |
| beta.py:567 | queue items use the element id `download-` + title (beta.py:644-662), and `download-queue` is the id of the queue container, so a title can name the container | a track titled `queue`: its start is taken as a duplicate, and its finish removes the container with all items | keep item ids apart from the container's id, so every title is queued and removed on its own | high, not executed | DownloadQueue.OnStartAsWritten, DownloadQueue.OnFinishedAsWritten (shown by DownloadQueue.QueueTitleCollides) | DownloadQueue.OnStart, DownloadQueue.OnFinished (proved by DownloadQueue.StartThenFinishRestores and DownloadQueue.ReplayCompletedRun) |

=== FILE: deletion.dfy ===
/** Deleting a track: the Go server's `deleteHandler`, which sanitises the
    requested name before removing it, and aura.py's `delete_song_backend`,
    which checks existence and removes whatever path it is given. */
module Deletion {

  import opened Wrappers
  import opened Text
  import opened Paths
  import opened Library

  /** Why `os.Remove` / `os.remove` failed. */
  datatype RemoveError = NoSuchFile | OsError(message: string)

  /** Removing one path. `fault` is the operating-system error the removal
      raises when it is refused for a reason other than a missing file
      (permissions, a directory); the model does not say when that happens. */
  function Remove(d: Directory, path: string, fault: Option<string>): (r: Result<Directory, RemoveError>)
    ensures r.Success? <==> path in d.entries && fault.None?
    ensures r.Success? ==> r.value == Directory(d.entries - {path}, d.listError)
    ensures path !in d.entries ==> r == Failure(NoSuchFile)
  {
    if path !in d.entries then Failure(NoSuchFile)
    else if fault.Some? then Failure(OsError(fault.value))
    else Success(Directory(d.entries - {path}, d.listError))
  }

  // ---------------------------------------------------------------------------
  // Go: deleteHandler
  // ---------------------------------------------------------------------------

  /** The HTTP status the handler answers with. */
  datatype GoStatus = Ok200 | BadRequest400 | ServerError500

  datatype GoDeleteOutcome = GoDeleteOutcome(status: GoStatus, dir: Directory)

  /** `filepath.Clean(filepath.Base(name))`. */
  function Sanitize(name: string): (r: string)
    ensures r == Base(name)
  {
    CleanBase(name);
    Clean(Base(name))
  }

  /** The handler's name check as written: no ".." anywhere, and the ".mp3" suffix. */
  predicate AcceptedAsWritten(clean: string) {
    !Contains(clean, "..") && EndsWith(clean, Mp3Suffix)
  }

  /** The name check the handler evidently intends: it guards against path
      traversal, which `Base` has already ruled out, and against removing
      anything but an MP3. */
  predicate Accepted(clean: string) {
    EndsWith(clean, Mp3Suffix)
  }

  /** The handler once the name is sanitised and checked: 400 for a refused
      name, 500 when the removal fails, 200 once the file is gone. */
  function Answer(d: Directory, clean: string, accepted: bool, fault: Option<string>): (r: GoDeleteOutcome)
    ensures r.status == BadRequest400 <==> !accepted
    ensures r.status != Ok200 ==> r.dir == d
    ensures r.status == Ok200 ==>
      clean in d.entries && r.dir == Directory(d.entries - {clean}, d.listError)
  {
    if !accepted then GoDeleteOutcome(BadRequest400, d)
    else
      match Remove(d, clean, fault)
      case Failure(_) => GoDeleteOutcome(ServerError500, d)
      case Success(d') => GoDeleteOutcome(Ok200, d')
  }

  /** `deleteHandler` as written: 400 and no change for a rejected name, 500
      and no change when the removal fails, otherwise the sanitised name (never
      the requested path) is removed. */
  function DeleteGoAsWritten(d: Directory, name: string, fault: Option<string>): (r: GoDeleteOutcome)
    ensures r.status == BadRequest400 <==>
      Contains(Sanitize(name), "..") || !EndsWith(Sanitize(name), Mp3Suffix)
    ensures r.status != Ok200 ==> r.dir == d
    ensures r.status == Ok200 ==>
      Sanitize(name) in d.entries && IsTrackName(Sanitize(name))
      && r.dir == Directory(d.entries - {Sanitize(name)}, d.listError)
  {
    var clean := Sanitize(name);
    assert EndsWith(clean, Mp3Suffix) ==> clean != [Sep] by {
      assert !EndsWith([Sep], Mp3Suffix);
    }
    Answer(d, clean, AcceptedAsWritten(clean), fault)
  }

  /** `deleteHandler` with the intended name check: the only names refused are
      those whose sanitised form is not an MP3 file name. */
  function DeleteGo(d: Directory, name: string, fault: Option<string>): (r: GoDeleteOutcome)
    ensures r.status == BadRequest400 <==> !IsTrackName(Sanitize(name))
    ensures r.status != Ok200 ==> r.dir == d
    ensures r.status == Ok200 ==>
      Sanitize(name) in d.entries && IsTrackName(Sanitize(name))
      && r.dir == Directory(d.entries - {Sanitize(name)}, d.listError)
  {
    var clean := Sanitize(name);
    assert EndsWith(clean, Mp3Suffix) ==> clean != [Sep] by {
      assert !EndsWith([Sep], Mp3Suffix);
    }
    Answer(d, clean, Accepted(clean), fault)
  }

  /** The directory part of a request is discarded: asking to delete
      "any/dir/x.mp3" deletes "x.mp3" in the library directory. */
  lemma GoDeleteDiscardsDirectories(d: Directory, dir: string, name: string, fault: Option<string>)
    requires IsTrackName(name)
    ensures DeleteGo(d, dir + [Sep] + name, fault) == DeleteGo(d, name, fault)
    ensures DeleteGoAsWritten(d, dir + [Sep] + name, fault) == DeleteGoAsWritten(d, name, fault)
  {
    assert name != [] by { assert !EndsWith([], Mp3Suffix); }
    BaseDropsDirectories(dir, name);
  }

  /** Nothing outside the library directory, and nothing that is not an MP3,
      is ever removed, whatever name is requested. */
  lemma GoDeleteStaysInLibrary(d: Directory, name: string, fault: Option<string>)
    ensures forall p :: p in d.entries && !IsTrackName(p) ==>
      p in DeleteGo(d, name, fault).dir.entries && DeleteGo(d, name, fault).dir.entries[p] == d.entries[p]
    ensures forall p :: p in d.entries && !IsTrackName(p) ==>
      p in DeleteGoAsWritten(d, name, fault).dir.entries
      && DeleteGoAsWritten(d, name, fault).dir.entries[p] == d.entries[p]
  {
    var clean := Sanitize(name);
    var r, w := DeleteGo(d, name, fault), DeleteGoAsWritten(d, name, fault);
    assert r.status == Ok200 ==> IsTrackName(clean);
    assert w.status == Ok200 ==> IsTrackName(clean);
    forall p | p in d.entries && !IsTrackName(p)
      ensures p in r.dir.entries && r.dir.entries[p] == d.entries[p]
      ensures p in w.dir.entries && w.dir.entries[p] == d.entries[p]
    {
      assert IsTrackName(clean) ==> p != clean;
    }
  }

  /** With the intended check every listed track can be deleted from the UI,
      and afterwards no listing shows it. */
  lemma GoListedTrackDeletable(d: Directory, name: string, l: Listing, encode: Bytes -> string)
    requires name in d.entries && IsTrackName(name)
    ensures DeleteGo(d, name, None).status == Ok200
    ensures IsListingOf(DeleteGo(d, name, None).dir.entries, l, encode) ==> name !in l.files
  {
    assert name != [] by { assert !EndsWith([], Mp3Suffix); }
    BaseDropsDirectories([], name);
  }

  /** The check as written refuses a track the listing shows: a title ending in
      "..." gives the file "Wait....mp3", which contains "..". */
  lemma GoAsWrittenRefusesListedTrack(d: Directory)
    requires "Wait....mp3" in d.entries
    ensures IsTrackName("Wait....mp3")
    ensures DeleteGoAsWritten(d, "Wait....mp3", None).status == BadRequest400
    ensures DeleteGo(d, "Wait....mp3", None).status == Ok200
  {
    DotsInTrackName();
    GoListedTrackDeletable(d, "Wait....mp3", Listing([], map[]), b => "");
  }

  /** "Wait....mp3" is a track name, is its own sanitised form, and contains "..". */
  lemma DotsInTrackName()
    ensures IsTrackName("Wait....mp3")
    ensures Sanitize("Wait....mp3") == "Wait....mp3"
    ensures Contains("Wait....mp3", "..")
  {
    var n := "Wait....mp3";
    assert n[4..6] == "..";
    ContainsAt(n, "..", 4);
    assert IsTrackName(n);
    assert n != [] && IsElement(n);
    BaseDropsDirectories([], n);
  }

  // ---------------------------------------------------------------------------
  // aura.py: delete_song_backend
  // ---------------------------------------------------------------------------

  /** The JSON the aura server answers with. */
  datatype AuraResult = AuraSuccess | AuraError(message: string)

  /** How the operating system resolves a spelling of a path against the
      working directory: the key of the entry it names, so that `x.mp3`,
      `./x.mp3` and `sub/../x.mp3` may all name "x.mp3". The resolution (the
      working directory, `.` and `..`, links to directories) belongs to the
      operating system, so it is a parameter. */
  type Resolver = string -> string

  /** `os.path.exists`: the path names an entry and, following links, reaches
      a file; a dangling link does not exist. */
  predicate PathExists(d: Directory, resolve: Resolver, path: string) {
    resolve(path) in d.entries && !d.entries[resolve(path)].Vanished?
  }

  /** `delete_song_backend`: no validation of the name; an existing path is
      removed, a missing one (or a dangling link) reported as not found under
      the spelling it was given, and a refused removal reported with the
      operating system's message. */
  function DeleteAura(d: Directory, resolve: Resolver, filename: string, fault: Option<string>): (r: (AuraResult, Directory))
    ensures r.0 == AuraSuccess <==> PathExists(d, resolve, filename) && fault.None?
    ensures r.0 == AuraSuccess ==> r.1 == Directory(d.entries - {resolve(filename)}, d.listError)
    ensures !PathExists(d, resolve, filename) ==> r == (AuraError("File '" + filename + "' not found."), d)
    ensures PathExists(d, resolve, filename) && fault.Some? ==>
      r == (AuraError("Deletion failed: " + fault.value), d)
  {
    if PathExists(d, resolve, filename) then
      match Remove(d, resolve(filename), fault)
      case Success(d') => (AuraSuccess, d')
      case Failure(e) =>
        var msg := if e.OsError? then e.message else "";
        (AuraError("Deletion failed: " + msg), d)
    else (AuraError("File '" + filename + "' not found."), d)
  }

  /** After a successful delete the next listing (a fresh scan) is the old
      one without the file the name resolved to; after any failure the
      listing is unchanged. */
  lemma AuraDeleteThenList(d: Directory, resolve: Resolver, filename: string, fault: Option<string>,
                           before: Listing, after: Listing, encode: Bytes -> string)
    requires IsListingOf(d.entries, before, encode)
    requires IsListingOf(DeleteAura(d, resolve, filename, fault).1.entries, after, encode)
    ensures DeleteAura(d, resolve, filename, fault).0 == AuraSuccess ==>
      && resolve(filename) !in after.files
      && forall n :: n in after.files <==> n in before.files && n != resolve(filename)
    ensures DeleteAura(d, resolve, filename, fault).0 != AuraSuccess ==> after == before
  {
    if DeleteAura(d, resolve, filename, fault).0 != AuraSuccess {
      ListingDeterministic(d.entries, before, after, encode);
    }
  }

  /** Two spellings of one path are one request: they succeed or fail
      together and leave the same directory behind. */
  lemma AuraAliasesAgree(d: Directory, resolve: Resolver, a: string, b: string, fault: Option<string>)
    requires resolve(a) == resolve(b)
    ensures DeleteAura(d, resolve, a, fault).0 == AuraSuccess <==> DeleteAura(d, resolve, b, fault).0 == AuraSuccess
    ensures DeleteAura(d, resolve, a, fault).1 == DeleteAura(d, resolve, b, fault).1
  {
  }

  /** aura.py performs no validation: any existing path, including one outside
      the library directory, is removed. */
  lemma AuraRemovesAnyPath(d: Directory, resolve: Resolver, dir: string, name: string)
    requires PathExists(d, resolve, dir + [Sep] + name)
    ensures DeleteAura(d, resolve, dir + [Sep] + name, None).0 == AuraSuccess
    ensures resolve(dir + [Sep] + name) !in DeleteAura(d, resolve, dir + [Sep] + name, None).1.entries
  {
  }

  /** A dangling link is listed but, as `os.path.exists` follows it, reported
      as not found and left in place. */
  lemma AuraKeepsDanglingLink(d: Directory, resolve: Resolver, filename: string, fault: Option<string>)
    requires resolve(filename) in d.entries && d.entries[resolve(filename)].Vanished?
    ensures DeleteAura(d, resolve, filename, fault) == (AuraError("File '" + filename + "' not found."), d)
    ensures resolve(filename) in DeleteAura(d, resolve, filename, fault).1.entries
  {
  }

  /** The spelling `./x.mp3` of a listed, readable track, under a resolver
      that reads it as the track's own name: the track is removed and leaves
      the next listing. */
  lemma AuraDotSlashRemovesTrack(b: Bytes, resolve: Resolver, after: Listing, encode: Bytes -> string)
    requires resolve("./x.mp3") == "x.mp3"
    requires IsListingOf(DeleteAura(Directory(map["x.mp3" := Readable(b)], None), resolve, "./x.mp3", None).1.entries,
                         after, encode)
    ensures DeleteAura(Directory(map["x.mp3" := Readable(b)], None), resolve, "./x.mp3", None).0 == AuraSuccess
    ensures after.files == []
  {
    var d := Directory(map["x.mp3" := Readable(b)], None);
    assert DeleteAura(d, resolve, "./x.mp3", None).1.entries == map[];
    NoMembersEmpty(after.files);
  }

  lemma NoMembersEmpty<T>(s: seq<T>)
    ensures (forall x :: x !in s) ==> s == []
  {
    if s != [] {
      assert s[0] in s;
    }
  }
}

=== FILE: library.dfy ===
/** The library store: the listing every server variant computes from the
    current directory on each request (`get_audio_files_and_data` in the
    Python servers, `listSongsHandler` in the Go server). A listing is the
    sorted list of `.mp3` names together with a map from name to a
    `data:audio/mpeg;base64,` URL holding the file's bytes. */
module Library {

  import opened Wrappers
  import opened Text
  import Paths

  type Bytes = seq<bv8>

  /** What reading one directory entry yields. */
  datatype FileState =
    | Readable(content: Bytes)
      /** listed, but opening it reports "no such file" (a dangling link, or a
          file removed between the scan and the read): Python's FileNotFoundError */
    | Vanished
      /** any other read failure (permissions, a directory whose name ends in .mp3) */
    | Unreadable(reason: string)

  /** The working directory: entries keyed by relative path (the names directly
      inside it are the keys without a separator), and the error that listing it
      raises, if it cannot be listed. */
  datatype Directory = Directory(entries: map<string, FileState>, listError: Option<string>)

  const Mp3Suffix: string := ".mp3"
  const DataUrlPrefix: string := "data:audio/mpeg;base64,"

  /** A name the listing picks up: directly in the directory, ending in ".mp3". */
  predicate IsTrackName(name: string) {
    Paths.IsElement(name) && EndsWith(name, Mp3Suffix)
  }

  datatype Listing = Listing(files: seq<string>, data: map<string, string>)

  /** The data URL the server sends for a file whose base64 text is `encoded`. */
  function DataUrl(encoded: string): string {
    DataUrlPrefix + encoded
  }

  /** `l` is a listing of `entries`: every track name exactly once, in
      ascending order, and a data URL for exactly the readable ones, built from
      the file's own bytes. `encode` is the base64 encoder, a library call the
      model does not look inside. */
  ghost predicate IsListingOf(entries: map<string, FileState>, l: Listing, encode: Bytes -> string) {
    && StrictlySorted(l.files)
    && (forall n :: n in l.files <==> n in entries && IsTrackName(n))
    && (forall n :: n in l.data <==> n in entries && IsTrackName(n) && entries[n].Readable?)
    && (forall n :: n in l.data ==> l.data[n] == DataUrl(encode(entries[n].content)))
  }

  /** The names a listing holds are determined by the directory alone, so two
      listings of an unchanged directory are equal. */
  lemma ListingDeterministic(entries: map<string, FileState>, l1: Listing, l2: Listing, encode: Bytes -> string)
    requires IsListingOf(entries, l1, encode) && IsListingOf(entries, l2, encode)
    ensures l1 == l2
  {
    SortedUnique(l1.files, l2.files);
    assert l1.data.Keys == l2.data.Keys;
  }

  /** The directory scan and sort shared by all variants: Python's
      `sorted(f for f in os.listdir('.') if f.endswith('.mp3'))` and Go's
      `filepath.Glob("*.mp3")` followed by `sort.Strings`. */
  method ScanTracks(entries: map<string, FileState>) returns (names: seq<string>)
    ensures StrictlySorted(names)
    ensures forall n :: n in names <==> n in entries && IsTrackName(n)
  {
    var remaining := set n | n in entries && IsTrackName(n);
    names := [];
    while remaining != {}
      invariant StrictlySorted(names)
      invariant forall n :: n in names ==> n !in remaining
      invariant forall n :: n in names || n in remaining <==> n in entries && IsTrackName(n)
      decreases |remaining|
    {
      var n :| n in remaining;
      names := Insert(names, n);
      remaining := remaining - {n};
    }
  }

  /** The Python read loop over the sorted names: a readable file gets its data
      URL, a vanished one is skipped, and any other read error propagates out of
      the loop (only FileNotFoundError is caught), so the first such file in
      order decides the error. */
  function ReadAllPy(names: seq<string>, entries: map<string, FileState>, encode: Bytes -> string)
    : (r: Result<map<string, string>, string>)
    requires forall k :: 0 <= k < |names| ==> names[k] in entries
    ensures r.Success? <==> forall k :: 0 <= k < |names| ==> !entries[names[k]].Unreadable?
    ensures r.Success? ==> forall n :: n in r.value <==> n in names && entries[n].Readable?
    ensures r.Success? ==> forall n :: n in r.value ==> r.value[n] == DataUrl(encode(entries[n].content))
    ensures r.Failure? ==> exists k :: (0 <= k < |names| && entries[names[k]] == Unreadable(r.error)
                                        && forall j :: 0 <= j < k ==> !entries[names[j]].Unreadable?)
    decreases |names|
  {
    if |names| == 0 then Success(map[])
    else
      var n := names[0];
      match entries[n]
      case Unreadable(why) => Failure(why)
      case Vanished =>
        var rest := ReadAllPy(names[1..], entries, encode);
        if rest.Failure? then
          var k :| 0 <= k < |names[1..]| && entries[names[1..][k]] == Unreadable(rest.error)
            && forall j :: 0 <= j < k ==> !entries[names[1..][j]].Unreadable?;
          assert entries[names[k + 1]] == Unreadable(rest.error);
          rest
        else
          assert forall m :: m in names[1..] ==> m in names;
          assert forall m :: m in names && m != n ==> m in names[1..];
          rest
      case Readable(content) =>
        var rest := ReadAllPy(names[1..], entries, encode);
        if rest.Failure? then
          var k :| 0 <= k < |names[1..]| && entries[names[1..][k]] == Unreadable(rest.error)
            && forall j :: 0 <= j < k ==> !entries[names[1..][j]].Unreadable?;
          assert entries[names[k + 1]] == Unreadable(rest.error);
          Failure(rest.error)
        else
          assert forall m :: m in names[1..] ==> m in names;
          assert forall m :: m in names && m != n ==> m in names[1..];
          Success(rest.value[n := DataUrl(encode(content))])
  }

  /** `get_audio_files_and_data` (aura.py and k8o5.py, identical): fails when
      the directory cannot be listed or a track raises a read error other than
      "not found"; otherwise returns a listing of the directory. */
  method ListPy(d: Directory, encode: Bytes -> string) returns (r: Result<Listing, string>)
    ensures d.listError.Some? ==> r == Failure(d.listError.value)
    ensures d.listError.None? ==>
      (r.Success? <==> forall n :: n in d.entries && IsTrackName(n) ==> !d.entries[n].Unreadable?)
    ensures r.Success? ==> IsListingOf(d.entries, r.value, encode)
    ensures d.listError.None? && r.Failure? ==>
      exists n :: (n in d.entries && IsTrackName(n) && d.entries[n] == Unreadable(r.error)
                   && forall m :: m in d.entries && IsTrackName(m) && Less(m, n) ==> !d.entries[m].Unreadable?)
  {
    if d.listError.Some? {
      return Failure(d.listError.value);
    }
    var names := ScanTracks(d.entries);
    var data := ReadAllPy(names, d.entries, encode);
    if data.Failure? {
      var k :| 0 <= k < |names| && d.entries[names[k]] == Unreadable(data.error)
        && forall j :: 0 <= j < k ==> !d.entries[names[j]].Unreadable?;
      forall m | m in d.entries && IsTrackName(m) && Less(m, names[k])
        ensures !d.entries[m].Unreadable?
      {
        var j :| 0 <= j < |names| && names[j] == m;
        if j >= k {
          if j > k {
            LessAsymmetric(m, names[k]);
          } else {
            LessIrreflexive(m);
          }
        }
      }
      return Failure(data.error);
    }
    return Success(Listing(names, data.value));
  }

  /** The Go server's JSON body: `Files` is a nil slice, sent as `null`, when
      nothing matched. */
  datatype GoSongData = GoSongData(files: Option<seq<string>>, data: map<string, string>)

  /** `listSongsHandler`. `filepath.Glob` reports only malformed patterns and
      swallows directory read errors, so an unlistable directory yields no
      matches (and `null` files) rather than an error; a file that cannot be
      read, for whatever reason, stays in `files` without an entry in `data`. */
  method ListGo(d: Directory, encode: Bytes -> string) returns (r: GoSongData)
    ensures r.files.Some? ==> |r.files.value| > 0
    ensures d.listError.Some? ==> r == GoSongData(None, map[])
    ensures d.listError.None? ==> IsListingOf(d.entries, Listing(r.files.GetOr([]), r.data), encode)
  {
    if d.listError.Some? {
      return GoSongData(None, map[]);
    }
    var names := ScanTracks(d.entries);
    var data := map n | n in names && d.entries[n].Readable? :: DataUrl(encode(d.entries[n].content));
    var files := if |names| == 0 then None else Some(names);
    return GoSongData(files, data);
  }

  /** The client reads a track's bytes back with `dataUrl.split(',')[1]`; since
      base64 text has no comma, that is exactly the encoded payload the server
      put behind the prefix. */
  lemma PayloadRoundTrip(encoded: string)
    requires ',' !in encoded
    ensures SecondField(DataUrl(encoded), ',') == Some(encoded)
  {
    var p := DataUrlPrefix;
    assert ',' !in p[..|p| - 1] && p[|p| - 1] == ',';
    AfterLastOfPrefix(p, encoded, ',');
    UpToWithout(encoded, ',');
  }

  lemma {:induction false} AfterLastOfPrefix(p: string, rest: string, c: char)
    requires |p| > 0 && c !in p[..|p| - 1] && p[|p| - 1] == c
    ensures AfterFirst(p + rest, c) == Some(rest)
    decreases |p|
  {
    if |p| > 1 {
      assert p[0] in p[..|p| - 1];
      assert p[1..][..|p| - 2] == p[1..|p| - 1];
      assert (p + rest)[1..] == p[1..] + rest;
      AfterLastOfPrefix(p[1..], rest, c);
    } else {
      assert (p + rest)[1..] == rest;
    }
  }

  lemma {:induction false} UpToWithout(s: string, c: char)
    requires c !in s
    ensures UpTo(s, c) == s
    decreases |s|
  {
    if |s| > 0 {
      assert s[0] in s;
      assert forall x :: x in s[1..] ==> x in s;
      UpToWithout(s[1..], c);
      assert [s[0]] + s[1..] == s;
    }
  }
}

=== FILE: paths.dfy ===
/** Go's `path/filepath.Base` and `path/filepath.Clean` on a Unix system
    (separator '/', no volume names), which the Go server's delete handler
    applies to the requested file name. */
module Paths {

  import opened Text

  const Sep: char := '/'

  /** A single path element: no separator inside. */
  predicate IsElement(s: string) {
    Sep !in s
  }

  // ---------------------------------------------------------------------------
  // Base
  // ---------------------------------------------------------------------------

  /** `path` with every trailing separator removed. */
  function TrimTrailingSeps(path: string): (r: string)
    ensures StartsWith(path, r)
    ensures |r| > 0 ==> r[|r| - 1] != Sep
    ensures forall k :: |r| <= k < |path| ==> path[k] == Sep
    decreases |path|
  {
    if |path| > 0 && path[|path| - 1] == Sep then TrimTrailingSeps(path[..|path| - 1]) else path
  }

  /** The text after the last separator (all of `path` when it has none). */
  function LastElement(path: string): (r: string)
    ensures IsElement(r) && |r| <= |path|
    ensures path[|path| - |r|..] == r
    ensures |r| < |path| ==> path[|path| - |r| - 1] == Sep
    decreases |path|
  {
    if |path| == 0 || path[|path| - 1] == Sep then []
    else LastElement(path[..|path| - 1]) + [path[|path| - 1]]
  }

  /** `filepath.Base`: the last element of `path`, "." for the empty path and
      "/" for a path made only of separators. */
  function Base(path: string): (r: string)
    ensures r != []
    ensures r == [Sep] || IsElement(r)
  {
    if path == [] then "."
    else
      var p := TrimTrailingSeps(path);
      if p == [] then [Sep] else LastElement(p)
  }

  /** Whatever directories precede a file name, `Base` gives back the bare name. */
  lemma BaseDropsDirectories(dir: string, name: string)
    requires IsElement(name) && name != []
    ensures Base(dir + [Sep] + name) == name
    ensures Base(name) == name
  {
    var p := dir + [Sep] + name;
    assert TrimTrailingSeps(p) == p;
    assert TrimTrailingSeps(name) == name;
    LastElementAfterSep(dir, name);
    LastElementOfElement(name);
  }

  lemma {:induction false} LastElementAfterSep(dir: string, name: string)
    requires IsElement(name)
    ensures LastElement(dir + [Sep] + name) == name
    decreases |name|
  {
    var p := dir + [Sep] + name;
    if |name| > 0 {
      var init, last := name[..|name| - 1], name[|name| - 1];
      ElementInit(name);
      assert p[|p| - 1] == last && p[..|p| - 1] == dir + [Sep] + init;
      LastElementAfterSep(dir, init);
      assert LastElement(p) == LastElement(p[..|p| - 1]) + [last];
      assert init + [last] == name;
    }
  }

  /** Dropping the last character of an element leaves an element. */
  lemma ElementInit(name: string)
    requires IsElement(name) && |name| > 0
    ensures IsElement(name[..|name| - 1]) && name[|name| - 1] != Sep
  {
    assert name[|name| - 1] in name;
    assert forall c :: c in name[..|name| - 1] ==> c in name;
  }

  lemma {:induction false} LastElementOfElement(name: string)
    requires IsElement(name)
    ensures LastElement(name) == name
    decreases |name|
  {
    if |name| > 0 {
      var init, last := name[..|name| - 1], name[|name| - 1];
      ElementInit(name);
      LastElementOfElement(init);
      assert init + [last] == name;
    }
  }

  // ---------------------------------------------------------------------------
  // Clean
  // ---------------------------------------------------------------------------

  /** `strings.Split(s, "/")`: the separator-free pieces between separators. */
  function Split(s: string): (r: seq<string>)
    ensures |r| > 0
    ensures forall k :: 0 <= k < |r| ==> IsElement(r[k])
    decreases |s|
  {
    if Sep !in s then [s]
    else
      var i := IndexOf(s, Sep);
      [s[..i]] + Split(s[i + 1..])
  }

  /** `strings.Join(elems, "/")`. */
  function Join(elems: seq<string>): string
    decreases |elems|
  {
    if |elems| == 0 then []
    else if |elems| == 1 then elems[0]
    else elems[0] + [Sep] + Join(elems[1..])
  }

  /** Processes the elements of a path left to right as `filepath.Clean` does:
      empty and "." elements vanish, ".." removes the preceding real element,
      is dropped at the root of a rooted path, and is kept otherwise. */
  function Resolve(elems: seq<string>, rooted: bool, stack: seq<string>): (r: seq<string>)
    requires forall k :: 0 <= k < |stack| ==> stack[k] != [] && stack[k] != "." && IsElement(stack[k])
    requires forall k :: 0 <= k < |elems| ==> IsElement(elems[k])
    ensures forall k :: 0 <= k < |r| ==> r[k] != [] && r[k] != "." && IsElement(r[k])
    ensures rooted && ".." !in stack ==> ".." !in r
    decreases |elems|
  {
    if |elems| == 0 then stack
    else
      var e := elems[0];
      if e == [] || e == "." then Resolve(elems[1..], rooted, stack)
      else if e == ".." then
        if |stack| > 0 && stack[|stack| - 1] != ".." then Resolve(elems[1..], rooted, stack[..|stack| - 1])
        else if rooted then Resolve(elems[1..], rooted, stack)
        else Resolve(elems[1..], rooted, stack + [".."])
      else Resolve(elems[1..], rooted, stack + [e])
  }

  /** `filepath.Clean`: the shortest lexically equivalent path; never empty,
      and rooted exactly when the input is. */
  function Clean(path: string): (r: string)
    ensures r != []
    ensures (r[0] == Sep) <==> (|path| > 0 && path[0] == Sep)
  {
    if path == [] then "."
    else
      var rooted := path[0] == Sep;
      var stack := Resolve(Split(path), rooted, []);
      var body := Join(stack);
      JoinHead(stack);
      var r := if rooted then [Sep] + body else body;
      if r == [] then "." else r
  }

  lemma JoinHead(elems: seq<string>)
    requires forall k :: 0 <= k < |elems| ==> elems[k] != [] && IsElement(elems[k])
    ensures |Join(elems)| > 0 ==> Join(elems)[0] != Sep
  {
    if |elems| > 0 {
      assert elems[0][0] in elems[0];
    }
  }

  /** A single element other than the empty one is already clean. */
  lemma CleanElement(e: string)
    requires IsElement(e) && e != []
    ensures Clean(e) == e
  {
    assert e[0] in e;
    assert Split(e) == [e];
    var stack := Resolve([e], false, []);
    assert [e][1..] == [];
    assert [e][0] == e;
    if e == "." {
      assert stack == Resolve([], false, []);
    } else if e == ".." {
      assert [] + [".."] == [".."];
      assert stack == Resolve([], false, [".."]);
    } else {
      assert [] + [e] == [e];
      assert stack == Resolve([], false, [e]);
    }
  }

  /** The sanitising step of the delete handler never changes `Base`'s result:
      `Clean(Base(x))` is `Base(x)`, a single element or "/". */
  lemma CleanBase(x: string)
    ensures Clean(Base(x)) == Base(x)
  {
    var b := Base(x);
    if b == [Sep] {
      assert Sep in b;
      assert IndexOf(b, Sep) == 0;
      assert b[1..] == [];
      assert Split(b) == [[], []];
      assert Resolve([[], []], true, []) == [];
    } else {
      CleanElement(b);
    }
  }
}

=== FILE: player.dfy ===
/** The browser-side player shared, with small differences, by the three
    clients (beta.py, aura.py and the page k8o5.go serves): the current track
    index into the library's names, whether a source node is playing, the
    decoded buffer, and the clock bookkeeping used to pause, resume and
    recognise the natural end of a track.

    Time is the audio context's clock, passed in as `now`. Decoding a data URL
    is a parameter too (`decodeAudioData`, which may fail). */
module Player {

  import opened Wrappers
  import opened Text

  /** The speed slider's range: min 0.5, max 2. */
  type Rate = r: real | 0.5 <= r <= 2.0 witness 1.0

  type Duration = d: real | 0.0 <= d witness 0.0

  /** The three clients differ only in the guards of seek and of the
      natural-end handler. */
  datatype Variant = Beta | Aura | GoClient

  /** beta.py seeks only while playing; the others whenever a buffer is loaded. */
  predicate SeekNeedsPlaying(v: Variant) {
    v == Beta
  }

  /** beta.py and aura.py check the elapsed time before treating `onended` as
      the end of the track; the Go page does not. */
  predicate EndIsChecked(v: Variant) {
    v != GoClient
  }

  datatype Buffer = Buffer(duration: Duration)

  /** The playing source node: its playback rate, the offset it was started
      from, and where its current rate took effect: the clock reading `since`
      and the track position `from` at that moment (its start, or the last
      move of the speed slider). The page records neither of the last two;
      they are what the node itself plays. */
  datatype Source = Source(rate: Rate, offset: real, since: real, from: real)

  datatype State = State(
    names: seq<string>,           // audioFileNames
    data: map<string, string>,    // audioData: name to data URL
    index: int,                   // currentTrackIndex
    playing: bool,                // isPlaying
    buffer: Option<Buffer>,       // currentBuffer
    startTime: real,
    pauseOffset: real,
    source: Option<Source>,       // sourceNode, with its `onended` attached
    speed: Rate,                  // the speed slider
    autoplay: bool,               // isAutoplayOn
    audioReady: bool)             // audioContext and its node graph exist

  /** The clock reading and the decoder. */
  datatype Env = Env(now: real, decode: string -> Option<Buffer>)

  /** The page before any interaction, with the names and data it was served. */
  function Initial(names: seq<string>, data: map<string, string>): State {
    State(names, data, -1, false, None, 0.0, 0.0, None, 1.0, true, false)
  }

  /** What the page keeps true: the index is -1 or a position in the list,
      names are never empty (each ends in ".mp3"), a source node exists
      exactly while playing, playing needs a buffer, and a buffer needs a
      current track and the audio context that decoded it. */
  predicate Valid(s: State) {
    && -1 <= s.index < |s.names|
    && (forall k :: 0 <= k < |s.names| ==> s.names[k] != [])
    && (s.source.Some? <==> s.playing)
    && (s.playing ==> s.buffer.Some?)
    && (s.buffer.Some? ==> s.index >= 0 && s.audioReady)
  }

  lemma InitialValid(names: seq<string>, data: map<string, string>)
    requires forall k :: 0 <= k < |names| ==> names[k] != []
    ensures Valid(Initial(names, data))
  {
  }

  // ---------------------------------------------------------------------------
  // Index arithmetic
  // ---------------------------------------------------------------------------

  /** JavaScript's `%` on integers: the remainder takes the sign of the dividend. */
  function JsRem(a: int, b: int): (r: int)
    requires b > 0
    ensures a >= 0 ==> 0 <= r < b
    ensures a < 0 ==> -b < r <= 0
    ensures -b < a < b ==> r == a
    ensures (a - r) % b == 0
  {
    if a >= 0 then
      RemainderOfMultiple(a, b);
      if a < b then ModSmall(a, b); a % b else a % b
    else
      RemainderOfMultiple(-a, b);
      if -a < b then ModSmall(-a, b); -((-a) % b) else -((-a) % b)
  }

  /** What the remainder leaves of `x`, and its negation, are multiples of `b`. */
  lemma RemainderOfMultiple(x: int, b: int)
    requires b > 0
    ensures (x - x % b) % b == 0
    ensures (-(x - x % b)) % b == 0
  {
    var q := x / b;
    assert x - x % b == b * q;
    ModOfMultiple(b, q);
    assert -(b * q) == b * -q;
    ModOfMultiple(b, -q);
  }

  lemma ModOfMultiple(b: int, q: int)
    requires b > 0
    ensures (b * q) % b == 0
  {
    var x := b * q;
    var k := q - x / b;
    assert b * k == x % b;
    MulAtLeastOne(b, k);
  }

  lemma MulAtLeastOne(b: int, k: int)
    requires b > 0
    ensures k >= 1 ==> b * k >= b
    ensures k <= -1 ==> b * k <= -b
  {
  }

  /** `playNext`'s index. */
  function NextIndex(i: int, n: int): int
    requires n > 0
  {
    JsRem(i + 1, n)
  }

  /** `playPrev`'s index. */
  function PrevIndex(i: int, n: int): int
    requires n > 0
  {
    JsRem(i - 1 + n, n)
  }

  /** From any index in [-1, n) both steps land inside the list. */
  lemma StepsStayInList(i: int, n: int)
    requires n > 0
    ensures -1 <= i < n ==> 0 <= NextIndex(i, n) < n
    ensures -1 <= i < n ==> 0 <= PrevIndex(i, n) < n
    ensures i == -1 ==> NextIndex(i, n) == 0
    ensures i == -1 ==> PrevIndex(i, n) == (if n == 1 then 0 else n - 2)
  {
    if 0 <= i < n {
      ModSmall(i - 1 + n, n);
    }
  }

  /** Within the list, previous undoes next and next undoes previous; both
      wrap around at the ends. */
  lemma PrevUndoesNext(i: int, n: int)
    requires n > 0 && 0 <= i < n
    ensures PrevIndex(NextIndex(i, n), n) == i
    ensures NextIndex(PrevIndex(i, n), n) == i
    ensures NextIndex(n - 1, n) == 0 && PrevIndex(0, n) == n - 1
  {
    ModSmall(i + 1, n);
    ModSmall(i - 1 + n, n);
    var j := NextIndex(i, n);
    var k := PrevIndex(i, n);
    ModSmall(j - 1 + n, n);
    ModSmall(k + 1, n);
    ModSmall(n, n);
    ModSmall(n - 1, n);
  }

  /** Euclidean remainder on [0, 2n). */
  lemma ModSmall(a: int, n: int)
    requires n > 0 && 0 <= a < 2 * n
    ensures a % n == (if a < n then a else a - n)
  {
    var q := a / n;
    MulOutside(n, q);
  }

  lemma MulOutside(n: int, q: int)
    requires n > 0
    ensures q >= 2 ==> n * q >= 2 * n
    ensures q <= -1 ==> n * q <= -n
  {
  }

  // ---------------------------------------------------------------------------
  // stopSong, startPlayback, playSong
  // ---------------------------------------------------------------------------

  /** `stopSong(isEndOfTrack)`: the source node is detached (its `onended`
      cleared) and dropped, playback stops, and the pause offset records the
      elapsed time if it was playing; at the end of a track it is reset to 0.
      Nothing else changes. */
  function StopSong(s: State, endOfTrack: bool, now: real): (r: State)
    ensures !r.playing && r.source.None?
    ensures endOfTrack ==> r.pauseOffset == 0.0
    ensures !endOfTrack && s.playing ==> r.pauseOffset == now - s.startTime
    ensures !endOfTrack && !s.playing ==> r.pauseOffset == s.pauseOffset
    ensures r.names == s.names && r.data == s.data && r.index == s.index && r.buffer == s.buffer
    ensures r.startTime == s.startTime && r.speed == s.speed && r.autoplay == s.autoplay
    ensures Valid(s) ==> Valid(r)
  {
    var offset := if s.playing then now - s.startTime else s.pauseOffset;
    s.(source := None, playing := false, pauseOffset := if endOfTrack then 0.0 else offset)
  }

  /** `startPlayback(offset)`: without a buffer nothing happens; otherwise a
      new source node at the slider's rate starts at `offset`, with the clock
      origin set so that `now - startTime` is the offset. */
  function StartPlayback(s: State, offset: real, now: real): (r: State)
    ensures s.buffer.None? ==> r == s
    ensures s.buffer.Some? ==>
      && r.playing && r.source == Some(Source(s.speed, offset, now, offset))
      && now - r.startTime == offset && r.pauseOffset == 0.0
      && r.names == s.names && r.data == s.data && r.index == s.index && r.buffer == s.buffer
      && r.speed == s.speed && r.autoplay == s.autoplay
    ensures Valid(s) && !s.playing ==> Valid(r)
  {
    if s.buffer.None? then s
    else s.(source := Some(Source(s.speed, offset, now, offset)), startTime := now - offset, pauseOffset := 0.0, playing := true)
  }

  /** The data URL of a name, when the page holds a non-empty one (`!dataUrl`
      rejects both a missing and an empty value). */
  function DataOf(s: State, name: string): Option<string> {
    if name in s.data && s.data[name] != [] then Some(s.data[name]) else None
  }

  /** `playSong(index, offset)`: an index outside the list is ignored.
      Otherwise the first such call sets up the audio context, whose
      `initAudio` ends in `resetEffects`, putting the speed slider back to 1
      through `updateSpeed(1)`; then playback stops (if it was on), the index
      moves, and the track's data is decoded and played from `offset`;
      missing data or a failed decode leaves it stopped with the previous
      buffer. */
  function PlaySong(s: State, i: int, offset: real, env: Env): (r: State)
    ensures !(0 <= i < |s.names|) ==> r == s
    ensures 0 <= i < |s.names| ==>
      && r.index == i && r.names == s.names && r.data == s.data
      && r.audioReady && r.speed == (if s.audioReady then s.speed else 1.0)
      && (r.playing <==> DataOf(s, s.names[i]).Some? && env.decode(DataOf(s, s.names[i]).value).Some?)
    ensures 0 <= i < |s.names| && r.playing ==>
      && r.buffer == env.decode(DataOf(s, s.names[i]).value)
      && r.source == Some(Source(r.speed, offset, env.now, offset)) && env.now - r.startTime == offset
    ensures 0 <= i < |s.names| && !r.playing ==> r.buffer == s.buffer
    ensures 0 <= i < |s.names| && Valid(s) ==> (r.source.Some? <==> r.playing)
    ensures Valid(s) ==> Valid(r)
  {
    if i < 0 || i >= |s.names| then s
    else
      var ready := if s.audioReady then s else SetSpeed(s, 1.0, env.now).(audioReady := true);
      var stopped := if ready.playing then StopSong(ready, false, env.now) else ready;
      var moved := stopped.(index := i);
      match DataOf(s, s.names[i])
      case None => moved
      case Some(url) =>
        match env.decode(url)
        case None => moved
        case Some(b) => StartPlayback(moved.(buffer := Some(b)), offset, env.now)
  }

  /** A speed chosen before anything has played does not survive the first
      play: the page plays at normal speed, and the slider shows it. */
  lemma FirstPlayResetsSpeed(names: seq<string>, data: map<string, string>, rate: Rate, t: real, env: Env)
    requires |names| > 0
    ensures var r := Toggle(SetSpeed(Initial(names, data), rate, t), env);
      && r.audioReady && r.index == 0 && r.speed == 1.0
      && (r.playing ==> r.source.value.rate == 1.0)
  {
    var s := SetSpeed(Initial(names, data), rate, t);
    assert s.index == -1 && !s.audioReady;
  }

  /** Once the audio context exists, playing a track keeps the slider's
      speed, which the new source node then plays at. */
  lemma LaterPlaysKeepSpeed(s: State, i: int, offset: real, env: Env)
    requires s.audioReady && 0 <= i < |s.names|
    ensures var r := PlaySong(s, i, offset, env);
      && r.speed == s.speed
      && (r.playing ==> r.source.value.rate == s.speed)
  {
  }

  // ---------------------------------------------------------------------------
  // Controls
  // ---------------------------------------------------------------------------

  /** `togglePlayPause`: with no current track and a non-empty list, play the
      first; while playing, pause; with a buffer loaded, resume from the pause
      offset; otherwise nothing. */
  function Toggle(s: State, env: Env): (r: State)
    ensures s.index == -1 && |s.names| > 0 ==> r == PlaySong(s, 0, 0.0, env)
    ensures !(s.index == -1 && |s.names| > 0) && s.playing ==> r == StopSong(s, false, env.now)
    ensures !(s.index == -1 && |s.names| > 0) && !s.playing && s.buffer.Some? ==>
      r == StartPlayback(s, s.pauseOffset, env.now)
    ensures !(s.index == -1 && |s.names| > 0) && !s.playing && s.buffer.None? ==> r == s
    ensures Valid(s) ==> Valid(r)
  {
    if s.index == -1 && |s.names| > 0 then PlaySong(s, 0, 0.0, env)
    else if s.playing then StopSong(s, false, env.now)
    else if s.buffer.Some? then StartPlayback(s, s.pauseOffset, env.now)
    else s
  }

  /** `playNext`: nothing on an empty list, else the next track, wrapping. */
  function Next(s: State, env: Env): (r: State)
    ensures |s.names| == 0 ==> r == s
    ensures |s.names| > 0 && Valid(s) ==> r.index == NextIndex(s.index, |s.names|) && 0 <= r.index < |s.names|
    ensures Valid(s) ==> Valid(r)
  {
    if |s.names| == 0 then s
    else
      StepsStayInList(s.index, |s.names|);
      PlaySong(s, NextIndex(s.index, |s.names|), 0.0, env)
  }

  /** `playPrev`: nothing on an empty list, else the previous track, wrapping. */
  function Prev(s: State, env: Env): (r: State)
    ensures |s.names| == 0 ==> r == s
    ensures |s.names| > 0 && Valid(s) ==> r.index == PrevIndex(s.index, |s.names|) && 0 <= r.index < |s.names|
    ensures Valid(s) ==> Valid(r)
  {
    if |s.names| == 0 then s
    else
      StepsStayInList(s.index, |s.names|);
      PlaySong(s, PrevIndex(s.index, |s.names|), 0.0, env)
  }

  /** Going back after going forward returns to the same track. */
  lemma PrevAfterNext(s: State, env1: Env, env2: Env)
    requires Valid(s) && 0 <= s.index < |s.names|
    ensures Prev(Next(s, env1), env2).index == s.index
  {
    PrevUndoesNext(s.index, |s.names|);
  }

  /** `Math.max(0, Math.min(1, x))`. */
  function Clamp01(x: real): (r: real)
    ensures 0.0 <= r <= 1.0
    ensures 0.0 <= x <= 1.0 ==> r == x
    ensures x < 0.0 ==> r == 0.0
    ensures x > 1.0 ==> r == 1.0
  {
    if x < 0.0 then 0.0 else if x > 1.0 then 1.0 else x
  }

  /** Where a click at `fraction` of the bar's width (`x / width`) seeks to:
      that fraction, clamped to [0, 1], of the track's duration. */
  function SeekTime(d: Duration, fraction: real): (t: real)
    ensures 0.0 <= t <= d
    ensures 0.0 <= fraction <= 1.0 ==> t == d * fraction
    ensures fraction < 0.0 ==> t == 0.0
    ensures fraction > 1.0 ==> t == d
  {
    MulBounded(d, Clamp01(fraction));
    d * Clamp01(fraction)
  }

  lemma MulBounded(d: real, p: real)
    requires 0.0 <= d && 0.0 <= p <= 1.0
    ensures 0.0 <= d * p <= d
  {
  }

  /** A click on the progress bar: ignored without a buffer (and, in beta.py,
      unless playing); otherwise the current track is played again from the
      clicked point, which lies within the buffer's duration. */
  function Seek(s: State, fraction: real, env: Env, v: Variant): (r: State)
    ensures s.buffer.None? ==> r == s
    ensures SeekNeedsPlaying(v) && !s.playing ==> r == s
    ensures Valid(s) && s.buffer.Some? && !(SeekNeedsPlaying(v) && !s.playing) && r.playing ==>
      && r.index == s.index && r.source.Some?
      && r.source.value.offset == SeekTime(s.buffer.value.duration, fraction)
      && 0.0 <= r.source.value.offset <= s.buffer.value.duration
    ensures Valid(s) ==> Valid(r)
  {
    if s.buffer.None? || (SeekNeedsPlaying(v) && !s.playing) then s
    else PlaySong(s, s.index, SeekTime(s.buffer.value.duration, fraction), env)
  }

  /** `updateSpeed(rate)` at clock `now`: the slider moves, and a playing
      node takes the new rate at once, carrying on from the position it has
      reached; the page's own bookkeeping (`startTime`, `pauseOffset`) is left
      alone. */
  function SetSpeed(s: State, rate: Rate, now: real): (r: State)
    ensures r.speed == rate
    ensures r.source.Some? <==> s.source.Some?
    ensures s.source.Some? ==>
      && r.source.value.rate == rate && r.source.value.offset == s.source.value.offset
      && Position(r, now) == Position(s, now)
    ensures s.source.Some? ==> forall t :: Position(r, t) == Position(s, now) + (t - now) * rate
    ensures r.(speed := s.speed, source := s.source) == s
    ensures Valid(s) ==> Valid(r)
  {
    match s.source
    case None => s.(speed := rate)
    case Some(src) => s.(speed := rate, source := Some(src.(rate := rate, since := now, from := Position(s, now))))
  }

  // ---------------------------------------------------------------------------
  // Pause and resume
  // ---------------------------------------------------------------------------

  /** Pausing and resuming restarts the track at the wall-clock time elapsed
      since the clock origin; the index, buffer and rate are kept. */
  lemma PauseThenResume(s: State, pause: real, resume: real, decode: string -> Option<Buffer>)
    requires Valid(s) && s.playing && s.index >= 0
    ensures var p := Toggle(s, Env(pause, decode));
      && !p.playing && p.pauseOffset == pause - s.startTime
      && var q := Toggle(p, Env(resume, decode));
      && q.playing && q.index == s.index && q.buffer == s.buffer
      && q.source == Some(Source(s.speed, pause - s.startTime, resume, pause - s.startTime))
      && resume - q.startTime == pause - s.startTime
  {
  }

  /** The position in the track a source has reached at `now`: where its
      current rate took effect, plus the clock time since at that rate. */
  function Position(s: State, now: real): real
    requires s.source.Some?
  {
    var src := s.source.value;
    src.from + (now - src.since) * src.rate
  }

  /** The node has played at one rate since it started, so the page's clock
      origin `startTime` still describes it. */
  predicate RateKept(s: State)
    requires s.source.Some?
  {
    var src := s.source.value;
    src.since == s.startTime + src.offset && src.from == src.offset
  }

  /** A node just started has kept its rate. */
  lemma StartKeepsRate(s: State, offset: real, now: real)
    requires s.buffer.Some?
    ensures RateKept(StartPlayback(s, offset, now))
    ensures Position(StartPlayback(s, offset, now), now) == offset
  {
  }

  /** At normal speed, kept since the start, the resume offset is exactly
      where playback paused; at any other rate the pause offset is clock time,
      not track time. */
  lemma PauseOffsetAtNormalSpeed(s: State, pause: real)
    requires Valid(s) && s.playing && s.index >= 0 && s.source.value.rate == 1.0
    ensures RateKept(s) ==> Toggle(s, Env(pause, x => None)).pauseOffset == Position(s, pause)
  {
  }

  // ---------------------------------------------------------------------------
  // The natural end of a track
  // ---------------------------------------------------------------------------

  /** The clock reading at which the source's audio runs out: from where its
      current rate took effect it plays the remaining `duration - from`
      seconds of track at that rate. */
  function NaturalEnd(s: State): real
    requires s.source.Some? && s.buffer.Some?
  {
    var src := s.source.value;
    src.since + (s.buffer.value.duration - src.from) / src.rate
  }

  /** The elapsed-time check as written: `now - startTime` against the whole
      track's duration at the current rate, less 0.1 s. */
  predicate EndCheckAsWritten(s: State, now: real)
    requires s.source.Some? && s.buffer.Some?
  {
    now - s.startTime >= s.buffer.value.duration / s.source.value.rate - 0.1
  }

  /** The check the handler evidently intends: the source has played its
      remaining part of the track, less 0.1 s. It needs the clock reading and
      position at which the current rate took effect, which `updateSpeed`
      would have to record. */
  predicate EndCheck(s: State, now: real)
    requires s.source.Some? && s.buffer.Some?
  {
    var src := s.source.value;
    now - src.since >= (s.buffer.value.duration - src.from) / src.rate - 0.1
  }

  /** What the handler does once it accepts the end: next track, or a stop
      that resets the pause offset when autoplay is off. */
  function AfterEnd(s: State, env: Env): State {
    if s.autoplay then Next(s, env) else StopSong(s, true, env.now)
  }

  /** The source node's `onended` as written. A node detached by `stopSong`
      has no handler; the Go page acts on every call; the others only when
      playing and the elapsed-time check passes. */
  function OnEndedAsWritten(s: State, env: Env, v: Variant): (r: State)
    ensures s.source.None? ==> r == s
    ensures s.source.Some? && !EndIsChecked(v) ==> r == AfterEnd(s, env)
    ensures Valid(s) ==> Valid(r)
  {
    if s.source.None? then s
    else if !EndIsChecked(v) then AfterEnd(s, env)
    else if s.playing && s.buffer.Some? && EndCheckAsWritten(s, env.now) then AfterEnd(s, env)
    else s
  }

  /** `onended` with the intended check. */
  function OnEnded(s: State, env: Env, v: Variant): (r: State)
    ensures s.source.None? ==> r == s
    ensures s.source.Some? && !EndIsChecked(v) ==> r == AfterEnd(s, env)
    ensures Valid(s) ==> Valid(r)
  {
    if s.source.None? then s
    else if !EndIsChecked(v) then AfterEnd(s, env)
    else if s.playing && s.buffer.Some? && EndCheck(s, env.now) then AfterEnd(s, env)
    else s
  }

  /** The intended check passes exactly from 0.1 s before the natural end on. */
  lemma EndCheckMeansNaturalEnd(s: State, now: real)
    requires s.source.Some? && s.buffer.Some?
    ensures EndCheck(s, now) <==> now >= NaturalEnd(s) - 0.1
  {
  }

  /** When a node calls `onended` at its natural end, the intended handler
      always moves on. */
  lemma NaturalEndIsRecognised(s: State, decode: string -> Option<Buffer>, v: Variant)
    requires Valid(s) && s.playing
    ensures OnEnded(s, Env(NaturalEnd(s), decode), v) == AfterEnd(s, Env(NaturalEnd(s), decode))
  {
    EndCheckMeansNaturalEnd(s, NaturalEnd(s));
  }

  /** Both checks agree for a track played from its beginning at one rate,
      and at normal speed or faster, kept since the start, the check as written
      also passes at the natural end. */
  lemma ChecksAgreeFromStart(s: State, now: real)
    requires s.source.Some? && s.buffer.Some?
    ensures RateKept(s) && s.source.value.offset == 0.0 ==> (EndCheckAsWritten(s, now) <==> EndCheck(s, now))
    ensures RateKept(s) && s.source.value.offset >= 0.0 && s.source.value.rate >= 1.0 ==>
      EndCheckAsWritten(s, NaturalEnd(s))
  {
    var src := s.source.value;
    var d := s.buffer.value.duration;
    if src.offset >= 0.0 && src.rate >= 1.0 {
      assert src.offset / src.rate <= src.offset by { DivAtMost(src.offset, src.rate); }
      assert (d - src.offset) / src.rate == d / src.rate - src.offset / src.rate;
    }
  }

  lemma DivAtMost(x: real, r: real)
    requires x >= 0.0 && r >= 1.0
    ensures x / r <= x
  {
    assert x / r * r == x;
  }

  /** Resumed or sought to 10 s of a 100 s track at half speed, the node ends
      at clock 180 with 190 s elapsed since the clock origin, short of the
      199.9 s the check as written waits for: the player stays "playing" on
      a silent node and never advances. The intended check moves on. */
  lemma SlowResumeMissesEnd(names: seq<string>, decode: string -> Option<Buffer>)
    requires |names| > 0
    ensures var s := State(names, map[], 0, true, Some(Buffer(100.0)), -10.0, 0.0,
                           Some(Source(0.5, 10.0, 0.0, 10.0)), 0.5, true, true);
      && NaturalEnd(s) == 180.0
      && OnEndedAsWritten(s, Env(180.0, decode), Beta) == s
      && OnEnded(s, Env(180.0, decode), Beta) == Next(s, Env(180.0, decode))
  {
  }

  /** Slowed from double to half speed 25 s into a 100 s track played from its
      start, the node has reached 50 s of track and runs out at clock 125; the
      check as written waits for 199.9 s of clock time and leaves the player
      "playing" on a silent node. The intended check moves on. */
  lemma SpeedChangeMissesEnd(names: seq<string>, decode: string -> Option<Buffer>)
    requires |names| > 0
    ensures var s0 := State(names, map[], 0, true, Some(Buffer(100.0)), 0.0, 0.0,
                            Some(Source(2.0, 0.0, 0.0, 0.0)), 2.0, true, true);
      var s := SetSpeed(s0, 0.5, 25.0);
      && RateKept(s0) && Position(s, 25.0) == 50.0 && NaturalEnd(s) == 125.0
      && OnEndedAsWritten(s, Env(125.0, decode), Beta) == s
      && OnEnded(s, Env(125.0, decode), Beta) == Next(s, Env(125.0, decode))
  {
  }

  /** The natural end is the moment the source's position reaches the end of
      the buffer. After a rate change it is reached at the new rate from
      wherever the change caught the track. */
  lemma SpeedChangeMovesEnd(s: State, rate: Rate, now: real)
    requires s.source.Some? && s.buffer.Some?
    ensures Position(s, NaturalEnd(s)) == s.buffer.value.duration
    ensures var r := SetSpeed(s, rate, now);
      && Position(r, NaturalEnd(r)) == s.buffer.value.duration
      && NaturalEnd(r) == now + (s.buffer.value.duration - Position(s, now)) / rate
  {
    var d := s.buffer.value.duration;
    var src := s.source.value;
    assert (d - src.from) / src.rate * src.rate == d - src.from;
    var r := SetSpeed(s, rate, now);
    assert (d - Position(s, now)) / rate * rate == d - Position(s, now);
  }

  /** `stopSong` detaches the handler first, so a manual stop never advances. */
  lemma ManualStopNeverAdvances(s: State, endOfTrack: bool, now: real, env: Env, v: Variant)
    ensures OnEnded(StopSong(s, endOfTrack, now), env, v) == StopSong(s, endOfTrack, now)
    ensures OnEndedAsWritten(StopSong(s, endOfTrack, now), env, v) == StopSong(s, endOfTrack, now)
  {
  }

  // ---------------------------------------------------------------------------
  // Refreshing the library
  // ---------------------------------------------------------------------------

  /** The name of the current track, if the index points at a non-empty one
      (`currentTrackIndex > -1 ? audioFileNames[currentTrackIndex] : null`,
      then checked for truthiness). */
  function CurrentName(s: State): (r: Option<string>)
    ensures r.Some? ==> r.value in s.names && r.value != []
    ensures Valid(s) ==> (r.Some? <==> s.index >= 0)
  {
    if 0 <= s.index < |s.names| && s.names[s.index] != [] then Some(s.names[s.index]) else None
  }

  /** `updatePlaylist` (beta.py, aura.py): the new listing replaces the old;
      a current track that disappeared stops playback with a reset, drops the
      buffer and clears the index; one still present is found again by name. */
  function Reconcile(s: State, files: seq<string>, data: map<string, string>, now: real): (r: State)
    ensures r.names == files && r.data == data
    ensures CurrentName(s).None? ==> r == s.(names := files, data := data)
    ensures CurrentName(s).Some? && CurrentName(s).value in files ==>
      && r == s.(names := files, data := data, index := IndexOf(files, CurrentName(s).value))
      && 0 <= r.index < |files| && files[r.index] == CurrentName(s).value
    ensures CurrentName(s).Some? && CurrentName(s).value !in files ==>
      r.index == -1 && r.buffer.None? && !r.playing && r.source.None? && r.pauseOffset == 0.0
    ensures Valid(s) && (forall k :: 0 <= k < |files| ==> files[k] != []) ==> Valid(r)
  {
    var prev := CurrentName(s);
    var s1 := s.(names := files, data := data);
    if prev.Some? && prev.value !in files then StopSong(s1, true, now).(buffer := None, index := -1)
    else if prev.Some? then s1.(index := IndexOf(files, prev.value))
    else s1
  }

  /** `fetchAndRenderPlaylist` (the Go page): a `null` list or map from the
      server counts as empty; otherwise the same reconciliation. */
  function ReconcileGo(s: State, files: Option<seq<string>>, data: Option<map<string, string>>, now: real): (r: State)
    ensures r == Reconcile(s, files.GetOr([]), data.GetOr(map[]), now)
  {
    var names := files.GetOr([]);
    var prev := CurrentName(s);
    var s1 := s.(names := names, data := data.GetOr(map[]));
    if prev.Some? then
      var i := IndexOf(names, prev.value);
      if i != -1 then s1.(index := i)
      else StopSong(s1, true, now).(buffer := None, index := -1)
    else s1
  }

  /** The current track survives a refresh whenever its name is still listed,
      whatever else was added or removed; otherwise nothing is current. */
  lemma RefreshKeepsTrack(s: State, files: seq<string>, data: map<string, string>, now: real)
    requires Valid(s) && s.index >= 0
    ensures var r := Reconcile(s, files, data, now);
      (s.names[s.index] in files <==> CurrentName(r) == CurrentName(s)) &&
      (s.names[s.index] !in files <==> CurrentName(r).None?)
  {
  }

  /** Refreshing twice with the same listing changes nothing the second time. */
  lemma RefreshIdempotent(s: State, files: seq<string>, data: map<string, string>, now: real)
    requires Valid(s)
    ensures Reconcile(Reconcile(s, files, data, now), files, data, now) == Reconcile(s, files, data, now)
  {
    var r := Reconcile(s, files, data, now);
    var prev := CurrentName(s);
    if prev.Some? && prev.value in files {
      var i := IndexOf(files, prev.value);
      assert CurrentName(r) == Some(files[i]);
    }
  }
}

=== FILE: playlist.dfy ===
/** The Go client's library view, `renderSongList`: the names whose lower-case
    form contains the lower-case search text, in list order, each row
    remembering the track's position in the full list so that its play button
    plays the right track. */
module Playlist {

  import opened Text

  /** A name is shown when its lower-case form contains the lower-case filter. */
  predicate Matches(name: string, filter: string) {
    Contains(Lower(name), Lower(filter))
  }

  /** One row of the list: the name and the index its play button carries. */
  datatype Row = Row(name: string, index: int)

  /** What the list element shows. */
  datatype View =
    | NoSongs          // the library is empty
    | NoMatches        // the library has tracks, none matches the filter
    | Rows(rows: seq<Row>)

  /** Reference definition of `audioFileNames.filter(...)`. */
  function Filtered(names: seq<string>, filter: string): (r: seq<string>)
    ensures |r| <= |names|
  {
    if |names| == 0 then []
    else (if Matches(names[0], filter) then [names[0]] else []) + Filtered(names[1..], filter)
  }

  /** Exactly the matching names are kept. */
  lemma {:induction false} FilteredMembers(names: seq<string>, filter: string)
    ensures forall x :: x in Filtered(names, filter) <==> x in names && Matches(x, filter)
  {
    if |names| > 0 {
      FilteredMembers(names[1..], filter);
      assert names == [names[0]] + names[1..];
    }
  }

  lemma {:induction false} FilteredAppend(names: seq<string>, x: string, filter: string)
    ensures Filtered(names + [x], filter)
         == Filtered(names, filter) + (if Matches(x, filter) then [x] else [])
    decreases |names|
  {
    var keep := if Matches(x, filter) then [x] else [];
    if |names| == 0 {
      assert names + [x] == [x];
      assert Filtered([x], filter) == keep + Filtered([], filter);
    } else {
      var head := if Matches(names[0], filter) then [names[0]] else [];
      assert (names + [x])[0] == names[0];
      assert (names + [x])[1..] == names[1..] + [x];
      FilteredAppend(names[1..], x, filter);
      assert Filtered(names + [x], filter) == head + Filtered(names[1..] + [x], filter);
      assert Filtered(names, filter) == head + Filtered(names[1..], filter);
    }
  }

  function RowNames(rows: seq<Row>): (r: seq<string>)
    ensures |r| == |rows|
    ensures forall i :: 0 <= i < |rows| ==> r[i] == rows[i].name
  {
    seq(|rows|, i requires 0 <= i < |rows| => rows[i].name)
  }

  /** Every row's play button plays the track the row shows. */
  predicate PointsInto(names: seq<string>, rows: seq<Row>) {
    forall i :: 0 <= i < |rows| ==>
      0 <= rows[i].index < |names| && names[rows[i].index] == rows[i].name
  }

  /** The rows' indices increase and stay below `bound`. */
  predicate Ascending(rows: seq<Row>, bound: int) {
    && (forall i :: 0 <= i < |rows| ==> rows[i].index < bound)
    && (forall i, j :: 0 <= i < j < |rows| ==> rows[i].index < rows[j].index)
  }

  lemma AppendRow(names: seq<string>, rows: seq<Row>, k: int)
    requires 0 <= k < |names| && PointsInto(names, rows)
    requires Distinct(names) ==> Ascending(rows, k)
    ensures PointsInto(names, rows + [Row(names[k], IndexOf(names, names[k]))])
    ensures Distinct(names) ==> Ascending(rows + [Row(names[k], IndexOf(names, names[k]))], k + 1)
  {
    var row := Row(names[k], IndexOf(names, names[k]));
    var r := rows + [row];
    assert names[k] in names;
    forall i | 0 <= i < |r| ensures 0 <= r[i].index < |names| && names[r[i].index] == r[i].name {
      if i < |rows| {
        assert r[i] == rows[i];
      }
    }
    if Distinct(names) {
      IndexOfDistinct(names, k);
      AppendAscending(rows, row, k);
    }
  }

  lemma AppendAscending(rows: seq<Row>, row: Row, k: int)
    requires Ascending(rows, k) && row.index == k
    ensures Ascending(rows + [row], k + 1)
  {
    var r := rows + [row];
    forall i | 0 <= i < |r| ensures r[i].index < k + 1 {
      if i < |rows| {
        assert r[i] == rows[i];
      }
    }
    forall i, j | 0 <= i < j < |r| ensures r[i].index < r[j].index {
      assert r[i] == rows[i];
      if j < |rows| {
        assert r[j] == rows[j];
      }
    }
  }

  /** One turn of the rendering loop keeps its invariant. */
  lemma RenderStep(names: seq<string>, box: string, rows: seq<Row>, k: int)
    requires 0 <= k < |names| && RowNames(rows) == Filtered(names[..k], box)
    requires PointsInto(names, rows) && (Distinct(names) ==> Ascending(rows, k))
    ensures var next := if Matches(names[k], box) then rows + [Row(names[k], IndexOf(names, names[k]))] else rows;
      && RowNames(next) == Filtered(names[..k + 1], box)
      && PointsInto(names, next)
      && (Distinct(names) ==> Ascending(next, k + 1))
  {
    FilteredAppend(names[..k], names[k], box);
    assert names[..k + 1] == names[..k] + [names[k]];
    if Matches(names[k], box) {
      var row := Row(names[k], IndexOf(names, names[k]));
      AppendRow(names, rows, k);
      assert RowNames(rows + [row]) == RowNames(rows) + [names[k]];
    }
  }

  /** The rows `renderSongList` builds: one per matching name, in list order,
      each carrying the position `indexOf` finds for it; in a library without
      repeated names (the server lists a directory) those positions increase,
      so the rows keep the library's order. */
  method MatchingRows(names: seq<string>, box: string) returns (rows: seq<Row>)
    ensures RowNames(rows) == Filtered(names, box)
    ensures PointsInto(names, rows)
    ensures Distinct(names) ==> Ascending(rows, |names|)
  {
    rows := [];
    var k := 0;
    while k < |names|
      invariant 0 <= k <= |names|
      invariant RowNames(rows) == Filtered(names[..k], box)
      invariant PointsInto(names, rows)
      invariant Distinct(names) ==> Ascending(rows, k)
    {
      RenderStep(names, box, rows, k);
      if Matches(names[k], box) {
        rows := rows + [Row(names[k], IndexOf(names, names[k]))];
      }
      k := k + 1;
    }
    assert names[..k] == names;
  }

  /** `renderSongList`: an empty library and an empty result are told apart
      by their messages; otherwise the matching rows are shown. */
  method Render(names: seq<string>, box: string) returns (v: View)
    ensures v == NoSongs <==> |names| == 0
    ensures v == NoMatches <==> |names| > 0 && Filtered(names, box) == []
    ensures v.Rows? ==> RowNames(v.rows) == Filtered(names, box) && |v.rows| > 0
    ensures v.Rows? ==> PointsInto(names, v.rows)
    ensures v.Rows? && Distinct(names) ==> Ascending(v.rows, |names|)
  {
    var rows := MatchingRows(names, box);
    if |names| == 0 {
      v := NoSongs;
    } else if |rows| == 0 {
      v := NoMatches;
    } else {
      v := Rows(rows);
    }
  }

  /** An empty search box shows the whole library. */
  lemma {:induction false} EmptyFilterShowsAll(names: seq<string>)
    ensures Filtered(names, "") == names
  {
    if |names| > 0 {
      assert Matches(names[0], "") by { assert StartsWith(Lower(names[0]), []); }
      EmptyFilterShowsAll(names[1..]);
    }
  }

  lemma LowerTwice(s: string)
    ensures Lower(Lower(s)) == Lower(s)
  {
  }

  /** The search ignores the case of what is typed. */
  lemma {:induction false} FilterIgnoresCase(names: seq<string>, box: string)
    ensures Filtered(names, Lower(box)) == Filtered(names, box)
  {
    if |names| > 0 {
      LowerTwice(box);
      FilterIgnoresCase(names[1..], box);
    }
  }
}

=== FILE: queue.dfy ===
/** The download queue of the beta.py client: one item per download the
    server announces, keyed by the announced file name, updated by the four
    socket events. Items are elements whose id is "download-" followed by the
    key, looked up with `getElementById`; the queue itself is the element
    "download-queue". */
module DownloadQueue {

  import opened Wrappers
  import opened Text
  import Worker

  /** The status line of an item: "Preparing..." until the first progress report. */
  datatype Status = Preparing | InProgress

  datatype Item = Item(filename: string, status: Status)

  /** The items in document order, and whether the queue element is still on
      the page. */
  datatype Queue = Queue(items: seq<Item>, container: bool)

  /** What a socket event does: the new queue, whether the library is
      refreshed, and the alert shown, if any. */
  datatype Effect = Effect(queue: Queue, refresh: bool, alert: Option<string>)

  const ItemIdPrefix: string := "download-"
  const ContainerId: string := "download-queue"

  function Keys(items: seq<Item>): seq<string> {
    seq(|items|, i requires 0 <= i < |items| => items[i].filename)
  }

  /** The queue the page starts with. */
  const Initial: Queue := Queue([], true)

  /** At most one item per key, and no items without the queue element. */
  predicate Valid(q: Queue) {
    Distinct(Keys(q.items)) && (!q.container ==> q.items == [])
  }

  function Find(q: Queue, f: string): (i: int)
    ensures -1 <= i < |q.items|
    ensures i == -1 <==> f !in Keys(q.items)
    ensures i >= 0 ==> q.items[i].filename == f
  {
    IndexOf(Keys(q.items), f)
  }

  function ErrorAlert(f: string, message: string): string {
    "Download failed for \"" + f + "\": " + message
  }

  // ---------------------------------------------------------------------------
  // The queue keyed by file name
  // ---------------------------------------------------------------------------

  /** `download_start` / `addDownloadItem`: a new key gets an item at the end;
      a key already queued adds nothing. */
  function OnStart(q: Queue, f: string): (r: Queue)
    requires Valid(q) && q.container
    ensures Valid(r) && r.container
    ensures f in Keys(q.items) ==> r == q
    ensures f !in Keys(q.items) ==> r.items == q.items + [Item(f, Preparing)]
  {
    if f in Keys(q.items) then q
    else
      var r := Queue(q.items + [Item(f, Preparing)], true);
      assert Keys(r.items) == Keys(q.items) + [f];
      r
  }

  /** `download_progress`: the item of that key shows progress; an unknown key
      is ignored; no other item changes. */
  function OnProgress(q: Queue, f: string): (r: Queue)
    requires Valid(q)
    ensures Valid(r) && r.container == q.container
    ensures |r.items| == |q.items| && Keys(r.items) == Keys(q.items)
    ensures forall i :: 0 <= i < |q.items| ==>
      r.items[i] == (if q.items[i].filename == f then Item(f, InProgress) else q.items[i])
    ensures f !in Keys(q.items) ==> r == q
  {
    var i := Find(q, f);
    if i == -1 then
      assert forall j :: 0 <= j < |q.items| ==> Keys(q.items)[j] == q.items[j].filename;
      q
    else
      var r := Queue(q.items[i := Item(f, InProgress)], q.container);
      assert Keys(r.items) == Keys(q.items);
      forall j | 0 <= j < |q.items| && q.items[j].filename == f
        ensures j == i
      {
        DistinctIndex(Keys(q.items), i, j);
      }
      r
  }

  /** `r` is `q` with the item of key `f` taken out, if there is one, and the
      other items left in their document order, as `item.remove()` leaves them. */
  predicate RemovedInOrder(q: Queue, f: string, r: Queue) {
    && r.container == q.container
    && (f !in Keys(q.items) ==> r.items == q.items)
    && (f in Keys(q.items) ==>
          exists i :: 0 <= i < |q.items| && q.items[i].filename == f && r.items == q.items[..i] + q.items[i + 1..])
  }

  /** The item of key `f` taken out, the others kept in order. */
  function RemoveKey(q: Queue, f: string): (r: Queue)
    requires Valid(q)
    ensures Valid(r) && RemovedInOrder(q, f, r)
    ensures forall g :: g in Keys(r.items) <==> g in Keys(q.items) && g != f
    ensures forall it :: it in r.items <==> it in q.items && it.filename != f
  {
    var i := Find(q, f);
    if i == -1 then
      assert forall j :: 0 <= j < |q.items| ==> Keys(q.items)[j] == q.items[j].filename;
      q
    else
      RemoveAt(q, i);
      Queue(q.items[..i] + q.items[i + 1..], q.container)
  }

  /** Taking out the item at `i` takes out exactly the items of its key. */
  lemma RemoveAt(q: Queue, i: int)
    requires Valid(q) && 0 <= i < |q.items|
    ensures var items := q.items[..i] + q.items[i + 1..];
      && Distinct(Keys(items))
      && (forall g :: g in Keys(items) <==> g in Keys(q.items) && g != q.items[i].filename)
      && (forall it :: it in items <==> it in q.items && it.filename != q.items[i].filename)
  {
    var items := q.items[..i] + q.items[i + 1..];
    KeysWithout(q.items, i);
    DistinctWithout(Keys(q.items), i);
    forall it | it in q.items && it.filename == q.items[i].filename
      ensures it !in items
    {
      var j :| 0 <= j < |q.items| && q.items[j] == it;
      DistinctIndex(Keys(q.items), i, j);
      ItemsWithout(q.items, i);
    }
  }

  lemma KeysWithout(items: seq<Item>, i: int)
    requires 0 <= i < |items|
    ensures Keys(items[..i] + items[i + 1..]) == Keys(items)[..i] + Keys(items)[i + 1..]
  {
  }

  /** With distinct keys, the item at `i` occurs nowhere else. */
  lemma ItemsWithout(items: seq<Item>, i: int)
    requires 0 <= i < |items| && Distinct(Keys(items))
    ensures items[i] !in items[..i] + items[i + 1..]
  {
    var rest := items[..i] + items[i + 1..];
    forall k | 0 <= k < |rest| ensures rest[k] != items[i] {
      var j := if k < i then k else k + 1;
      assert rest[k] == items[j];
      if rest[k] == items[i] {
        DistinctIndex(Keys(items), i, j);
      }
    }
  }

  /** `download_finished`: the item goes and the library is refreshed. */
  function OnFinished(q: Queue, f: string): (r: Effect)
    requires Valid(q)
    ensures Valid(r.queue) && RemovedInOrder(q, f, r.queue)
    ensures forall g :: g in Keys(r.queue.items) <==> g in Keys(q.items) && g != f
    ensures r.refresh && r.alert.None?
  {
    Effect(RemoveKey(q, f), true, None)
  }

  /** `download_error`: an alert naming the key and the message, the item
      goes, and nothing is refreshed. */
  function OnError(q: Queue, f: string, message: string): (r: Effect)
    requires Valid(q)
    ensures Valid(r.queue) && RemovedInOrder(q, f, r.queue)
    ensures forall g :: g in Keys(r.queue.items) <==> g in Keys(q.items) && g != f
    ensures !r.refresh && r.alert == Some(ErrorAlert(f, message))
  {
    Effect(RemoveKey(q, f), false, Some(ErrorAlert(f, message)))
  }

  /** The socket handler for one event. */
  function Apply(q: Queue, e: Worker.Event): (r: Effect)
    requires Valid(q) && q.container
    ensures Valid(r.queue) && r.queue.container
    ensures r.refresh <==> e.Finished?
    ensures r.alert.Some? <==> e.Error?
  {
    match e
    case Start(f) => Effect(OnStart(q, f), false, None)
    case Progress(f) => Effect(OnProgress(q, f), false, None)
    case Finished(f) => OnFinished(q, f)
    case Error(m, f) => OnError(q, f, m)
  }

  /** The events in order: the final queue and the number of refreshes. */
  function Replay(q: Queue, events: seq<Worker.Event>): (r: (Queue, nat))
    requires Valid(q) && q.container
    ensures Valid(r.0) && r.0.container
    ensures r.1 <= |events|
    decreases |events|
  {
    if |events| == 0 then (q, 0)
    else
      var e := Apply(q, events[0]);
      var rest := Replay(e.queue, events[1..]);
      (rest.0, rest.1 + (if e.refresh then 1 else 0))
  }

  // ---------------------------------------------------------------------------
  // Properties
  // ---------------------------------------------------------------------------

  /** A repeated start is harmless. */
  lemma StartIdempotent(q: Queue, f: string)
    requires Valid(q) && q.container
    ensures OnStart(OnStart(q, f), f) == OnStart(q, f)
  {
    if f !in Keys(q.items) {
      assert Keys(OnStart(q, f).items)[|q.items|] == f;
    }
  }

  /** A download that starts and finishes leaves the queue as it found it. */
  lemma StartThenFinishRestores(q: Queue, f: string)
    requires Valid(q) && q.container && f !in Keys(q.items)
    ensures OnFinished(OnStart(q, f), f).queue == q
  {
    var s := OnStart(q, f);
    assert Keys(s.items)[|q.items|] == f;
    assert Find(s, f) == |q.items| by {
      assert Keys(s.items) == Keys(q.items) + [f];
    }
    assert s.items[..|q.items|] == q.items;
  }

  /** Progress events for a queued key keep it last in line when it was the
      last added, and change nothing else. */
  lemma {:induction false} ReplayProgress(q: Queue, f: string, events: seq<Worker.Event>)
    requires Valid(q) && q.container && |q.items| > 0 && q.items[|q.items| - 1].filename == f
    requires forall i :: 0 <= i < |events| ==> events[i] == Worker.Progress(f)
    ensures Replay(q, events).1 == 0
    ensures |Replay(q, events).0.items| == |q.items|
    ensures Replay(q, events).0.items[..|q.items| - 1] == q.items[..|q.items| - 1]
    ensures Replay(q, events).0.items[|q.items| - 1].filename == f
    decreases |events|
  {
    if |events| > 0 {
      var p := OnProgress(q, f);
      forall j | 0 <= j < |q.items| - 1 ensures p.items[j] == q.items[j] {
        assert Keys(q.items)[j] == q.items[j].filename;
        if q.items[j].filename == f {
          DistinctIndex(Keys(q.items), j, |q.items| - 1);
        }
      }
      assert p.items[..|q.items| - 1] == q.items[..|q.items| - 1];
      ReplayProgress(p, f, events[1..]);
    }
  }

  lemma {:induction false} ReplayAppend(q: Queue, a: seq<Worker.Event>, b: seq<Worker.Event>)
    requires Valid(q) && q.container
    ensures Replay(q, a + b).0 == Replay(Replay(q, a).0, b).0
    ensures Replay(q, a + b).1 == Replay(q, a).1 + Replay(Replay(q, a).0, b).1
    decreases |a|
  {
    if |a| > 0 {
      assert (a + b)[0] == a[0];
      assert (a + b)[1..] == a[1..] + b;
      ReplayAppend(Apply(q, a[0]).queue, a[1..], b);
    } else {
      assert a + b == b;
    }
  }

  /** One completed download, seen by the client: its item appears, shows
      progress and goes, the queue ends as it began, and the library is
      refreshed once. */
  lemma ReplayEntry(q: Queue, e: Worker.Entry, h: Worker.SpeedHandling)
    requires Valid(q) && q.container && Worker.StableEntry(e) && Worker.EntryOk(e, h)
    requires e.title.value !in Keys(q.items)
    ensures Replay(q, Worker.RunEntry(e, h).events) == (q, 1)
  {
    var t := e.title.value;
    var progress := StableEntryEvents(e, h);
    var tail := progress + [Worker.Finished(t)];
    ReplayAppend(q, [Worker.Start(t)], tail);
    ReplayOne(q, Worker.Start(t));
    ReplayStarted(q, t, progress);
  }

  /** After its start, the rest of a completed download's events. */
  lemma {:induction false} ReplayStarted(q: Queue, t: string, progress: seq<Worker.Event>)
    requires Valid(q) && q.container && t !in Keys(q.items)
    requires forall i :: 0 <= i < |progress| ==> progress[i] == Worker.Progress(t)
    ensures Replay(OnStart(q, t), progress + [Worker.Finished(t)]) == (q, 1)
  {
    var s := OnStart(q, t);
    assert s.items == q.items + [Item(t, Preparing)];
    ReplayAppend(s, progress, [Worker.Finished(t)]);
    assert s.items[|q.items|].filename == t;
    ReplayProgress(s, t, progress);
    var p := Replay(s, progress).0;
    assert s.items[..|q.items|] == q.items;
    assert p.items[..|q.items|] == q.items;
    ReplayOne(p, Worker.Finished(t));
    RemoveLast(q, p, t);
  }

  /** After its start, the rest of a failed download's events: its progress
      reports, then the error filed under its key. */
  lemma {:induction false} ReplayStartedFails(q: Queue, t: string, progress: seq<Worker.Event>, m: string)
    requires Valid(q) && q.container && t !in Keys(q.items)
    requires forall i :: 0 <= i < |progress| ==> progress[i] == Worker.Progress(t)
    ensures Replay(OnStart(q, t), progress + [Worker.Error(m, t)]) == (q, 0)
  {
    var s := OnStart(q, t);
    assert s.items == q.items + [Item(t, Preparing)];
    ReplayAppend(s, progress, [Worker.Error(m, t)]);
    assert s.items[|q.items|].filename == t;
    ReplayProgress(s, t, progress);
    var p := Replay(s, progress).0;
    assert s.items[..|q.items|] == q.items;
    assert p.items[..|q.items|] == q.items;
    ReplayOne(p, Worker.Error(m, t));
    RemoveLast(q, p, t);
  }

  /** One failed download whose reports keep its title, followed by the error
      under its key: its item appears and is taken down again, and nothing is
      refreshed. */
  lemma ReplayFailedEntry(q: Queue, e: Worker.Entry, h: Worker.SpeedHandling, m: string)
    requires Valid(q) && q.container && Worker.StableEntry(e) && !Worker.EntryOk(e, h)
    requires Worker.StartKey(e) !in Keys(q.items)
    ensures Replay(q, Worker.RunEntry(e, h).events + [Worker.Error(m, Worker.StartKey(e))]) == (q, 0)
  {
    var t := Worker.StartKey(e);
    var r := Worker.RunEntry(e, h);
    var mid := Worker.EntryShape(e, h);
    Worker.StableEntryKey(e, h);
    assert r.events == [Worker.Start(t)] + mid;
    forall i | 0 <= i < |mid| ensures mid[i] == Worker.Progress(t) {
      assert mid[i] == r.events[i + 1];
    }
    assert r.events + [Worker.Error(m, t)] == [Worker.Start(t)] + (mid + [Worker.Error(m, t)]);
    ReplayAppend(q, [Worker.Start(t)], mid + [Worker.Error(m, t)]);
    ReplayOne(q, Worker.Start(t));
    ReplayStartedFails(q, t, mid, m);
  }

  /** The events of a completed entry whose reports carry its own title. */
  lemma StableEntryEvents(e: Worker.Entry, h: Worker.SpeedHandling) returns (progress: seq<Worker.Event>)
    requires Worker.StableEntry(e) && Worker.EntryOk(e, h)
    ensures forall i :: 0 <= i < |progress| ==> progress[i] == Worker.Progress(e.title.value)
    ensures Worker.RunEntry(e, h).events == [Worker.Start(e.title.value)] + (progress + [Worker.Finished(e.title.value)])
  {
    var t := e.title.value;
    var d := Worker.RunHooks(e.hooks, t, h);
    Worker.StableTitleKeepsKey(e.hooks, t, h);
    progress := d.events;
  }

  lemma ReplayOne(q: Queue, e: Worker.Event)
    requires Valid(q) && q.container
    ensures Replay(q, [e]) == (Apply(q, e).queue, if Apply(q, e).refresh then 1 else 0)
  {
    assert [e][1..] == [];
  }

  /** Taking out the item added last gives back the queue it was added to. */
  lemma RemoveLast(q: Queue, p: Queue, t: string)
    requires Valid(q) && Valid(p) && q.container && p.container
    requires |p.items| == |q.items| + 1 && p.items[..|q.items|] == q.items
    requires p.items[|q.items|].filename == t && t !in Keys(q.items)
    ensures RemoveKey(p, t) == q
  {
    assert Keys(p.items) == Keys(q.items) + [t];
    assert Find(p, t) == |q.items|;
    assert RemoveKey(p, t).items == p.items[..|q.items|];
  }

  /** A run in which every download completes under its own title, none of
      them already queued, leaves the queue as it found it and refreshes the
      library once per entry. */
  lemma {:induction false} ReplayCompletedRun(q: Queue, entries: seq<Worker.Entry>, id: string, h: Worker.SpeedHandling)
    requires Valid(q) && q.container
    requires forall k :: 0 <= k < |entries| ==> Worker.StableEntry(entries[k]) && Worker.EntryOk(entries[k], h)
    requires forall k :: 0 <= k < |entries| ==> Worker.StartKey(entries[k]) !in Keys(q.items)
    ensures Replay(q, Worker.RunAll(entries, id, h).events) == (q, |entries|)
    decreases |entries|
  {
    if |entries| > 0 {
      var e := entries[0];
      assert Worker.StableEntry(e) && Worker.EntryOk(e, h) && Worker.StartKey(e) !in Keys(q.items);
      var r := Worker.RunEntry(e, h);
      ReplayEntry(q, e, h);
      var rest := Worker.RunAll(entries[1..], r.id, h);
      assert Worker.RunAll(entries, id, h).events == r.events + rest.events;
      ReplayCompletedRun(q, entries[1..], r.id, h);
      ReplayAppend(q, r.events, rest.events);
    }
  }

  /** A playlist whose entry `k` is the first to fail, every entry up to it
      keeping its title and none of them already queued: the completed
      downloads' items come and go, the failing one's item is taken down by the
      error event, and the queue ends as it began after `k` refreshes. */
  lemma ReplayFailedRun(q: Queue, entries: seq<Worker.Entry>, k: nat, h: Worker.SpeedHandling)
    requires Valid(q) && q.container
    requires k < |entries| && !Worker.EntryOk(entries[k], h)
    requires forall j :: 0 <= j < k ==> Worker.EntryOk(entries[j], h)
    requires forall j :: 0 <= j <= k ==> Worker.StableEntry(entries[j]) && Worker.StartKey(entries[j]) !in Keys(q.items)
    requires Worker.StartKey(entries[k]) != []
    ensures Replay(q, Worker.TraceWith(Worker.Extracted(Worker.Playlist(entries)), h)) == (q, k)
  {
    var failed := Worker.RunEntry(entries[k], h);
    Worker.FailureIsFirstFailing(entries, k, [], h);
    Worker.StableEntryKey(entries[k], h);
    ReplayUpToFailure(q, entries, k, [], h, failed.failure.value);
  }

  /** The loop's events up to its first failure, then the error under the
      failing entry's key. */
  lemma {:induction false} ReplayUpToFailure(q: Queue, entries: seq<Worker.Entry>, k: nat, id: string,
                                             h: Worker.SpeedHandling, m: string)
    requires Valid(q) && q.container
    requires k < |entries| && !Worker.EntryOk(entries[k], h)
    requires forall j :: 0 <= j < k ==> Worker.EntryOk(entries[j], h)
    requires forall j :: 0 <= j <= k ==> Worker.StableEntry(entries[j]) && Worker.StartKey(entries[j]) !in Keys(q.items)
    ensures Replay(q, Worker.RunAll(entries, id, h).events + [Worker.Error(m, Worker.StartKey(entries[k]))]) == (q, k)
    decreases k
  {
    var err := Worker.Error(m, Worker.StartKey(entries[k]));
    if k == 0 {
      ReplayFailedEntry(q, entries[0], h, m);
    } else {
      var e := entries[0];
      assert Worker.EntryOk(e, h) && Worker.StableEntry(e) && Worker.StartKey(e) !in Keys(q.items);
      var r := Worker.RunEntry(e, h);
      var tail := Worker.RunAll(entries[1..], r.id, h).events + [err];
      Worker.RunAllCons(entries, id, h);
      assert Worker.RunAll(entries, id, h).events + [err] == r.events + tail;
      assert entries[1..][k - 1] == entries[k];
      ReplayUpToFailure(q, entries[1..], k - 1, r.id, h, m);
      ReplayEntryThen(q, e, h, tail);
    }
  }

  /** A completed download followed by anything: the queue is back where it
      was when the rest begins, and one more refresh is counted. */
  lemma {:induction false} ReplayEntryThen(q: Queue, e: Worker.Entry, h: Worker.SpeedHandling, tail: seq<Worker.Event>)
    requires Valid(q) && q.container && Worker.StableEntry(e) && Worker.EntryOk(e, h)
    requires Worker.StartKey(e) !in Keys(q.items)
    ensures Replay(q, Worker.RunEntry(e, h).events + tail) == (Replay(q, tail).0, 1 + Replay(q, tail).1)
  {
    assert Worker.StartKey(e) == e.title.value;
    ReplayEntry(q, e, h);
    ReplayAfterReturn(q, Worker.RunEntry(e, h).events, tail, 1);
  }

  /** Events that bring the queue back to where it was leave the rest of a
      trace to run as if they had not happened, besides their refreshes. */
  lemma {:induction false} ReplayAfterReturn(q: Queue, a: seq<Worker.Event>, tail: seq<Worker.Event>, n: nat)
    requires Valid(q) && q.container && Replay(q, a) == (q, n)
    ensures Replay(q, a + tail) == (Replay(q, tail).0, n + Replay(q, tail).1)
  {
    ReplayAppend(q, a, tail);
  }

  // ---------------------------------------------------------------------------
  // The queue as written: item ids share the page's id space
  // ---------------------------------------------------------------------------

  /** What `getElementById("download-" + f)` finds: the queue element itself
      (which precedes its items in document order), an item, or nothing. */
  datatype Found = QueueElement | ItemAt(index: nat) | NotFound

  function Lookup(q: Queue, f: string): (r: Found)
    ensures r.ItemAt? ==> r.index < |q.items| && q.items[r.index].filename == f
    ensures r == QueueElement <==> q.container && f == "queue"
    ensures r == NotFound ==> f !in Keys(q.items)
  {
    IdOfQueue(f);
    if q.container && ItemIdPrefix + f == ContainerId then QueueElement
    else
      var i := Find(q, f);
      if i == -1 then NotFound else ItemAt(i)
  }

  lemma IdOfQueue(f: string)
    ensures ItemIdPrefix + f == ContainerId <==> f == "queue"
  {
    if ItemIdPrefix + f == ContainerId {
      assert f == ContainerId[|ItemIdPrefix|..];
    }
  }

  /** `addDownloadItem` as written. When the queue element is gone,
      `queue.appendChild` throws and nothing is added. */
  function OnStartAsWritten(q: Queue, f: string): (r: Queue)
    requires Valid(q)
    ensures Valid(r) && r.container == q.container
    ensures Lookup(q, f) == NotFound && q.container ==> r.items == q.items + [Item(f, Preparing)]
    ensures Lookup(q, f) != NotFound || !q.container ==> r == q
  {
    if Lookup(q, f) != NotFound || !q.container then q
    else
      var r := Queue(q.items + [Item(f, Preparing)], true);
      assert Keys(r.items) == Keys(q.items) + [f];
      r
  }

  /** The `download_finished` handler as written: whatever element the id
      finds is removed; removing the queue element takes every item with it. */
  function OnFinishedAsWritten(q: Queue, f: string): (r: Effect)
    requires Valid(q)
    ensures Valid(r.queue) && r.refresh && r.alert.None?
    ensures Lookup(q, f) == QueueElement ==> r.queue == Queue([], false)
    ensures Lookup(q, f) != QueueElement ==> r.queue == RemoveKey(q, f)
  {
    match Lookup(q, f)
    case QueueElement => Effect(Queue([], false), true, None)
    case _ => Effect(RemoveKey(q, f), true, None)
  }

  /** The `download_progress` handler as written. When the id finds the queue
      element, `querySelector` returns the first item's bar and status, so that
      item is shown in progress; with no items it returns `null` and the
      handler throws before changing anything. */
  function OnProgressAsWritten(q: Queue, f: string): (r: Queue)
    requires Valid(q)
    ensures Valid(r) && r.container == q.container && Keys(r.items) == Keys(q.items)
    ensures Lookup(q, f) == QueueElement && |q.items| > 0 ==>
      r.items == q.items[0 := Item(q.items[0].filename, InProgress)]
    ensures Lookup(q, f) == QueueElement && |q.items| == 0 ==> r == q
    ensures Lookup(q, f) != QueueElement ==> r == OnProgress(q, f)
  {
    match Lookup(q, f)
    case QueueElement =>
      if |q.items| == 0 then q
      else
        var r := Queue(q.items[0 := Item(q.items[0].filename, InProgress)], q.container);
        assert Keys(r.items) == Keys(q.items);
        r
    case _ => OnProgress(q, f)
  }

  /** The `download_error` handler as written: the alert, then whatever
      element the id finds is removed, the queue element with every item in it. */
  function OnErrorAsWritten(q: Queue, f: string, message: string): (r: Effect)
    requires Valid(q)
    ensures Valid(r.queue) && !r.refresh && r.alert == Some(ErrorAlert(f, message))
    ensures Lookup(q, f) == QueueElement ==> r.queue == Queue([], false)
    ensures Lookup(q, f) != QueueElement ==> r == OnError(q, f, message)
  {
    match Lookup(q, f)
    case QueueElement => Effect(Queue([], false), false, Some(ErrorAlert(f, message)))
    case _ => OnError(q, f, message)
  }

  /** The socket handlers as written, for one event. */
  function ApplyAsWritten(q: Queue, e: Worker.Event): (r: Effect)
    requires Valid(q)
    ensures Valid(r.queue)
    ensures r.refresh <==> e.Finished?
    ensures r.alert.Some? <==> e.Error?
  {
    match e
    case Start(f) => Effect(OnStartAsWritten(q, f), false, None)
    case Progress(f) => Effect(OnProgressAsWritten(q, f), false, None)
    case Finished(f) => OnFinishedAsWritten(q, f)
    case Error(m, f) => OnErrorAsWritten(q, f, m)
  }

  /** The events in order, handled as written. */
  function ReplayAsWritten(q: Queue, events: seq<Worker.Event>): (r: (Queue, nat))
    requires Valid(q)
    ensures Valid(r.0) && r.1 <= |events|
    decreases |events|
  {
    if |events| == 0 then (q, 0)
    else
      var e := ApplyAsWritten(q, events[0]);
      var rest := ReplayAsWritten(e.queue, events[1..]);
      (rest.0, rest.1 + (if e.refresh then 1 else 0))
  }

  /** For every key but "queue" the handlers as written do what the keyed
      queue does. */
  lemma AsWrittenAgrees(q: Queue, e: Worker.Event)
    requires Valid(q) && q.container && e.filename != "queue"
    ensures ApplyAsWritten(q, e) == Apply(q, e)
  {
    var f := e.filename;
    match Lookup(q, f)
    case ItemAt(i) =>
      assert Keys(q.items)[i] == f;
    case NotFound =>
    case QueueElement =>
  }

  /** A trace in which no download is titled "queue" is handled as written
      exactly as by the keyed queue. */
  lemma {:induction false} ReplayAsWrittenAgrees(q: Queue, events: seq<Worker.Event>)
    requires Valid(q) && q.container
    requires forall i :: 0 <= i < |events| ==> events[i].filename != "queue"
    ensures ReplayAsWritten(q, events) == Replay(q, events)
    decreases |events|
  {
    if |events| > 0 {
      AsWrittenAgrees(q, events[0]);
      ReplayAsWrittenAgrees(Apply(q, events[0]).queue, events[1..]);
    }
  }

  /** The page as written sees a completed run as the keyed queue does when no
      title is "queue": the queue ends as it began, refreshed once per entry. */
  lemma CompletedRunAsWritten(q: Queue, entries: seq<Worker.Entry>, id: string, h: Worker.SpeedHandling)
    requires Valid(q) && q.container
    requires forall k :: 0 <= k < |entries| ==> Worker.StableEntry(entries[k]) && Worker.EntryOk(entries[k], h)
    requires forall k :: 0 <= k < |entries| ==> Worker.StartKey(entries[k]) !in Keys(q.items)
    requires forall k :: 0 <= k < |entries| ==> Worker.StartKey(entries[k]) != "queue"
    ensures ReplayAsWritten(q, Worker.RunAll(entries, id, h).events) == (q, |entries|)
  {
    var events := Worker.RunAll(entries, id, h).events;
    Worker.StableRunKeys(entries, id, h);
    forall i | 0 <= i < |events| ensures events[i].filename != "queue" {
      var k :| 0 <= k < |entries| && Worker.StartKeysOf(entries)[k] == events[i].filename;
    }
    ReplayAsWrittenAgrees(q, events);
    ReplayCompletedRun(q, entries, id, h);
  }

  /** A download titled "queue": its item is never shown, its progress is
      drawn on another download's item, and its completion or failure removes
      the whole queue, after which no later download is shown either. The
      queue keyed by file name handles the same events as intended. */
  lemma QueueTitleCollides(other: string, later: string, message: string)
    requires other != "queue" && later != "queue" && later != other
    ensures var q := Queue([Item(other, Preparing)], true);
      && OnStartAsWritten(q, "queue") == q
      && OnProgressAsWritten(q, "queue").items == [Item(other, InProgress)]
      && OnFinishedAsWritten(OnStartAsWritten(q, "queue"), "queue").queue == Queue([], false)
      && OnErrorAsWritten(q, "queue", message).queue == Queue([], false)
      && OnStartAsWritten(OnFinishedAsWritten(q, "queue").queue, later).items == []
      && OnStart(q, "queue").items == [Item(other, Preparing), Item("queue", Preparing)]
      && OnFinished(OnStart(q, "queue"), "queue").queue == q
  {
    var q := Queue([Item(other, Preparing)], true);
    assert Keys(q.items) == [other];
    StartThenFinishRestores(q, "queue");
  }

  // ---------------------------------------------------------------------------
  // Helpers on distinct sequences
  // ---------------------------------------------------------------------------

  lemma DistinctIndex<T>(s: seq<T>, i: int, j: int)
    requires Distinct(s) && 0 <= i < |s| && 0 <= j < |s| && s[i] == s[j]
    ensures i == j
  {
  }

  lemma DistinctWithout<T>(s: seq<T>, i: int)
    requires Distinct(s) && 0 <= i < |s|
    ensures Distinct(s[..i] + s[i + 1..])
    ensures forall x :: x in s[..i] + s[i + 1..] <==> x in s && x != s[i]
  {
    var t := s[..i] + s[i + 1..];
    forall a, b | 0 <= a < b < |t|
      ensures t[a] != t[b]
    {
      var a' := if a < i then a else a + 1;
      var b' := if b < i then b else b + 1;
      assert t[a] == s[a'] && t[b] == s[b'];
    }
    forall x | x in s && x != s[i]
      ensures x in t
    {
      var k :| 0 <= k < |s| && s[k] == x;
      if k < i { assert t[k] == x; } else { assert t[k - 1] == x; }
    }
  }
}

=== FILE: signalgraph.dfy ===
/** The Web Audio node graph each player wires up, reduced to node kinds and
    the connections between them. beta.py runs the signal through a gain, ten
    peaking equaliser bands, a stereo panner, a compressor and a wave shaper;
    aura.py and the Go client use a gain, a wave shaper and a low and a high
    shelf filter. In every variant the analyser ends the chain and feeds a dry
    path and a reverb path, both ending at the speakers. */
module SignalGraph {

  import opened Text

  datatype Node =
    | Source                       // the buffer source of the current track
    | UnusedSource                 // aura.py: the source initAudio creates and never starts
    | Gain
    | Peaking(frequency: nat)      // an equaliser band, Q = 1
    | LowShelf(frequency: nat)
    | HighShelf(frequency: nat)
    | Panner
    | Compressor
    | Distortion
    | Analyser
    | DryGain
    | WetGain
    | Reverb
    | Destination

  type Edge = (Node, Node)

  datatype Variant = Beta | Aura | GoClient

  /** beta.py's equaliser bands, by centre frequency in Hz. */
  const EqBands: seq<Node> :=
    [Peaking(32), Peaking(64), Peaking(125), Peaking(250), Peaking(500),
     Peaking(1000), Peaking(2000), Peaking(4000), Peaking(8000), Peaking(16000)]

  /** The effect chain from the gain node to the analyser, in connection order. */
  function Chain(v: Variant): (r: seq<Node>)
    ensures |r| > 1 && r[0] == Gain && r[|r| - 1] == Analyser
  {
    match v
    case Beta => [Gain] + EqBands + [Panner, Compressor, Distortion, Analyser]
    case Aura => [Gain, Distortion, LowShelf(320), HighShelf(3200), Analyser]
    case GoClient => [Gain, Distortion, LowShelf(320), HighShelf(3200), Analyser]
  }

  /** The analyser's two outputs: straight to the speakers through the dry
      gain, and through the wet gain and the convolver reverb. */
  const Outputs: set<Edge> :=
    {(Analyser, DryGain), (DryGain, Destination), (Analyser, WetGain), (WetGain, Reverb), (Reverb, Destination)}

  /** The connection from the `i`-th node of `chain` to the next. */
  function LinkAt(chain: seq<Node>, i: int): Edge
    requires 0 <= i < |chain| - 1
  {
    (chain[i], chain[i + 1])
  }

  /** Each node of `chain` connected to the next. */
  function Links(chain: seq<Node>): set<Edge> {
    set i | 0 <= i < |chain| - 1 :: LinkAt(chain, i)
  }

  lemma LinksExtend(chain: seq<Node>, i: int)
    requires 0 < i < |chain|
    ensures Links(chain[..i + 1]) == Links(chain[..i]) + {(chain[i - 1], chain[i])}
  {
    var a, b := chain[..i + 1], chain[..i];
    forall e | e in Links(a) ensures e in Links(b) + {(chain[i - 1], chain[i])} {
      var k :| 0 <= k < |a| - 1 && e == LinkAt(a, k);
      if k < i - 1 {
        assert e == LinkAt(b, k);
      }
    }
    forall e | e in Links(b) + {(chain[i - 1], chain[i])} ensures e in Links(a) {
      if e in Links(b) {
        var k :| 0 <= k < |b| - 1 && e == LinkAt(b, k);
        assert e == LinkAt(a, k);
      } else {
        assert e == LinkAt(a, i - 1);
      }
    }
  }

  /** Connecting the nodes one after another, as beta.py's `forEach` over the
      equaliser bands and the `.connect(...)` chains do. */
  method ConnectChain(g: set<Edge>, chain: seq<Node>) returns (r: set<Edge>)
    ensures r == g + Links(chain)
  {
    r := g;
    if |chain| == 0 {
      assert Links(chain) == {};
      return;
    }
    var i := 1;
    assert Links(chain[..1]) == {};
    while i < |chain|
      invariant 1 <= i <= |chain|
      invariant r == g + Links(chain[..i])
    {
      LinksExtend(chain, i);
      r := r + {(chain[i - 1], chain[i])};
      i := i + 1;
    }
    assert chain[..i] == chain;
  }

  /** The nodes a node sends its signal to. */
  function Successors(g: set<Edge>, n: Node): set<Node> {
    set e | e in g && e.0 == n :: e.1
  }

  /** The graph `initAudio` leaves: beta.py and aura.py connect the chain and
      the outputs at once (aura.py starting from a source it never plays);
      the Go client connects nothing until a track starts. */
  function Init(v: Variant): set<Edge> {
    match v
    case Beta => Links(Chain(Beta)) + Outputs
    case Aura => Links([UnusedSource] + Chain(Aura)) + Outputs
    case GoClient => {}
  }

  /** `startPlayback`: the new source is connected to the gain node; the Go
      client's `connectAudioNodes` connects the whole chain and the outputs
      again. */
  function Start(v: Variant, g: set<Edge>): set<Edge> {
    if v == GoClient then g + Links([Source] + Chain(GoClient)) + Outputs
    else g + {(Source, Gain)}
  }

  /** `stopSong`: the current source is disconnected from everything. */
  function Stop(g: set<Edge>): set<Edge> {
    set e | e in g && e.0 != Source
  }

  /** What aura.py's `initAudio` adds besides the chain: its unused source. */
  function Extra(v: Variant): set<Edge> {
    if v == Aura then {(UnusedSource, Gain)} else {}
  }

  /** The graph while a track plays. */
  function Playing(v: Variant): set<Edge> {
    Links([Source] + Chain(v)) + Outputs + Extra(v)
  }

  lemma ConsLinks(n: Node, chain: seq<Node>)
    requires |chain| > 0
    ensures Links([n] + chain) == {(n, chain[0])} + Links(chain)
  {
    var c := [n] + chain;
    forall e | e in Links(c) ensures e in {(n, chain[0])} + Links(chain) {
      var k :| 0 <= k < |c| - 1 && e == LinkAt(c, k);
      if k > 0 {
        assert e == LinkAt(chain, k - 1);
      }
    }
    forall e | e in Links(chain) ensures e in Links(c) {
      var k :| 0 <= k < |chain| - 1 && e == LinkAt(chain, k);
      assert e == LinkAt(c, k + 1);
    }
    assert (n, chain[0]) == LinkAt(c, 0);
  }

  /** No connection of a chain without a source starts at the source. */
  lemma LinksAvoidSource(chain: seq<Node>)
    requires forall k :: 0 <= k < |chain| ==> chain[k] != Source
    ensures forall e :: e in Links(chain) ==> e.0 != Source
  {
    forall e | e in Links(chain) ensures e.0 != Source {
      var k :| 0 <= k < |chain| - 1 && e == LinkAt(chain, k);
    }
  }

  lemma ChainHasNoSource(v: Variant)
    ensures forall k :: 0 <= k < |Chain(v)| ==> Chain(v)[k] != Source
  {
  }

  /** Disconnecting the source of a playing chain leaves the rest of it. */
  lemma StopChain(chain: seq<Node>, x: set<Edge>)
    requires |chain| > 0 && forall k :: 0 <= k < |chain| ==> chain[k] != Source
    requires forall e :: e in x ==> e.0 != Source
    ensures Stop(Links([Source] + chain) + x) == Links(chain) + x
  {
    ConsLinks(Source, chain);
    LinksAvoidSource(chain);
  }

  /** Starting the first track gives the playing graph in every variant. */
  lemma FirstStartPlays(v: Variant)
    ensures Start(v, Init(v)) == Playing(v)
  {
    ConsLinks(Source, Chain(v));
    if v == Aura {
      ConsLinks(UnusedSource, Chain(v));
    }
  }

  /** Stopping disconnects the source and keeps everything else; starting
      again gives the same graph, because in the Go client connecting nodes
      that are already connected changes nothing. */
  lemma RestartPlays(v: Variant)
    ensures Successors(Stop(Playing(v)), Source) == {}
    ensures Stop(Playing(v)) == Links(Chain(v)) + Outputs + Extra(v)
    ensures Start(v, Stop(Playing(v))) == Playing(v)
  {
    ChainHasNoSource(v);
    StopChain(Chain(v), Outputs + Extra(v));
    assert Links([Source] + Chain(v)) + Outputs + Extra(v)
        == Links([Source] + Chain(v)) + (Outputs + Extra(v));
    ConsLinks(Source, Chain(v));
  }

  /** Every node of a chain without repeats sends its signal only to the next
      one, and the last node to none. */
  lemma LinearChain(chain: seq<Node>, i: int)
    requires Distinct(chain) && 0 <= i < |chain|
    ensures i < |chain| - 1 ==> Successors(Links(chain), chain[i]) == {chain[i + 1]}
    ensures i == |chain| - 1 ==> Successors(Links(chain), chain[i]) == {}
  {
    forall m | (chain[i], m) in Links(chain) ensures i < |chain| - 1 && m == chain[i + 1] {
      var k :| 0 <= k < |chain| - 1 && (chain[i], m) == LinkAt(chain, k);
      assert chain[k] == chain[i];
    }
    if i < |chain| - 1 {
      assert LinkAt(chain, i) in Links(chain);
    }
  }

  /** None of the output nodes, and not aura.py's unused source, is part of
      the chain. */
  predicate ChainApart(chain: seq<Node>) {
    forall k :: 0 <= k < |chain| ==>
      chain[k] !in {DryGain, WetGain, Reverb, Destination, UnusedSource}
  }

  /** The shape of a chain ending in the analyser, with the outputs attached. */
  lemma {:induction false} ChainShape(chain: seq<Node>, x: set<Edge>, i: int)
    requires Distinct(chain) && |chain| > 1 && chain[|chain| - 1] == Analyser && ChainApart(chain)
    requires forall e :: e in x ==> e.0 == UnusedSource
    requires 0 <= i < |chain| - 1
    ensures Successors(Links(chain) + Outputs + x, chain[i]) == {chain[i + 1]}
  {
    LinearChain(chain, i);
    var g := Links(chain) + Outputs + x;
    assert chain[i] != Analyser;
    forall m | (chain[i], m) in g ensures (chain[i], m) in Links(chain) {
    }
  }

  lemma {:induction false} OutputShape(chain: seq<Node>, x: set<Edge>)
    requires Distinct(chain) && |chain| > 1 && chain[|chain| - 1] == Analyser && ChainApart(chain)
    requires forall e :: e in x ==> e.0 == UnusedSource
    ensures Successors(Links(chain) + Outputs + x, Analyser) == {DryGain, WetGain}
    ensures Successors(Links(chain) + Outputs + x, DryGain) == {Destination}
    ensures Successors(Links(chain) + Outputs + x, WetGain) == {Reverb}
    ensures Successors(Links(chain) + Outputs + x, Reverb) == {Destination}
    ensures Successors(Links(chain) + Outputs + x, Destination) == {}
  {
    LinearChain(chain, |chain| - 1);
    var g := Links(chain) + Outputs + x;
    forall e | e in Links(chain)
      ensures e.0 !in {DryGain, WetGain, Reverb, Destination, UnusedSource}
    {
      var k :| 0 <= k < |chain| - 1 && e == LinkAt(chain, k);
    }
  }

  /** The playing chain of every variant repeats no node and keeps clear of
      the outputs. */
  lemma PlayingChainApart(v: Variant)
    ensures Distinct([Source] + Chain(v)) && ChainApart([Source] + Chain(v))
  {
    match v
    case Beta =>
      assert [Source] + Chain(v) == BetaPlaying;
      BetaPlayingApart();
    case Aura =>
      assert [Source] + Chain(v) == ShelfPlaying;
      ShelfPlayingApart();
    case GoClient =>
      assert [Source] + Chain(v) == ShelfPlaying;
      ShelfPlayingApart();
  }

  /** beta.py's chain behind the source. */
  const BetaPlaying: seq<Node> :=
    [Source, Gain] + EqBands + [Panner, Compressor, Distortion, Analyser]

  /** The chain of aura.py and the Go client behind the source. */
  const ShelfPlaying: seq<Node> :=
    [Source, Gain, Distortion, LowShelf(320), HighShelf(3200), Analyser]

  lemma BetaPlayingApart()
    ensures Distinct(BetaPlaying) && ChainApart(BetaPlaying)
  {
    var c := BetaPlaying;
    assert |c| == 16;
    forall i, j | 0 <= i < j < |c| ensures c[i] != c[j] {
      if 2 <= i < 12 && 2 <= j < 12 {
        assert c[i].frequency == EqBands[i - 2].frequency < EqBands[j - 2].frequency == c[j].frequency;
      }
    }
  }

  lemma ShelfPlayingApart()
    ensures Distinct(ShelfPlaying) && ChainApart(ShelfPlaying)
  {
  }

  /** While a track plays the signal runs from the source through every node
      of the chain in order, with no bypass, and the analyser alone forks it
      into the dry path and the reverb path, both ending at the speakers. */
  lemma SignalPath(v: Variant)
    ensures forall i :: 0 <= i < |Chain(v)| ==>
      Successors(Playing(v), ([Source] + Chain(v))[i]) == {([Source] + Chain(v))[i + 1]}
    ensures Successors(Playing(v), Analyser) == {DryGain, WetGain}
    ensures Successors(Playing(v), DryGain) == {Destination}
    ensures Successors(Playing(v), WetGain) == {Reverb}
    ensures Successors(Playing(v), Reverb) == {Destination}
    ensures Successors(Playing(v), Destination) == {}
  {
    var c := [Source] + Chain(v);
    PlayingChainApart(v);
    forall i | 0 <= i < |Chain(v)|
      ensures Successors(Playing(v), c[i]) == {c[i + 1]}
    {
      ChainShape(c, Extra(v), i);
    }
    OutputShape(c, Extra(v));
  }
}

=== FILE: sources.dfy ===
/** Where a download request goes: the extractor source the Python socket
    server picks from the query text, the search prefix the Go server picks
    from the request's source field, and the download buttons of the clients
    that send those requests and react to the answer. */
module Sources {

  import opened Wrappers
  import opened Text

  // ---------------------------------------------------------------------------
  // beta.py / k8o5.py: handle_download_song
  // ---------------------------------------------------------------------------

  /** The `default_search` value handed to the extractor. */
  datatype Source = YouTube | SoundCloud | YtSearch

  function SourceName(s: Source): string {
    match s
    case YouTube => "youtube"
    case SoundCloud => "soundcloud"
    case YtSearch => "ytsearch"
  }

  /** A link to YouTube in either of its two host spellings. */
  predicate MentionsYouTube(query: string) {
    Contains(query, "youtube.com") || Contains(query, "youtu.be")
  }

  predicate MentionsSoundCloud(query: string) {
    Contains(query, "soundcloud.com")
  }

  /** The classification in `handle_download_song`. */
  function Classify(query: string): (r: Source)
    ensures r == YouTube <==> MentionsYouTube(query)
    ensures r == SoundCloud <==> !MentionsYouTube(query) && MentionsSoundCloud(query)
    ensures r == YtSearch <==> !MentionsYouTube(query) && !MentionsSoundCloud(query)
  {
    if MentionsYouTube(query) then YouTube
    else if MentionsSoundCloud(query) then SoundCloud
    else YtSearch
  }

  /** A query mentioning both hosts goes to YouTube. */
  lemma YouTubeWinsOverSoundCloud(query: string)
    requires MentionsYouTube(query) && MentionsSoundCloud(query)
    ensures Classify(query) == YouTube
  {
  }

  /** Every recognised host name contains a dot, so free text without one is
      always a YouTube search. */
  lemma PlainTextIsSearch(query: string)
    requires '.' !in query
    ensures Classify(query) == YtSearch
  {
    if Contains(query, "youtube.com") {
      CharOfContained(query, "youtube.com", 7);
    }
    if Contains(query, "youtu.be") {
      CharOfContained(query, "youtu.be", 5);
    }
    if Contains(query, "soundcloud.com") {
      CharOfContained(query, "soundcloud.com", 10);
    }
  }

  lemma CharOfContained(s: string, sub: string, k: nat)
    requires Contains(s, sub) && k < |sub|
    ensures sub[k] in s
  {
    var i := ContainsWitness(s, sub);
    assert s[i + k] == s[i..i + |sub|][k];
  }

  /** A YouTube link wins wherever it sits in the query; a SoundCloud link
      anywhere in a query that mentions no YouTube host selects SoundCloud. */
  lemma ClassifyFindsLinkAnywhere(pre: string, url: string, post: string)
    ensures MentionsYouTube(url) ==> Classify(pre + url + post) == YouTube
    ensures MentionsSoundCloud(url) && !MentionsYouTube(pre + url + post) ==>
      Classify(pre + url + post) == SoundCloud
  {
    ContainsInfix(pre, url, post, "youtube.com");
    ContainsInfix(pre, url, post, "youtu.be");
    ContainsInfix(pre, url, post, "soundcloud.com");
  }

  lemma ContainsInfix(pre: string, s: string, post: string, sub: string)
    ensures Contains(s, sub) ==> Contains(pre + s + post, sub)
  {
    if Contains(s, sub) {
      var i := ContainsWitness(s, sub);
      assert (pre + s + post)[|pre| + i..|pre| + i + |sub|] == s[i..i + |sub|];
      ContainsAt(pre + s + post, sub, |pre| + i);
    }
  }

  // ---------------------------------------------------------------------------
  // beta.py: the Enter key in the search box
  // ---------------------------------------------------------------------------

  /** What pressing a key in the search box does: the query it emits, if any,
      and the box's new text. */
  datatype Submit = Submit(emitted: Option<string>, box: string)

  /** The keypress handler: on Enter, a query that is not all white space is
      sent trimmed and the box cleared; anything else changes nothing. */
  function EnterSubmit(key: string, box: string): (r: Submit)
    ensures r.emitted.Some? <==> key == "Enter" && exists k :: 0 <= k < |box| && !IsSpace(box[k])
    ensures r.emitted.Some? ==> r.box == [] && exists i :: TrimmedAt(box, r.emitted.value, i)
    ensures r.emitted.Some? ==>
      var q := r.emitted.value;
      |q| > 0 && !IsSpace(q[0]) && !IsSpace(q[|q| - 1])
    ensures r.emitted.None? ==> r.box == box
  {
    if key == "Enter" then
      var query := Trim(box);
      if query != [] then Submit(Some(query), []) else Submit(None, box)
    else Submit(None, box)
  }

  /** White space typed around a query never reaches the server: Enter sends
      the query itself. */
  lemma SubmitDropsSurroundingSpace(pre: string, query: string, post: string)
    requires forall k :: 0 <= k < |pre| ==> IsSpace(pre[k])
    requires forall k :: 0 <= k < |post| ==> IsSpace(post[k])
    requires |query| > 0 && !IsSpace(query[0]) && !IsSpace(query[|query| - 1])
    ensures EnterSubmit("Enter", pre + query + post) == Submit(Some(query), [])
  {
    var box := pre + query + post;
    assert box[|pre|..|pre| + |query|] == query;
    assert forall k :: |pre| + |query| <= k < |box| ==> box[k] == post[k - |pre| - |query|];
    assert TrimmedAt(box, query, |pre|);
    TrimUnique(box, query, |pre|);
  }

  // ---------------------------------------------------------------------------
  // k8o5.go: downloadHandler (server) and the download buttons (client)
  // ---------------------------------------------------------------------------

  /** The search prefix the Go server puts in front of the query. */
  function SearchPrefix(source: string): string {
    if source == "soundcloud" then "scsearch" else "ytsearch"
  }

  /** `fmt.Sprintf("%s:%s", prefix, query)`. */
  function SearchArgument(source: string, query: string): string {
    SearchPrefix(source) + ":" + query
  }

  /** The argument names SoundCloud's search exactly when the client asked for
      SoundCloud; every other source, `youtube` included, searches YouTube. */
  lemma SearchSelectsService(source: string, query: string)
    ensures StartsWith(SearchArgument(source, query), "scsearch:") <==> source == "soundcloud"
    ensures StartsWith(SearchArgument(source, query), "ytsearch:") <==> source != "soundcloud"
  {
    var a := SearchArgument(source, query);
    assert a[..9] == SearchPrefix(source) + ":";
    assert "scsearch:"[0] != "ytsearch:"[0];
  }

  /** The extractor splits the argument at its first colon: the prefix comes
      back as the part before it and the query, colons and all, as the rest. */
  lemma SearchArgumentParses(source: string, query: string)
    ensures UpTo(SearchArgument(source, query), ':') == SearchPrefix(source)
    ensures AfterFirst(SearchArgument(source, query), ':') == Some(query)
  {
    var p := SearchPrefix(source);
    var a := SearchArgument(source, query);
    assert ':' !in p;
    PrefixBeforeColon(p, query);
  }

  lemma {:induction false} PrefixBeforeColon(p: string, query: string)
    requires ':' !in p
    ensures UpTo(p + ":" + query, ':') == p
    ensures AfterFirst(p + ":" + query, ':') == Some(query)
    decreases |p|
  {
    if |p| == 0 {
      assert (p + ":" + query)[1..] == query;
    } else {
      assert p[0] in p;
      assert forall c :: c in p[1..] ==> c in p;
      assert (p + ":" + query)[1..] == p[1..] + ":" + query;
      PrefixBeforeColon(p[1..], query);
      assert [p[0]] + p[1..] == p;
    }
  }

  /** The command line handed to yt-dlp. */
  function DownloadCommand(source: string, query: string): seq<string> {
    ["--extract-audio", "--audio-format", "mp3", "--audio-quality", "192",
     "-o", "%(title)s.%(ext)s", SearchArgument(source, query)]
  }

  /** An HTTP answer: status code and body. `http.Error` ends its message with
      a line feed. */
  datatype HttpResponse = HttpResponse(status: int, body: string)

  const GoDownloadOk: string := "{\"success\": true, \"message\": \"Download erfolgreich\"}"

  /** How running yt-dlp went: `Ran(None, out)` for a zero exit status,
      `Ran(Some(err), out)` for a failure, with the combined output. */
  datatype CommandRun = NotInstalled | Ran(failure: Option<string>, output: string)

  /** `downloadHandler` after the request has been decoded: the command it
      runs, if any, and the answer. */
  function DownloadGo(source: string, query: string, run: CommandRun): (r: (Option<seq<string>>, HttpResponse))
    ensures r.0.Some? <==> !run.NotInstalled?
    ensures r.0.Some? ==> |r.0.value| > 0 && r.0.value[|r.0.value| - 1] == SearchArgument(source, query)
    ensures r.1.status == 200 <==> run.Ran? && run.failure.None?
    ensures r.1.status != 200 ==> r.1.status == 500 && |r.1.body| > 0
    ensures run.Ran? && run.failure.Some? ==>
      r.1.body == "Download fehlgeschlagen: " + run.failure.value + "\nOutput: " + run.output + "\n"
  {
    match run
    case NotInstalled => (None, HttpResponse(500, "yt-dlp not found in PATH" + "\n"))
    case Ran(failure, output) =>
      var cmd := DownloadCommand(source, query);
      if failure.Some? then
        (Some(cmd), HttpResponse(500, "Download fehlgeschlagen: " + failure.value + "\nOutput: " + output + "\n"))
      else (Some(cmd), HttpResponse(200, GoDownloadOk))
  }

  /** What a download button click leads to in the browser. */
  datatype Reaction = Nothing | Refresh | Alert(message: string)

  /** The outcome of one click: the request sent, if any, the reaction to the
      answer, and the input box's text afterwards. */
  datatype Click = Click(request: Option<(string, string)>, reaction: Reaction, box: string)

  /** The Go client's `downloadHandler` for the button of `source`
      ("youtube" or "soundcloud"), given the server's answer: an empty box
      returns at once (leaving the box as it was); otherwise the answer's
      status decides between a refresh and an alert, and the box is cleared. */
  function ClickGo(source: string, box: string, answer: HttpResponse): (r: Click)
    ensures r.request.None? <==> box == []
    ensures r.request.Some? ==> r.request.value == (box, source) && r.box == []
    ensures r.request.None? ==> r.reaction == Nothing && r.box == box
    ensures r.request.Some? ==>
      (r.reaction == Refresh <==> 200 <= answer.status <= 299)
    ensures r.request.Some? && !(200 <= answer.status <= 299) ==>
      r.reaction == Alert("Download failed: " + (if answer.body == [] then "Server error" else answer.body))
  {
    if box == [] then Click(None, Nothing, box)
    else if 200 <= answer.status <= 299 then Click(Some((box, source)), Refresh, [])
    else
      var text := if answer.body == [] then "Server error" else answer.body;
      Click(Some((box, source)), Alert("Download failed: " + text), [])
  }

  /** A click on either Go button, end to end: a non-empty query is searched
      on the button's site, the library is refreshed exactly when yt-dlp
      succeeded, and otherwise the alert carries the server's own message. */
  lemma GoButtonEndToEnd(soundcloud: bool, box: string, run: CommandRun)
    requires box != []
    ensures var source := if soundcloud then "soundcloud" else "youtube";
      var (cmd, answer) := DownloadGo(source, box, run);
      var c := ClickGo(source, box, answer);
      && (cmd.Some? ==> cmd.value[|cmd.value| - 1] == (if soundcloud then "scsearch:" else "ytsearch:") + box)
      && (c.reaction == Refresh <==> run.Ran? && run.failure.None?)
      && (c.reaction != Refresh ==> c.reaction == Alert("Download failed: " + answer.body))
  {
  }

  // ---------------------------------------------------------------------------
  // aura.py: download_audio_backend and the download buttons
  // ---------------------------------------------------------------------------

  /** The JSON result of aura's `/api/download`. */
  datatype AuraResult = AuraSuccess | AuraError(message: string)

  /** `download_audio_backend`: success exactly when the download raised
      nothing, else the exception's text. */
  function DownloadAura(raised: Option<string>): AuraResult {
    match raised
    case None => AuraSuccess
    case Some(msg) => AuraError(msg)
  }

  /** The two buttons; each sends its own fixed `default_search` value. */
  datatype AuraButton = YouTubeButton | SoundCloudButton

  function AuraButtonSource(b: AuraButton): string {
    if b == YouTubeButton then "ytsearch" else "scsearch"
  }

  /** A click on an aura download button: an empty box sends nothing;
      otherwise the query goes out with the button's source, a `success`
      answer refreshes the playlist and any other answer alerts. The box is
      never cleared. */
  function ClickAura(b: AuraButton, box: string, answer: AuraResult): (r: Click)
    ensures r.request.None? <==> box == []
    ensures r.request.Some? ==> r.request.value == (box, AuraButtonSource(b))
    ensures r.request.None? ==> r.reaction == Nothing
    ensures r.request.Some? ==> (r.reaction == Refresh <==> answer.AuraSuccess?)
    ensures r.request.Some? && answer.AuraError? ==> r.reaction == Alert("Download failed: " + answer.message)
    ensures r.box == box
  {
    if box == [] then Click(None, Nothing, box)
    else
      match answer
      case AuraSuccess => Click(Some((box, AuraButtonSource(b))), Refresh, box)
      case AuraError(msg) => Click(Some((box, AuraButtonSource(b))), Alert("Download failed: " + msg), box)
  }

  /** End to end: the playlist is refreshed exactly when the download raised
      nothing, and the alert otherwise shows the exception's text. */
  lemma AuraButtonEndToEnd(b: AuraButton, box: string, raised: Option<string>)
    requires box != []
    ensures var c := ClickAura(b, box, DownloadAura(raised));
      && (c.reaction == Refresh <==> raised.None?)
      && (raised.Some? ==> c.reaction == Alert("Download failed: " + raised.value))
  {
  }
}

=== FILE: text.dfy ===
/** String helpers shared by the server and client models: the substring and
    suffix tests of Python's `in` / `str.endswith`, Go's `strings.Contains` /
    `strings.HasSuffix` and JavaScript's `includes`, the code-point order that
    Python's `sorted` and Go's `sort.Strings` put file names in, and the few
    JavaScript string operations the client relies on. */
module Text {

  import opened Wrappers

  // ---------------------------------------------------------------------------
  // Prefix, suffix, substring
  // ---------------------------------------------------------------------------

  predicate StartsWith(s: string, prefix: string) {
    |prefix| <= |s| && s[..|prefix|] == prefix
  }

  predicate EndsWith(s: string, suffix: string) {
    |suffix| <= |s| && s[|s| - |suffix|..] == suffix
  }

  /** `sub` occurs somewhere in `s` (every string contains the empty string). */
  predicate Contains(s: string, sub: string)
    decreases |s|
  {
    StartsWith(s, sub) || (|s| > 0 && Contains(s[1..], sub))
  }

  lemma {:induction false} ContainsAt(s: string, sub: string, i: nat)
    requires i + |sub| <= |s| && s[i..i + |sub|] == sub
    ensures Contains(s, sub)
    decreases i
  {
    if i == 0 {
      assert s[..|sub|] == sub;
    } else {
      assert s[1..][i - 1..i - 1 + |sub|] == s[i..i + |sub|];
      ContainsAt(s[1..], sub, i - 1);
    }
  }

  lemma {:induction false} ContainsWitness(s: string, sub: string) returns (i: nat)
    requires Contains(s, sub)
    ensures i + |sub| <= |s| && s[i..i + |sub|] == sub
    decreases |s|
  {
    if StartsWith(s, sub) {
      i := 0;
    } else {
      var j := ContainsWitness(s[1..], sub);
      assert s[1..][j..j + |sub|] == s[j + 1..j + 1 + |sub|];
      i := j + 1;
    }
  }

  /** `sub` occurs in `s` starting at position `i`. */
  predicate OccursAt(s: string, sub: string, i: nat) {
    i + |sub| <= |s| && s[i..i + |sub|] == sub
  }

  /** `Contains` means exactly "occurs at some position". */
  lemma ContainsIff(s: string, sub: string)
    ensures Contains(s, sub) <==> exists i: nat :: OccursAt(s, sub, i)
  {
    if Contains(s, sub) {
      var i := ContainsWitness(s, sub);
      assert OccursAt(s, sub, i);
    }
    if exists i: nat :: OccursAt(s, sub, i) {
      var i: nat :| OccursAt(s, sub, i);
      ContainsAt(s, sub, i);
    }
  }

  // ---------------------------------------------------------------------------
  // Code-point order on strings
  // ---------------------------------------------------------------------------

  /** Strict lexicographic order on code points: Python's `<` on `str`, and Go's
      `<` on UTF-8 strings (byte order of UTF-8 agrees with code-point order). */
  predicate Less(a: string, b: string)
    decreases |a|
  {
    |b| > 0 && (|a| == 0 || a[0] < b[0] || (a[0] == b[0] && Less(a[1..], b[1..])))
  }

  lemma {:induction false} LessIrreflexive(a: string)
    ensures !Less(a, a)
    decreases |a|
  {
    if |a| > 0 {
      LessIrreflexive(a[1..]);
    }
  }

  lemma {:induction false} LessAsymmetric(a: string, b: string)
    ensures Less(a, b) ==> !Less(b, a)
    decreases |a|
  {
    if |a| > 0 && |b| > 0 && a[0] == b[0] {
      LessAsymmetric(a[1..], b[1..]);
    }
  }

  lemma {:induction false} LessTransitive(a: string, b: string, c: string)
    requires Less(a, b) && Less(b, c)
    ensures Less(a, c)
    decreases |a|
  {
    if |a| > 0 && a[0] == b[0] && b[0] == c[0] {
      LessTransitive(a[1..], b[1..], c[1..]);
    }
  }

  lemma {:induction false} LessTotal(a: string, b: string)
    requires a != b
    ensures Less(a, b) || Less(b, a)
    decreases |a|
  {
    if |a| > 0 && |b| > 0 && a[0] == b[0] {
      assert a == [a[0]] + a[1..] && b == [b[0]] + b[1..];
      LessTotal(a[1..], b[1..]);
    }
  }

  /** Strictly ascending, hence also free of duplicates. */
  predicate StrictlySorted(s: seq<string>) {
    forall i, j :: 0 <= i < j < |s| ==> Less(s[i], s[j])
  }

  /** Insertion of a new name into a strictly sorted sequence, the step the
      listing's sort is built from. */
  function Insert(s: seq<string>, x: string): (r: seq<string>)
    requires StrictlySorted(s) && x !in s
    ensures StrictlySorted(r)
    ensures |r| == |s| + 1
    ensures forall y :: y in r <==> y in s || y == x
    decreases |s|
  {
    if |s| == 0 then [x]
    else if Less(x, s[0]) then
      InsertFrontSorted(s, x);
      [x] + s
    else
      LessTotal(x, s[0]);
      var r := [s[0]] + Insert(s[1..], x);
      assert forall i :: 0 < i < |r| ==> Less(s[0], r[i]) by {
        forall i | 0 < i < |r|
          ensures Less(s[0], r[i])
        {
          assert r[i] in s[1..] || r[i] == x;
        }
      }
      r
  }

  lemma InsertFrontSorted(s: seq<string>, x: string)
    requires StrictlySorted(s) && |s| > 0 && Less(x, s[0])
    ensures StrictlySorted([x] + s)
  {
    forall j | 0 < j < |s|
      ensures Less(x, s[j])
    {
      LessTransitive(x, s[0], s[j]);
    }
  }

  lemma SameElementsSameEmptiness(a: seq<string>, b: seq<string>)
    requires forall y :: y in a <==> y in b
    ensures |a| == 0 <==> |b| == 0
  {
    if |a| > 0 {
      assert a[0] in b;
    }
    if |b| > 0 {
      assert b[0] in a;
    }
  }

  /** A strictly sorted sequence is determined by its elements: two listings of
      the same set of names are equal. */
  lemma {:induction false} SortedUnique(a: seq<string>, b: seq<string>)
    requires StrictlySorted(a) && StrictlySorted(b)
    requires forall y :: y in a <==> y in b
    ensures a == b
    decreases |a|
  {
    SameElementsSameEmptiness(a, b);
    if |a| == 0 {
    } else {
      assert a[0] in b;
      assert |b| > 0;
      if a[0] != b[0] {
        assert b[0] in a;
        var i :| 0 <= i < |a| && a[i] == b[0];
        var j :| 0 <= j < |b| && b[j] == a[0];
        assert Less(a[0], b[0]);
        assert Less(b[0], a[0]);
        LessAsymmetric(a[0], b[0]);
      }
      forall y
        ensures y in a[1..] <==> y in b[1..]
      {
        if y in a[1..] {
          var i :| 1 <= i < |a| && a[i] == y;
          LessIrreflexive(a[0]);
          assert y != a[0];
          assert y in b;
        }
        if y in b[1..] {
          var j :| 1 <= j < |b| && b[j] == y;
          LessIrreflexive(b[0]);
          assert y != b[0];
          assert y in a;
        }
      }
      SortedUnique(a[1..], b[1..]);
      assert a == [a[0]] + a[1..] && b == [b[0]] + b[1..];
    }
  }

  // ---------------------------------------------------------------------------
  // JavaScript helpers used by the client
  // ---------------------------------------------------------------------------

  /** `Array.prototype.indexOf`: the first position of `x`, or -1. */
  function IndexOf<T(==)>(s: seq<T>, x: T): (i: int)
    ensures -1 <= i < |s|
    ensures i == -1 <==> x !in s
    ensures i >= 0 ==> s[i] == x && x !in s[..i]
    decreases |s|
  {
    if |s| == 0 then -1
    else if s[0] == x then 0
    else
      var k := IndexOf(s[1..], x);
      assert s[1..][..if k < 0 then 0 else k] == s[1..if k < 0 then 1 else k + 1];
      if k == -1 then -1 else k + 1
  }

  /** Elements without repetition, as a directory's names are. */
  predicate Distinct<T(==)>(s: seq<T>) {
    forall i, j :: 0 <= i < j < |s| ==> s[i] != s[j]
  }

  lemma SortedDistinct(s: seq<string>)
    requires StrictlySorted(s)
    ensures Distinct(s)
  {
    forall i, j | 0 <= i < j < |s|
      ensures s[i] != s[j]
    {
      LessIrreflexive(s[i]);
    }
  }

  /** In a sequence without repetition, `indexOf` finds an element at its own position. */
  lemma {:induction false} IndexOfDistinct<T>(s: seq<T>, i: int)
    requires Distinct(s) && 0 <= i < |s|
    ensures IndexOf(s, s[i]) == i
    decreases i
  {
    if i > 0 {
      assert s[0] != s[i];
      assert s[1..][i - 1] == s[i];
      IndexOfDistinct(s[1..], i - 1);
    }
  }

  /** The white space and line terminators `String.prototype.trim` removes:
      tab, line feed, vertical tab, form feed, carriage return, space, no-break
      space, the byte-order mark and the Unicode space separators, line and
      paragraph separators. */
  predicate IsSpace(c: char) {
    c == '\t' || c == '\n' || c == '\U{000B}' || c == '\U{000C}' || c == '\r' || c == ' '
    || c == '\U{00A0}' || c == '\U{1680}' || '\U{2000}' <= c <= '\U{200A}'
    || c == '\U{2028}' || c == '\U{2029}' || c == '\U{202F}' || c == '\U{205F}'
    || c == '\U{3000}' || c == '\U{FEFF}'
  }

  /** Number of white-space characters at the start of `s`. */
  function LeadingSpace(s: string): (n: nat)
    ensures n <= |s|
    ensures forall k :: 0 <= k < n ==> IsSpace(s[k])
    ensures n < |s| ==> !IsSpace(s[n])
    decreases |s|
  {
    if |s| > 0 && IsSpace(s[0]) then 1 + LeadingSpace(s[1..]) else 0
  }

  /** Number of white-space characters at the end of `s`. */
  function TrailingSpace(s: string): (n: nat)
    ensures n <= |s|
    ensures forall k :: |s| - n <= k < |s| ==> IsSpace(s[k])
    ensures n < |s| ==> !IsSpace(s[|s| - n - 1])
    decreases |s|
  {
    if |s| > 0 && IsSpace(s[|s| - 1]) then 1 + TrailingSpace(s[..|s| - 1]) else 0
  }

  /** `r` is what is left of `s` once `i` characters of white space are cut
      from its front and only white space from its back. */
  predicate TrimmedAt(s: string, r: string, i: int) {
    && 0 <= i && i + |r| <= |s| && s[i..i + |r|] == r
    && (forall k :: 0 <= k < i ==> IsSpace(s[k]))
    && (forall k :: i + |r| <= k < |s| ==> IsSpace(s[k]))
  }

  /** `s` starts with exactly `i` and ends with exactly `j` characters of
      white space, the two runs apart unless `s` is all white space. */
  predicate Margins(s: string, i: int, j: int) {
    && 0 <= i && 0 <= j && i + j <= |s|
    && (forall k :: 0 <= k < i ==> IsSpace(s[k]))
    && (i < |s| ==> !IsSpace(s[i]))
    && (forall k :: |s| - j <= k < |s| ==> IsSpace(s[k]))
    && (i + j < |s| ==> !IsSpace(s[|s| - j - 1]))
  }

  /** `String.prototype.trim`: `s` with its leading and trailing white space
      cut and nothing else, so the result neither starts nor ends with white
      space, and is empty exactly when `s` is all white space. */
  function Trim(s: string): (r: string)
    ensures exists i :: TrimmedAt(s, r, i)
    ensures |r| > 0 ==> !IsSpace(r[0]) && !IsSpace(r[|r| - 1])
    ensures Contains(s, r)
    ensures r == [] <==> forall k :: 0 <= k < |s| ==> IsSpace(s[k])
  {
    var i := LeadingSpace(s);
    SuffixTrailing(s, i);
    var j := TrailingSpace(s[i..]);
    var r := s[i..|s| - j];
    TrimPiece(s, i, j, r);
    r
  }

  /** The piece between the two runs of white space is a trimmed form of `s`. */
  lemma TrimPiece(s: string, i: int, j: int, r: string)
    requires Margins(s, i, j) && r == s[i..|s| - j]
    ensures TrimmedAt(s, r, i) && Contains(s, r)
    ensures |r| > 0 ==> !IsSpace(r[0]) && !IsSpace(r[|r| - 1])
    ensures r == [] <==> forall k :: 0 <= k < |s| ==> IsSpace(s[k])
  {
    assert s[i..i + |r|] == r;
    ContainsAt(s, r, i);
    if |r| > 0 {
      assert r[0] == s[i];
      assert r[|r| - 1] == s[|s| - j - 1];
    }
  }

  /** The leading run of `s` and the trailing run of what follows it are the
      margins of `s`. */
  lemma SuffixTrailing(s: string, i: nat)
    requires i == LeadingSpace(s)
    ensures Margins(s, i, TrailingSpace(s[i..]))
  {
    var t := s[i..];
    var j := TrailingSpace(t);
    forall k | |s| - j <= k < |s| ensures IsSpace(s[k]) {
      assert s[k] == t[k - i];
    }
    if j < |t| {
      assert s[|s| - j - 1] == t[|t| - j - 1];
    }
  }

  /** Cutting white space from both ends has exactly one outcome that neither
      starts nor ends with white space: `Trim`'s. */
  lemma TrimUnique(s: string, q: string, i: int)
    requires TrimmedAt(s, q, i)
    requires |q| > 0 ==> !IsSpace(q[0]) && !IsSpace(q[|q| - 1])
    ensures q == Trim(s)
  {
    if |q| == 0 {
      forall k | 0 <= k < |s| ensures IsSpace(s[k]) {
        if k >= i {
          assert i + |q| <= k;
        }
      }
    } else {
      var n := LeadingSpace(s);
      assert !IsSpace(s[i]) by { assert s[i] == q[0]; }
      assert n == i;
      var t := s[n..];
      var j := TrailingSpace(t);
      var e := |t| - |q|;
      assert !IsSpace(t[|q| - 1]) by { assert t[|q| - 1] == q[|q| - 1]; }
      assert forall k :: |q| <= k < |t| ==> IsSpace(t[k]) by {
        assert forall k :: |q| <= k < |t| ==> t[k] == s[n + k];
      }
      assert j == e;
      assert t[..|t| - j] == q;
    }
  }

  /** `String.prototype.toLowerCase`, on the ASCII letters. */
  function LowerChar(c: char): char {
    if 'A' <= c <= 'Z' then (c as int + 32) as char else c
  }

  function Lower(s: string): (r: string)
    ensures |r| == |s|
    ensures forall i :: 0 <= i < |s| ==> r[i] == LowerChar(s[i])
  {
    seq(|s|, i requires 0 <= i < |s| => LowerChar(s[i]))
  }

  /** The text after the first `c`, or `None` when `s` has no `c`. */
  function AfterFirst(s: string, c: char): (r: Option<string>)
    ensures r.None? <==> c !in s
    ensures r.Some? ==> |r.value| < |s| && s[|s| - |r.value| - 1] == c && c !in s[..|s| - |r.value| - 1]
    decreases |s|
  {
    if |s| == 0 then None
    else if s[0] == c then Some(s[1..])
    else
      var r := AfterFirst(s[1..], c);
      if r.Some? then assert s[1..][..|s| - 1 - |r.value| - 1] == s[1..|s| - |r.value| - 1]; r else r
  }

  /** The text before the first `c`, or all of `s` when it has none. */
  function UpTo(s: string, c: char): (r: string)
    ensures StartsWith(s, r) && c !in r
    ensures |r| < |s| ==> s[|r|] == c
    decreases |s|
  {
    if |s| == 0 || s[0] == c then []
    else [s[0]] + UpTo(s[1..], c)
  }

  /** `s.split(c)[1]`: the second `c`-separated field, undefined (`None`) when
      `s` has no `c`. */
  function SecondField(s: string, c: char): (r: Option<string>)
    ensures r.None? <==> c !in s
    ensures r.Some? ==> c !in r.value
  {
    match AfterFirst(s, c)
    case None => None
    case Some(rest) => Some(UpTo(rest, c))
  }

}

=== FILE: worker.dfy ===
/** The socket server's download worker (`download_audio_backend` with its
    `progress_hook`, shared by beta.py and k8o5.py): the sequence of
    `download_start`, `download_progress`, `download_finished` and
    `download_error` events one worker emits. The extractor is abstract: it
    yields either an extraction error or a resolved result, and each entry
    carries the progress reports its download makes and how the download ends.
    The whole loop sits in one `try`, so the first exception ends the trace. */
module Worker {

  import opened Wrappers

  /** One emitted event. Progress figures (percentage, sizes, speed) are not
      modelled: only the key the client files them under. */
  datatype Event =
    | Start(filename: string)
    | Progress(filename: string)
    | Finished(filename: string)
    | Error(message: string, filename: string)

  /** The `speed` field of a progress report: missing, present but `None`, or a number. */
  datatype Speed = SpeedAbsent | SpeedNull | SpeedValue

  /** One call of `progress_hook`. `infoTitle` is the title inside `info_dict`
      (`None` when either is missing); the totals are `total_bytes` and
      `total_bytes_estimate`, with 0 standing for a missing, `None` or zero
      value (all falsy). */
  datatype HookCall = HookCall(status: string, infoTitle: Option<string>,
                               totalBytes: real, totalEstimate: real, speed: Speed)

  /** One resolved entry: its title and page URL (each possibly missing), the
      hook calls its download makes, and how the blocking download call ends
      (`Some(message)` for an exception). */
  datatype Entry = Entry(title: Option<string>, webpageUrl: Option<string>,
                         hooks: seq<HookCall>, outcome: Option<string>)

  /** What `extract_info` returns: a single item, or a playlist or search
      result with `entries`. */
  datatype Info = Single(item: Entry) | Playlist(entries: seq<Entry>)

  datatype Extraction = ExtractionFailed(message: string) | Extracted(info: Info)

  /** How a `None` speed is treated: as the code does (`None / 1024` raises),
      or as the `d.get('speed', 0)` default evidently intends (as zero). */
  datatype SpeedHandling = NullSpeedRaises | NullSpeedAsZero

  const DefaultTitle: string := "Downloading..."
  const UnknownKey: string := "unknown"
  /** `str(e)` of the `KeyError` raised by `entry['webpage_url']`. */
  const MissingUrlMessage: string := "'webpage_url'"
  /** `str(e)` of the `TypeError` raised by `None / 1024`. */
  const NullSpeedMessage: string := "unsupported operand type(s) for /: 'NoneType' and 'int'"

  /** `info.get('entries', [info])`. */
  function Entries(info: Info): seq<Entry> {
    match info
    case Single(e) => [e]
    case Playlist(es) => es
  }

  /** A single video is downloaded exactly as a playlist holding only it. */
  lemma SingleIsOneEntryPlaylist(e: Entry, h: SpeedHandling)
    ensures TraceWith(Extracted(Single(e)), h) == TraceWith(Extracted(Playlist([e])), h)
  {
  }

  /** The key an entry starts under: `entry.get('title', 'Downloading...')`. */
  function StartKey(e: Entry): string {
    e.title.GetOr(DefaultTitle)
  }

  /** `download_id or 'unknown'`. */
  function OrUnknown(id: string): (r: string)
    ensures r != []
    ensures id != [] ==> r == id
  {
    if id == [] then UnknownKey else id
  }

  // ---------------------------------------------------------------------------
  // The progress hook
  // ---------------------------------------------------------------------------

  predicate Downloading(c: HookCall) {
    c.status == "downloading"
  }

  /** The title a "downloading" report sets the key to. */
  function ReportedTitle(c: HookCall): string {
    c.infoTitle.GetOr(DefaultTitle)
  }

  /** The report carries a truthy total and a non-empty title, so the hook
      goes on to compute and emit progress. */
  predicate Reports(c: HookCall) {
    Downloading(c) && (c.totalBytes != 0.0 || c.totalEstimate != 0.0) && ReportedTitle(c) != []
  }

  /** The report makes the hook raise under the given handling of `None`. */
  predicate Raises(c: HookCall, h: SpeedHandling) {
    h == NullSpeedRaises && Reports(c) && c.speed == SpeedNull
  }

  /** Events so far, the current `download_id`, and the exception that ended
      the run, if any. */
  datatype Run = Run(events: seq<Event>, id: string, failure: Option<string>)

  /** One call of `progress_hook` with the current `download_id`. */
  function Hook(id: string, c: HookCall, h: SpeedHandling): (r: Run)
    ensures Downloading(c) ==> r.id == ReportedTitle(c)
    ensures !Downloading(c) ==> r.id == id
    ensures r.failure.Some? <==> Raises(c, h)
    ensures r.failure.Some? ==> r.failure.value == NullSpeedMessage && r.events == []
    ensures r.failure.None? ==> (r.events == [Progress(r.id)] <==> Reports(c)) && (r.events == [] <==> !Reports(c))
  {
    if !Downloading(c) then Run([], id, None)
    else
      var current := ReportedTitle(c);
      var id' := if id == [] || id != current then current else id;
      var total := if c.totalBytes != 0.0 then c.totalBytes else c.totalEstimate;
      if total != 0.0 && id' != [] then
        if c.speed == SpeedNull && h == NullSpeedRaises then Run([], id', Some(NullSpeedMessage))
        else Run([Progress(id')], id', None)
      else Run([], id', None)
  }

  /** The hook calls of one download in order, stopping at the first that raises. */
  function RunHooks(hooks: seq<HookCall>, id: string, h: SpeedHandling): (r: Run)
    ensures forall i :: 0 <= i < |r.events| ==> r.events[i].Progress? && r.events[i].filename != []
    ensures r.failure.Some? <==> exists k :: 0 <= k < |hooks| && Raises(hooks[k], h)
    ensures r.failure.Some? ==> r.failure.value == NullSpeedMessage
    decreases |hooks|
  {
    if |hooks| == 0 then Run([], id, None)
    else
      var s := Hook(id, hooks[0], h);
      if s.failure.Some? then s
      else
        var rest := RunHooks(hooks[1..], s.id, h);
        assert forall k :: 1 <= k < |hooks| ==> hooks[k] == hooks[1..][k - 1];
        Run(s.events + rest.events, rest.id, rest.failure)
  }

  // ---------------------------------------------------------------------------
  // Entries and the whole trace
  // ---------------------------------------------------------------------------

  /** An entry's download completes: its URL is present, no report raises and
      the download call returns. */
  predicate EntryOk(e: Entry, h: SpeedHandling) {
    && e.webpageUrl.Some?
    && (forall k :: 0 <= k < |e.hooks| ==> !Raises(e.hooks[k], h))
    && e.outcome.None?
  }

  /** One iteration of the loop: start under the entry's title, look up its
      URL, run the download (with its hook calls) and report it finished under
      the key the hooks left behind. */
  function RunEntry(e: Entry, h: SpeedHandling): (r: Run)
    ensures |r.events| > 0 && r.events[0] == Start(StartKey(e))
    ensures r.failure.None? <==> EntryOk(e, h)
    ensures r.failure.None? ==> r.events[|r.events| - 1] == Finished(r.id)
    ensures forall i :: 0 < i < |r.events| - 1 ==> r.events[i].Progress?
    ensures r.failure.Some? ==> forall i :: 0 < i < |r.events| ==> r.events[i].Progress?
    ensures e.webpageUrl.None? ==> r == Run([Start(StartKey(e))], StartKey(e), Some(MissingUrlMessage))
    ensures e.webpageUrl.Some? && !EntryOk(e, h) && (forall k :: 0 <= k < |e.hooks| ==> !Raises(e.hooks[k], h))
            ==> r.failure == e.outcome
  {
    var id := StartKey(e);
    if e.webpageUrl.None? then Run([Start(id)], id, Some(MissingUrlMessage))
    else
      var d := RunHooks(e.hooks, id, h);
      if d.failure.Some? then Run([Start(id)] + d.events, d.id, d.failure)
      else if e.outcome.Some? then Run([Start(id)] + d.events, d.id, e.outcome)
      else Run([Start(id)] + d.events + [Finished(d.id)], d.id, None)
  }

  /** The loop over the entries, from the given `download_id`; the first
      failing entry ends it. */
  function RunAll(entries: seq<Entry>, id: string, h: SpeedHandling): (r: Run)
    ensures |entries| == 0 ==> r == Run([], id, None)
    decreases |entries|
  {
    if |entries| == 0 then Run([], id, None)
    else
      var r := RunEntry(entries[0], h);
      if r.failure.Some? then r
      else
        var rest := RunAll(entries[1..], r.id, h);
        Run(r.events + rest.events, rest.id, rest.failure)
  }

  /** `download_audio_backend` with the given handling of a `None` speed: the
      events of the loop, then, if an exception ended it, one error event under
      `download_id or 'unknown'`. */
  function TraceWith(x: Extraction, h: SpeedHandling): seq<Event> {
    match x
    case ExtractionFailed(msg) => [Error(msg, OrUnknown([]))]
    case Extracted(info) =>
      var r := RunAll(Entries(info), [], h);
      r.events + (if r.failure.Some? then [Error(r.failure.value, OrUnknown(r.id))] else [])
  }

  /** The worker as written. */
  function TraceAsWritten(x: Extraction): (t: seq<Event>)
    ensures x.ExtractionFailed? ==> t == [Error(x.message, UnknownKey)]
  {
    TraceWith(x, NullSpeedRaises)
  }

  /** The worker with a `None` speed read as zero, as its default evidently
      intends; the rest of the model uses this one. */
  function Trace(x: Extraction): (t: seq<Event>)
    ensures x.ExtractionFailed? ==> t == [Error(x.message, UnknownKey)]
  {
    TraceWith(x, NullSpeedAsZero)
  }

  // ---------------------------------------------------------------------------
  // The event protocol
  // ---------------------------------------------------------------------------

  /** Where a trace stands: between downloads, inside the download started
      under `key`, or ended by an error. */
  datatype Phase = Idle | Open(key: string) | Done

  /** The order the client relies on: a start only between downloads, progress
      and finished only inside one, an error at most once and last. */
  function Step(p: Phase, e: Event): Option<Phase> {
    match (p, e)
    case (Idle, Start(k)) => Some(Open(k))
    case (Open(k), Progress(_)) => Some(Open(k))
    case (Open(_), Finished(_)) => Some(Idle)
    case (Idle, Error(_, _)) => Some(Done)
    case (Open(_), Error(_, _)) => Some(Done)
    case _ => None
  }

  function Walk(events: seq<Event>, p: Phase): Option<Phase>
    decreases |events|
  {
    if |events| == 0 then Some(p)
    else
      match Step(p, events[0])
      case None => None
      case Some(q) => Walk(events[1..], q)
  }

  /** A trace that follows the protocol and ends between downloads or after
      its error. */
  predicate WellFormed(events: seq<Event>) {
    Walk(events, Idle) == Some(Idle) || Walk(events, Idle) == Some(Done)
  }

  lemma {:induction false} WalkAppend(a: seq<Event>, b: seq<Event>, p: Phase)
    ensures Walk(a + b, p) == (match Walk(a, p) case None => None case Some(q) => Walk(b, q))
    decreases |a|
  {
    if |a| > 0 {
      assert (a + b)[0] == a[0];
      assert (a + b)[1..] == a[1..] + b;
      match Step(p, a[0])
      case None =>
      case Some(q) => WalkAppend(a[1..], b, q);
    } else {
      assert a + b == b;
    }
  }

  lemma {:induction false} WalkProgress(events: seq<Event>, k: string)
    requires forall i :: 0 <= i < |events| ==> events[i].Progress?
    ensures Walk(events, Open(k)) == Some(Open(k))
    decreases |events|
  {
    if |events| > 0 {
      WalkProgress(events[1..], k);
    }
  }

  /** An entry's events: its start, progress reports, and its finished event
      when it completes. */
  lemma EntryShape(e: Entry, h: SpeedHandling) returns (mid: seq<Event>)
    ensures forall i :: 0 <= i < |mid| ==> mid[i].Progress?
    ensures RunEntry(e, h).events == [Start(StartKey(e))] + mid + Tail(RunEntry(e, h))
  {
    if e.webpageUrl.None? {
      mid := [];
    } else {
      mid := RunHooks(e.hooks, StartKey(e), h).events;
    }
  }

  /** The finished event a completed run ends with. */
  function Tail(r: Run): seq<Event> {
    if r.failure.None? then [Finished(r.id)] else []
  }

  lemma WalkEntry(e: Entry, h: SpeedHandling)
    ensures var r := RunEntry(e, h);
      Walk(r.events, Idle) == (if r.failure.None? then Some(Idle) else Some(Open(StartKey(e))))
  {
    var r := RunEntry(e, h);
    var k := StartKey(e);
    var mid := EntryShape(e, h);
    assert r.events == [Start(k)] + (mid + Tail(r));
    WalkAppend([Start(k)], mid + Tail(r), Idle);
    WalkProgress(mid, k);
    WalkAppend(mid, Tail(r), Open(k));
  }

  lemma {:induction false} WalkRunAll(entries: seq<Entry>, id: string, h: SpeedHandling)
    ensures var r := RunAll(entries, id, h);
      && (r.failure.None? ==> Walk(r.events, Idle) == Some(Idle))
      && (r.failure.Some? ==> exists k :: Walk(r.events, Idle) == Some(Open(k)))
    decreases |entries|
  {
    if |entries| > 0 {
      var r := RunEntry(entries[0], h);
      WalkEntry(entries[0], h);
      if r.failure.None? {
        var rest := RunAll(entries[1..], r.id, h);
        WalkRunAll(entries[1..], r.id, h);
        WalkAppend(r.events, rest.events, Idle);
      } else {
        assert Walk(r.events, Idle) == Some(Open(StartKey(entries[0])));
      }
    }
  }

  /** Every trace follows the protocol: no progress or finished event outside
      its own download, no start inside another, and at most one error, last. */
  lemma TraceWellFormed(x: Extraction, h: SpeedHandling)
    ensures WellFormed(TraceWith(x, h))
    ensures forall i :: 0 <= i < |TraceWith(x, h)| - 1 ==> !TraceWith(x, h)[i].Error?
  {
    TraceFollowsProtocol(x, h);
    DoneIsFinal(TraceWith(x, h), Idle);
  }

  lemma TraceFollowsProtocol(x: Extraction, h: SpeedHandling)
    ensures WellFormed(TraceWith(x, h))
  {
    match x
    case ExtractionFailed(msg) =>
    case Extracted(info) =>
      var r := RunAll(Entries(info), [], h);
      WalkRunAll(Entries(info), [], h);
      if r.failure.Some? {
        var k :| Walk(r.events, Idle) == Some(Open(k));
        WalkAppend(r.events, [Error(r.failure.value, OrUnknown(r.id))], Idle);
      } else {
        assert r.events + [] == r.events;
      }
  }

  lemma NothingAfterDone(events: seq<Event>)
    requires |events| > 0
    ensures Walk(events, Done) == None
  {
  }

  /** An error event can only be the last one. */
  lemma {:induction false} DoneIsFinal(events: seq<Event>, p: Phase)
    requires Walk(events, p).Some?
    ensures forall i :: 0 <= i < |events| - 1 ==> !events[i].Error?
    decreases |events|
  {
    if |events| > 1 {
      var q := Step(p, events[0]).value;
      NothingAfterDone(events[1..]);
      DoneIsFinal(events[1..], q);
      assert forall i :: 1 <= i < |events| - 1 ==> events[i] == events[1..][i - 1];
    }
  }

  // ---------------------------------------------------------------------------
  // Counting the events
  // ---------------------------------------------------------------------------

  /** The keys of the start events, in order. */
  function StartKeys(events: seq<Event>): seq<string>
    decreases |events|
  {
    if |events| == 0 then []
    else (if events[0].Start? then [events[0].filename] else []) + StartKeys(events[1..])
  }

  function FinishedCount(events: seq<Event>): nat
    decreases |events|
  {
    if |events| == 0 then 0
    else (if events[0].Finished? then 1 else 0) + FinishedCount(events[1..])
  }

  function ErrorCount(events: seq<Event>): nat
    decreases |events|
  {
    if |events| == 0 then 0
    else (if events[0].Error? then 1 else 0) + ErrorCount(events[1..])
  }

  lemma {:induction false} CountsAppend(a: seq<Event>, b: seq<Event>)
    ensures StartKeys(a + b) == StartKeys(a) + StartKeys(b)
    ensures FinishedCount(a + b) == FinishedCount(a) + FinishedCount(b)
    ensures ErrorCount(a + b) == ErrorCount(a) + ErrorCount(b)
    decreases |a|
  {
    if |a| > 0 {
      assert (a + b)[0] == a[0];
      assert (a + b)[1..] == a[1..] + b;
      CountsAppend(a[1..], b);
    } else {
      assert a + b == b;
    }
  }

  lemma {:induction false} CountsOfProgress(events: seq<Event>)
    requires forall i :: 0 <= i < |events| ==> events[i].Progress?
    ensures StartKeys(events) == [] && FinishedCount(events) == 0 && ErrorCount(events) == 0
    decreases |events|
  {
    if |events| > 0 {
      CountsOfProgress(events[1..]);
    }
  }

  lemma CountsOfEntry(e: Entry, h: SpeedHandling)
    ensures var r := RunEntry(e, h);
      && StartKeys(r.events) == [StartKey(e)]
      && FinishedCount(r.events) == (if r.failure.None? then 1 else 0)
      && ErrorCount(r.events) == 0
  {
    var r := RunEntry(e, h);
    var mid := EntryShape(e, h);
    assert r.events == [Start(StartKey(e))] + (mid + Tail(r));
    CountsAppend([Start(StartKey(e))], mid + Tail(r));
    CountsOfProgress(mid);
    CountsAppend(mid, Tail(r));
  }

  /** The entries' start keys, in order. */
  function StartKeysOf(entries: seq<Entry>): (r: seq<string>)
    ensures |r| == |entries|
    ensures forall i :: 0 <= i < |entries| ==> r[i] == StartKey(entries[i])
  {
    seq(|entries|, i requires 0 <= i < |entries| => StartKey(entries[i]))
  }

  lemma StartKeysOfCons(entries: seq<Entry>)
    requires |entries| > 0
    ensures StartKeysOf(entries) == [StartKey(entries[0])] + StartKeysOf(entries[1..])
  {
  }

  /** A completed first entry contributes its start and finished events,
      then the loop carries on with the rest under the key it left behind. */
  lemma CountsOfCompletedFirst(entries: seq<Entry>, id: string, h: SpeedHandling)
    requires |entries| > 0 && EntryOk(entries[0], h)
    ensures var r := RunAll(entries, id, h);
      var rest := RunAll(entries[1..], RunEntry(entries[0], h).id, h);
      && r.failure == rest.failure
      && StartKeys(r.events) == [StartKey(entries[0])] + StartKeys(rest.events)
      && FinishedCount(r.events) == 1 + FinishedCount(rest.events)
      && ErrorCount(r.events) == ErrorCount(rest.events)
  {
    var r := RunEntry(entries[0], h);
    CountsOfEntry(entries[0], h);
    var rest := RunAll(entries[1..], r.id, h);
    CountsAppend(r.events, rest.events);
  }

  /** When every entry completes, each is started once, in order and under its
      own title, each finishes, and no error is emitted. */
  lemma {:induction false} AllSucceed(entries: seq<Entry>, id: string, h: SpeedHandling)
    requires forall k :: 0 <= k < |entries| ==> EntryOk(entries[k], h)
    ensures var r := RunAll(entries, id, h);
      && r.failure.None?
      && StartKeys(r.events) == StartKeysOf(entries)
      && FinishedCount(r.events) == |entries|
      && ErrorCount(r.events) == 0
    decreases |entries|
  {
    if |entries| > 0 {
      assert EntryOk(entries[0], h);
      CountsOfCompletedFirst(entries, id, h);
      AllSucceed(entries[1..], RunEntry(entries[0], h).id, h);
      StartKeysOfCons(entries);
    }
  }

  /** When entry `k` is the first that fails, exactly the entries up to and
      including it are started, the `k` before it finish, and the later ones
      produce no events at all. */
  lemma {:induction false} FirstFailureEnds(entries: seq<Entry>, k: nat, id: string, h: SpeedHandling)
    requires k < |entries| && !EntryOk(entries[k], h)
    requires forall j :: 0 <= j < k ==> EntryOk(entries[j], h)
    ensures var r := RunAll(entries, id, h);
      && r.failure.Some?
      && StartKeys(r.events) == StartKeysOf(entries[..k + 1])
      && FinishedCount(r.events) == k
      && ErrorCount(r.events) == 0
    decreases k
  {
    StartKeysOfCons(entries[..k + 1]);
    assert entries[..k + 1][1..] == entries[1..][..k];
    if k > 0 {
      assert EntryOk(entries[0], h);
      CountsOfCompletedFirst(entries, id, h);
      FirstFailureEnds(entries[1..], k - 1, RunEntry(entries[0], h).id, h);
    } else {
      CountsOfEntry(entries[0], h);
      assert StartKeysOf(entries[1..][..0]) == [];
    }
  }

  /** A whole trace, counted: with every entry completing there is one start
      and one finished event per entry and no error; otherwise the trace has
      exactly one error, as its last event, under a non-empty key. */
  lemma TraceCounts(x: Extraction, h: SpeedHandling)
    ensures x.Extracted? && (forall k :: 0 <= k < |Entries(x.info)| ==> EntryOk(Entries(x.info)[k], h)) ==>
      && StartKeys(TraceWith(x, h)) == StartKeysOf(Entries(x.info))
      && FinishedCount(TraceWith(x, h)) == |Entries(x.info)|
      && ErrorCount(TraceWith(x, h)) == 0
    ensures x.ExtractionFailed? || (exists k :: 0 <= k < |Entries(x.info)| && !EntryOk(Entries(x.info)[k], h)) ==>
      var t := TraceWith(x, h);
      && ErrorCount(t) == 1
      && |t| > 0 && t[|t| - 1].Error? && t[|t| - 1].filename != []
  {
    if x.Extracted? {
      var es := Entries(x.info);
      if forall k :: 0 <= k < |es| ==> EntryOk(es[k], h) {
        TraceOfCompletedRun(es, x, h);
      } else {
        var k := FirstFailing(es, h);
        TraceOfFailedRun(es, k, x, h);
      }
    }
  }

  lemma TraceOfCompletedRun(es: seq<Entry>, x: Extraction, h: SpeedHandling)
    requires x.Extracted? && es == Entries(x.info)
    requires forall k :: 0 <= k < |es| ==> EntryOk(es[k], h)
    ensures StartKeys(TraceWith(x, h)) == StartKeysOf(es)
    ensures FinishedCount(TraceWith(x, h)) == |es| && ErrorCount(TraceWith(x, h)) == 0
  {
    var r := RunAll(es, [], h);
    AllSucceed(es, [], h);
    assert TraceWith(x, h) == r.events + [] == r.events;
  }

  lemma TraceOfFailedRun(es: seq<Entry>, k: nat, x: Extraction, h: SpeedHandling)
    requires x.Extracted? && es == Entries(x.info)
    requires k < |es| && !EntryOk(es[k], h) && forall j :: 0 <= j < k ==> EntryOk(es[j], h)
    ensures var t := TraceWith(x, h);
      && ErrorCount(t) == 1
      && |t| > 0 && t[|t| - 1].Error? && t[|t| - 1].filename != []
  {
    var r := RunAll(es, [], h);
    FirstFailureEnds(es, k, [], h);
    CountsAppend(r.events, [Error(r.failure.value, OrUnknown(r.id))]);
  }

  /** The index of the first failing entry. */
  lemma FirstFailing(entries: seq<Entry>, h: SpeedHandling) returns (k: nat)
    requires exists j :: 0 <= j < |entries| && !EntryOk(entries[j], h)
    ensures k < |entries| && !EntryOk(entries[k], h)
    ensures forall j :: 0 <= j < k ==> EntryOk(entries[j], h)
  {
    k := 0;
    while EntryOk(entries[k], h)
      invariant k < |entries|
      invariant forall j :: 0 <= j < k ==> EntryOk(entries[j], h)
      invariant exists j :: k <= j < |entries| && !EntryOk(entries[j], h)
      decreases |entries| - k
    {
      k := k + 1;
    }
  }

  // ---------------------------------------------------------------------------
  // Keys
  // ---------------------------------------------------------------------------

  /** An entry whose reports all carry its own title. */
  predicate StableEntry(e: Entry) {
    && e.title.Some?
    && forall k :: 0 <= k < |e.hooks| ==> Downloading(e.hooks[k]) ==> ReportedTitle(e.hooks[k]) == e.title.value
  }

  /** An entry whose reports keep its title is known by its start key
      throughout, whether it completes or not. */
  lemma StableEntryKey(e: Entry, h: SpeedHandling)
    requires StableEntry(e)
    ensures RunEntry(e, h).id == StartKey(e)
    ensures forall i :: 0 <= i < |RunEntry(e, h).events| ==> RunEntry(e, h).events[i].filename == StartKey(e)
  {
    if e.webpageUrl.Some? {
      StableTitleKeepsKey(e.hooks, StartKey(e), h);
    }
  }

  /** The loop ends where its first failing entry ends: with that entry's
      exception, and with `download_id` as that entry left it. */
  lemma {:induction false} FailureIsFirstFailing(entries: seq<Entry>, k: nat, id: string, h: SpeedHandling)
    requires k < |entries| && !EntryOk(entries[k], h)
    requires forall j :: 0 <= j < k ==> EntryOk(entries[j], h)
    ensures RunAll(entries, id, h).failure == RunEntry(entries[k], h).failure
    ensures RunAll(entries, id, h).id == RunEntry(entries[k], h).id
    decreases k
  {
    if k > 0 {
      assert EntryOk(entries[0], h);
      assert entries[1..][k - 1] == entries[k];
      FailureIsFirstFailing(entries[1..], k - 1, RunEntry(entries[0], h).id, h);
    }
  }

  /** A completed first entry's events come first, then the loop carries on
      from the key it left behind. */
  lemma RunAllCons(entries: seq<Entry>, id: string, h: SpeedHandling)
    requires |entries| > 0 && EntryOk(entries[0], h)
    ensures RunAll(entries, id, h).events ==
      RunEntry(entries[0], h).events + RunAll(entries[1..], RunEntry(entries[0], h).id, h).events
  {
  }

  /** In a loop over entries that keep their titles, every event is filed
      under the start key of one of them. */
  lemma {:induction false} StableRunKeys(entries: seq<Entry>, id: string, h: SpeedHandling)
    requires forall k :: 0 <= k < |entries| ==> StableEntry(entries[k])
    ensures forall i :: 0 <= i < |RunAll(entries, id, h).events| ==>
      RunAll(entries, id, h).events[i].filename in StartKeysOf(entries)
    decreases |entries|
  {
    if |entries| > 0 {
      var r := RunEntry(entries[0], h);
      var keys := StartKeysOf(entries);
      StableEntryKey(entries[0], h);
      assert keys[0] == StartKey(entries[0]);
      if r.failure.None? {
        var rest := RunAll(entries[1..], r.id, h);
        StableRunKeys(entries[1..], r.id, h);
        StartKeysOfCons(entries);
        assert forall i :: 0 <= i < |rest.events| ==> rest.events[i].filename in keys;
        KeysOfConcat(r.events, rest.events, keys);
      }
    }
  }

  lemma KeysOfConcat(a: seq<Event>, b: seq<Event>, keys: seq<string>)
    requires forall i :: 0 <= i < |a| ==> a[i].filename in keys
    requires forall i :: 0 <= i < |b| ==> b[i].filename in keys
    ensures forall i :: 0 <= i < |a + b| ==> (a + b)[i].filename in keys
  {
    forall i | 0 <= i < |a + b| ensures (a + b)[i].filename in keys {
      if i >= |a| {
        assert (a + b)[i] == b[i - |a|];
      }
    }
  }

  /** When entry `k` is the first to fail, the trace's last event is the error
      carrying that entry's exception, filed under the key the entry was last
      known by; for an entry whose reports keep its title, that is the key its
      start event used, so the client can take its item down. */
  lemma TraceFailureKey(x: Extraction, k: nat, h: SpeedHandling)
    requires x.Extracted? && k < |Entries(x.info)| && !EntryOk(Entries(x.info)[k], h)
    requires forall j :: 0 <= j < k ==> EntryOk(Entries(x.info)[j], h)
    ensures var t := TraceWith(x, h); var r := RunEntry(Entries(x.info)[k], h);
      && r.failure.Some? && |t| > 0
      && t[|t| - 1] == Error(r.failure.value, OrUnknown(r.id))
    ensures StableEntry(Entries(x.info)[k]) ==>
      var t := TraceWith(x, h);
      t[|t| - 1] == Error(RunEntry(Entries(x.info)[k], h).failure.value, OrUnknown(StartKey(Entries(x.info)[k])))
  {
    var es := Entries(x.info);
    FailureIsFirstFailing(es, k, [], h);
    if StableEntry(es[k]) {
      StableEntryKey(es[k], h);
    }
  }

  /** When every "downloading" report of an entry names the entry's own title,
      the entry starts, progresses and finishes under that one key. */
  lemma {:induction false} StableTitleKeepsKey(hooks: seq<HookCall>, t: string, h: SpeedHandling)
    requires forall k :: 0 <= k < |hooks| ==> Downloading(hooks[k]) ==> ReportedTitle(hooks[k]) == t
    ensures RunHooks(hooks, t, h).id == t
    ensures forall i :: 0 <= i < |RunHooks(hooks, t, h).events| ==> RunHooks(hooks, t, h).events[i] == Progress(t)
    decreases |hooks|
  {
    if |hooks| > 0 {
      var s := Hook(t, hooks[0], h);
      if s.failure.None? {
        StableTitleKeepsKey(hooks[1..], t, h);
      }
    }
  }

  /** A report with a different title re-keys the download: the finished event
      carries the reported title, not the one the start event used. */
  lemma HookRekeys(e: Entry, c: HookCall)
    requires e.webpageUrl.Some? && e.outcome.None? && e.hooks == [c]
    requires Downloading(c) && ReportedTitle(c) != StartKey(e)
    ensures RunEntry(e, NullSpeedAsZero).events[0] == Start(StartKey(e))
    ensures RunEntry(e, NullSpeedAsZero).events[|RunEntry(e, NullSpeedAsZero).events| - 1]
            == Finished(ReportedTitle(c))
  {
    assert EntryOk(e, NullSpeedAsZero);
    assert RunHooks(e.hooks, StartKey(e), NullSpeedAsZero).id == ReportedTitle(c);
  }

  /** When extraction fails before any entry, the error is filed under "unknown". */
  lemma ExtractionFailureIsUnknown(msg: string, h: SpeedHandling)
    ensures TraceWith(ExtractionFailed(msg), h) == [Error(msg, "unknown")]
  {
  }

  // ---------------------------------------------------------------------------
  // A report with `speed: None`
  // ---------------------------------------------------------------------------

  /** The first report of a download often carries `speed: None`; `d.get` only
      defaults a missing key, so `None / 1024` raises and the worker gives up
      on a download that would have completed. */
  lemma NullSpeedAbortsAsWritten()
    ensures var c := HookCall("downloading", Some("Song"), 1000.0, 0.0, SpeedNull);
      var x := Extracted(Single(Entry(Some("Song"), Some("https://example.org/v"), [c], None)));
      && TraceAsWritten(x) == [Start("Song"), Error(NullSpeedMessage, "Song")]
      && Trace(x) == [Start("Song"), Progress("Song"), Finished("Song")]
  {
    var c := HookCall("downloading", Some("Song"), 1000.0, 0.0, SpeedNull);
    var e := Entry(Some("Song"), Some("https://example.org/v"), [c], None);
    assert Raises(c, NullSpeedRaises);
    assert RunHooks([c], "Song", NullSpeedRaises) == Run([], "Song", Some(NullSpeedMessage));
    assert RunHooks([c], "Song", NullSpeedAsZero) == Run([Progress("Song")], "Song", None);
    assert [e][1..] == [];
  }

  /** With a `None` speed read as zero no report ever raises: an entry fails
      exactly when its URL is missing or its download call raises. */
  lemma ReportsNeverAbort(e: Entry)
    ensures RunEntry(e, NullSpeedAsZero).failure.None? <==> e.webpageUrl.Some? && e.outcome.None?
  {
  }
}

=== FILE: wrappers.dfy ===
/** Optional values and results with an error, as the model's replacement for
    Python's None / exceptions, JavaScript's null / undefined and Go's error returns. */
module Wrappers {

  datatype Option<+T> = None | Some(value: T) {

    /** The value, or `default` when there is none (JavaScript's `x || default`). */
    function GetOr(default: T): T {
      match this
      case Some(v) => v
      case None => default
    }
  }

  datatype Result<+R, +E> = Success(value: R) | Failure(error: E)
}
